=== FILE: README.md ===
# Latency Topology Visualizer — a Dafny model of its data logic

The Latency Topology Visualizer draws crypto exchanges and cloud regions on a globe.
It connects each exchange to some regions with a latency figure, and it surrounds the
globe with panels: search, a performance dashboard, a trend chart, exchange details and
export. This project models the small, sequential logic under that rendering:

- **The latency generators.** These are the base simulator (`useLatencyData`) and the
  adapter hook (`useRealLatencyData`). The adapter maps the proxy's payload onto
  exchange-region pairs, adds a geographic offset, builds a local "enhanced mock" and
  derives a history from current values. The model also covers the hook's dispatch on
  the outcome of its fetch.
- **The server routes.** These are `/api/health` and the `/api/radar/netflows` proxy,
  with its key check, its first-success-wins walk over three upstream endpoints and its
  generated fallback series.
- **The zustand map store.** It holds the provider list toggle, the dark-mode toggle
  and the single-field setters.
- **The derived views.** These are search with its eight-result limit, the globe's
  connection selection, the CSV/JSON/PDF export data, the dashboard's metrics and
  colours, the exchange panel's prefix-matched average and label, the chart's scale,
  coordinates and statistics, and `getContinent` / `estimateLatency`.

Everything is functional:

- Each `Math.random()` draw is a real in [0, 1) passed in.
- Each shuffle is a passed-in arrangement of the region list without repeats.
- Clock readings (`Date.now()`, the local hour) are parameters, one reading per operation.
- A fetch outcome is a datatype value.
- `Math.sqrt` of the squared degree distance is passed in as a non-negative root
  whose square is that distance.
- The sine patterns of the histories are passed in as values in [-1, 1].
- A JavaScript object of latencies is the list of its properties in insertion order
  (`Latencies.LatencyData`), and `obj[k] = v` is `Latencies.Put`.
- `Math.round` is `floor(x + 0.5)` (`Numbers.Round`).

One module per source file: `Simulator`, `Adapter`, `Server`, `Store`, `Search`,
`ExchangeMap`, `Export`, `Dashboard`, `ExchangeInfo`, `Chart` and `Geo`. They share these
modules:

- `Generation`: the "2 to 4 connections from the front of a shuffled region list"
  scheme, which all three generators use.
- `History`: the four time ranges.
- `Latencies`: the latency object.
- `Catalog`: the hard-coded id lists and the data-file records.
- `Numbers`, `Text` and `Wrappers`.

## Model

| member | source | states |
|---|---|---|
| Generation.ConnectionCount | client/src/hooks/useLatencyData.ts:43 | `2 + floor(r * 3)` for a draw in [0, 1) is always 2, 3 or 4 |
| Generation.ConnectionCountOnto | client/src/hooks/useLatencyData.ts:43 | each of 2, 3 and 4 is reached by some draw in [0, 1) |
| Generation.SlotsSize | client/src/hooks/useLatencyData.ts:41-49 | the loops visit one slot per connection, so an object of n exchanges gets between 2n and 4n slots |
| Generation.SlotsMembership | client/src/hooks/useLatencyData.ts:41-49 | the visited slots are exactly (exchange j, i-th shuffled region) for i below j's connection count |
| Generation.KeyInjective | client/src/hooks/useLatencyData.ts:48 | two `${exchange}-${region}` keys coincide only for the same exchange and region, given ids that are not '-'-prefixes of one another |
| Generation.SlotKeysDistinct | client/src/hooks/useLatencyData.ts:41-49 | no two slots produce the same key, because regions come from a list without repeats and exchange ids are separated |
| Generation.BuildFromEmpty | client/src/hooks/useLatencyData.ts:38-53 | assigning one new key per slot to `{}` only appends: the object is the slot entries in order, with none overwritten |
| Generation.GeneratedShape | client/src/hooks/useLatencyData.ts:38-57 | a generated object holds one property per slot, in slot order, with distinct keys, between 2 and 4 per exchange |
| Generation.ExchangeKeys | client/src/hooks/useLatencyData.ts:44-48 | exchange j has a key for region r exactly when r is among the first `connectionCount` regions of its shuffled list |
| Generation.GeneratedWithEntries | client/src/hooks/useLatencyData.ts:41-54 | every property is the connection of some exchange to one of its chosen regions, valued by the generator's formula on that slot |
| Generation.GeneratedWithin | client/src/hooks/useLatencyData.ts:48-53 | a property every slot's value has holds for every value, and every key pairs a listed exchange with a listed region |
| Generation.ConnectionsWith | client/src/hooks/useLatencyData.ts:43-47 | an exchange is connected to exactly the front `connectionCount` regions of its shuffle, and those are distinct |
| Latencies.Put | client/src/hooks/useLatencyData.ts:53 | `obj[k] = v` makes `k` read `v`, leaves every other key's value alone, keeps keys distinct, and appends only when `k` is new |
| Latencies.Lookup | client/src/components/ExchangeMap.tsx:71 | `obj[k]` is defined exactly when some property has key `k`, and then it is that property's value |
| Latencies.AssignFresh | client/src/hooks/useLatencyData.ts:38-54 | a run of assignments of new keys yields the starting object followed by the entries, in order |
| Latencies.Matching | client/src/components/UI/ExchangeInfo.tsx:21-23 | the entries kept by `key.startsWith(prefix)` are exactly the object's entries with that prefix, each as often as in the object and none more; nothing else is kept |
| Latencies.MatchingConcat | client/src/components/UI/ExchangeInfo.tsx:21-23 | the filter keeps insertion order: filtering two consecutive parts of an object and joining the results is filtering the whole |
| Latencies.MatchingSingle | client/src/components/UI/ExchangeInfo.tsx:21-23 | a single entry is kept exactly when its key starts with the prefix |
| Simulator.PairLatency | client/src/hooks/useLatencyData.ts:51-53 | a simulated latency is at least 5, and between 10 and 130 for draws in [0, 1) |
| Simulator.FloorNeverBinds | client/src/hooks/useLatencyData.ts:51-53 | with draws in [0, 1) the floor `Math.max(5, …)` never applies: the value is the rounded sum |
| Simulator.GenerateLatencyData | client/src/hooks/useLatencyData.ts:22-57 | `generateLatencyData` yields 26 to 52 distinct keys, each `${exchange}-${region}` over the 13 and 17 listed ids, every latency in 10..130 |
| Simulator.ConnectionsPerExchange | client/src/hooks/useLatencyData.ts:41-48 | exchange j is connected to region r exactly when r is among the first `connectionCount` of its shuffled regions, which are distinct |
| Simulator.PointLatency | client/src/hooks/useLatencyData.ts:87-93 | a historical latency is at least 10, and between 30 and 120 for draws in range |
| Simulator.GenerateHistoricalData | client/src/hooks/useLatencyData.ts:71-100 | the history has the ranges 1h/24h/7d/30d with 60/24/7/30 points, strictly increasing timestamps ending at `now`, latencies in 30..120 |
| Simulator.LatencyTick | client/src/hooks/useLatencyData.ts:38-57 | the 5-second tick sets the latency object to exactly what the draws generate: 26 to 52 entries, each latency in [10, 130]; the history is left alone |
| Simulator.HistoryTick | client/src/hooks/useLatencyData.ts:80-100 | the 60-second tick sets the history to exactly what `now` and the draws generate: the four ranges with 60, 24, 7 and 30 points; the latency object is left alone |
| Simulator.TicksForgetOldData | client/src/hooks/useLatencyData.ts:38-100 | both ticks build a fresh object: two states given the same draws end with the same latency object, and with the same history |
| History.Series | client/src/hooks/useLatencyData.ts:83-95 | a series has exactly the configured number of points, carrying the given latencies in order |
| History.SeriesTimeline | client/src/hooks/useLatencyData.ts:85-86 | consecutive timestamps differ by exactly the interval, and the last one is `now` |
| History.SeriesIncreasing | client/src/hooks/useLatencyData.ts:85-86 | with a positive interval, timestamps strictly increase |
| History.Historical | client/src/hooks/useLatencyData.ts:73-98 | the history maps exactly the four range labels, each to its range's series |
| History.HistoricalShape | client/src/hooks/useLatencyData.ts:73-98 | the ranges hold 60/24/7/30 points, every series is non-empty, oldest first, and ends at `now` |
| Adapter.Locate | client/src/hooks/useRealLatencyData.ts:130-141 | a position is found exactly when the id is in the 7-entry lookup, and it is the position listed for that id |
| Adapter.GeographicLatency | client/src/hooks/useRealLatencyData.ts:128-151 | the offset is never negative; for two known ids its square is 4 times the squared degree distance, otherwise it is below 20 |
| Adapter.FartherIsSlower | client/src/hooks/useRealLatencyData.ts:145-150 | between two pairs of known ids, the farther pair gets the larger offset |
| Adapter.MetricCycles | client/src/hooks/useRealLatencyData.ts:114 | connection indices reuse the series' values round-robin: index i and index i + length read the same value |
| Adapter.Metric | client/src/hooks/useRealLatencyData.ts:114 | a metric is present exactly when the series has values, and connection index i reads the value at i modulo the series length |
| Adapter.MetricReadsFirstFour | client/src/hooks/useRealLatencyData.ts:106-114 | an index below four reads one of the first four values, so series of one length that agree there give the same metric |
| Adapter.OnlyFirstFourValuesUsed | client/src/hooks/useRealLatencyData.ts:105-119 | with at most four connections per exchange, every slot gets the same latency, and the generator the same object, from any two series of one length that agree on their first four values |
| Adapter.ProxyCurrentFirstFour | client/src/hooks/useRealLatencyData.ts:102-120 | the processed latency object depends on the series only through its length and first four values |
| Adapter.CloudflareLatency | client/src/hooks/useRealLatencyData.ts:114-118 | every latency is at least 5; with valid draws, without a metric it is at least 20, and with metric m at least `max(5, round(m * 100))` |
| Adapter.RealPointLatency | client/src/hooks/useRealLatencyData.ts:172-178 | a derived historical point is at least 10 and lies within 36 ms of the current average |
| Adapter.HistoricalFromReal | client/src/hooks/useRealLatencyData.ts:153-186 | the derived history has the four ranges of 60/24/7/30 points, increasing and ending at `now`; every point is at least 10, above the smallest current value minus 36 and at most the larger of 10 and the largest current value plus 36 |
| Adapter.MockLatency | client/src/hooks/useRealLatencyData.ts:214-219 | an enhanced-mock latency is at least 5; with valid draws at least 10, and at least 25 during the peak hours |
| Adapter.PeakHourBonus | client/src/hooks/useRealLatencyData.ts:216-219 | for the same draws, a reading at an hour in 8..18 is exactly 15 ms above one outside those hours |
| Adapter.CurrentShape | client/src/hooks/useRealLatencyData.ts:105-120 | both the proxy mapping and the enhanced mock produce 26 to 52 distinct keys |
| Adapter.ProcessCloudflareData | client/src/hooks/useRealLatencyData.ts:87-126 | `processCloudflareData` gives 26 to 52 distinct keys over the 13 exchanges and 12 proxy regions, each at least 5, and a four-range history |
| Adapter.EnhancedMockData | client/src/hooks/useRealLatencyData.ts:188-226 | `generateEnhancedMockData` gives 26 to 52 distinct keys over the 13 exchanges and 17 regions, each at least 10, and a four-range history |
| Adapter.InFlight | client/src/hooks/useRealLatencyData.ts:44-45 | while a request is in flight the hook is loading with no error and still serves the previous data |
| Adapter.RouteOf | client/src/hooks/useRealLatencyData.ts:50-81 | the data comes from the server's payload exactly when the body is ok and carries data with `success` or `fallback`; the error stays cleared exactly on success with data |
| Adapter.RouteErrors | client/src/hooks/useRealLatencyData.ts:50-77 | each failure path records its own error text: the thrown message, `Server API error: <status> - <text>`, `API unavailable: <message>`, the engine's message for a fallback without data, or `Unexpected server response format` |
| Adapter.RouteDataWellFormed | client/src/hooks/useRealLatencyData.ts:58-81 | whichever route a response selects, its data has 26 to 52 distinct keys, each at least 5, and the four range labels |
| Adapter.FetchNetworkQuality | client/src/hooks/useRealLatencyData.ts:37-85 | without a key the state does not change; with a key every outcome ends not loading, with the route's error and well-formed data from the route's source |
| Adapter.EmptyErrorMessage | client/src/hooks/useRealLatencyData.ts:77 | a thrown `Error` with an empty message leaves an empty, present error string |
| Server.Health | server/routes.ts:6-8 | the health check always answers status "ok" with the clock's timestamp |
| Server.FixedText | server/routes.ts:17 | `toFixed(2)` text has a point followed by exactly two digits |
| Server.ParseFixedText | server/routes.ts:17 | `parseFloat` of the server's `toFixed(2)` text gives back exactly n/100 for n hundredths |
| Server.SampleHundredths | server/routes.ts:17 | a mock value `r * 100 + 20` written with two decimals is between 20.00 and 120.00 |
| Server.ServerMockData | server/routes.ts:11-21 | the mock has exactly 24 samples |
| Server.ServerMockShape | server/routes.ts:15-17 | the mock's timestamps are hourly, ascending and end at `now`; every value reads back as a number in [20, 120] |
| Server.FirstUsable | server/routes.ts:47-70 | the walk returns the first usable answer at or after i, every earlier one having failed, or none when all fail |
| Server.ServerErrorReply | server/routes.ts:81-89 | the outer catch replies with the fallback and never with success, carries the mock as data, and its message is `Server error: <message> - using enhanced mock data`, with 'Unknown error' for a thrown value that is not an `Error` |
| Server.ServerErrorWarning | server/routes.ts:81-89 | the adapter takes the outer catch's mock as server data and shows `API unavailable: Server error: <message> - using enhanced mock data` |
| Server.Netflows | server/routes.ts:25-80 | every reply is success or fallback, never both or neither; success comes from the first usable endpoint after every earlier one failed and nothing later was requested; a fallback carries the mock payload and no endpoint; without a key nothing is requested and the message is the no-key text; with a key and all failing, all three were requested and the message is the all-failed text |
| Server.FirstEndpointWins | server/routes.ts:47-62 | when the first endpoint answers usably, it alone is requested and it is the reply's endpoint |
| Server.AllEndpointsFail | server/routes.ts:72-79 | when every endpoint fails, the reply is the fallback with the mock as data and the all-failed message |
| Server.ReplyAlwaysCarriesData | server/routes.ts:32-79 | every reply carries data, so the client always takes its data from the server, and its error is cleared exactly when an upstream endpoint succeeded |
| Server.NoKeyWarning | server/routes.ts:31-38 | with no key on the server, the client shows `API unavailable: No API key configured - using enhanced mock data` |
| Server.MockScaleThroughAdapter | server/routes.ts:17 | every latency the adapter derives from the server's fallback series is at least 2000 ms (see Findings) |
| Server.CorrectedSampleHundredths | server/routes.ts:17 | the corrected mock value lies between 0.20 and 1.20 (see Findings) |
| Server.CorrectedServerMockData | server/routes.ts:11-21 | the corrected mock keeps the 24 hourly timestamps, and every value reads back as a number in [0.2, 1.2] |
| Server.CorrectedMockScale | server/routes.ts:17 | on the corrected mock every metric gives a 20..120 ms base, and every derived latency is at least 20 ms |
| Store.Remove | client/src/lib/stores/useMapStore.ts:50 | the filter removes every occurrence of the provider and keeps every other one, with the same multiplicities |
| Store.RemoveConcat | client/src/lib/stores/useMapStore.ts:50 | the filter keeps order: it distributes over concatenation |
| Store.ToggledProviders | client/src/lib/stores/useMapStore.ts:48-52 | a provider that is not listed is appended at the end; a listed one is removed with every copy while every other provider keeps its multiplicity; every other provider's membership is unchanged |
| Store.ToggleTwice | client/src/lib/stores/useMapStore.ts:48-52 | toggling twice restores membership; an absent provider leaves the list exactly as it was; a present one comes back at the end with the rest in order |
| Store.ToggleKeepsNoDuplicates | client/src/lib/stores/useMapStore.ts:48-52 | a toggle keeps a list without repeats free of repeats |
| Store.Apply | client/src/lib/stores/useMapStore.ts:45-70 | each setter stores its argument in its field, `toggleDarkMode` negates the flag and `toggleProvider` applies the list toggle |
| Store.ApplyFrame | client/src/lib/stores/useMapStore.ts:45-70 | an action changes its own field and no other |
| Store.LastSetterWins | client/src/lib/stores/useMapStore.ts:45-70 | of two setters of the same field only the later one matters |
| Store.ApplyIsLocal | client/src/lib/stores/useMapStore.ts:43-70 | an action's new value of its field depends only on that field's old value |
| Store.DifferentFieldsCommute | client/src/lib/stores/useMapStore.ts:43-70 | two actions on different fields give the same state in either order |
| Store.DarkModeInvolution | client/src/lib/stores/useMapStore.ts:67 | toggling dark mode twice gives back the same state |
| Store.ActionsKeepConsistent | client/src/lib/stores/useMapStore.ts:43-70 | every action keeps the provider list free of repeats |
| Store.InitialConsistent | client/src/lib/stores/useMapStore.ts:47-60 | the initial provider list has no repeats, and the initial range is ordered |
| Store.FilterUnchecked | client/src/lib/stores/useMapStore.ts:61 | `setLatencyFilter` stores any range as given, one with min above max included, and changes no other field |
| Search.ExchangeResults | client/src/components/UI/SearchPanel.tsx:23-29 | every exchange result is a matching exchange tagged as an exchange, and every matching exchange appears |
| Search.RegionResults | client/src/components/UI/SearchPanel.tsx:32-42 | every region result is a matching region relabelled with its region name and provider, and every matching region appears |
| Search.ExchangeResultsConcat | client/src/components/UI/SearchPanel.tsx:23-29 | the exchange filter keeps list order: it distributes over concatenation |
| Search.RegionResultsConcat | client/src/components/UI/SearchPanel.tsx:32-42 | the region filter keeps list order: it distributes over concatenation |
| Search.HandleSearch | client/src/components/UI/SearchPanel.tsx:12-45 | none for a term shorter than 2 characters; otherwise the first min(8, all) matches in order, exchanges first |
| Search.ExchangesFirst | client/src/components/UI/SearchPanel.tsx:29-44 | every exchange result precedes every region result |
| Search.SearchSound | client/src/components/UI/SearchPanel.tsx:23-44 | every result comes from a matching exchange or a matching region |
| Search.SearchComplete | client/src/components/UI/SearchPanel.tsx:23-44 | with a term of 2 or more characters and at most 8 matches in all, every match is a result |
| Search.RegionsCrowdedOut | client/src/components/UI/SearchPanel.tsx:44 | eight matching exchanges leave no room for a region |
| Search.CaseInsensitive | client/src/components/UI/SearchPanel.tsx:24-34 | matching ignores the letter case of the term |
| Search.Type | client/src/components/UI/SearchPanel.tsx:12-18 | typing stores the term whatever its length; below 2 characters there are no results, otherwise the results are exactly `HandleSearch` of the term (at most 8); no other store field changes |
| Search.SelectResult | client/src/components/UI/SearchPanel.tsx:47-52 | choosing a result selects it, clears the term and the results, closes the list, and changes no other store field |
| Search.ClearSearch | client/src/components/UI/SearchPanel.tsx:54-57 | clearing empties term and results and leaves the open flag and every other store field alone |
| Search.ClearAfterType | client/src/components/UI/SearchPanel.tsx:12-57 | clearing after typing leaves the same view as clearing without typing |
| Search.SelectIdempotent | client/src/components/UI/SearchPanel.tsx:47-52 | choosing the same result again changes nothing |
| ExchangeMap.VisibleExchanges | client/src/components/ExchangeMap.tsx:20-22 | every exchange keeps its multiplicity when its provider is visible and is dropped otherwise |
| ExchangeMap.VisibleExchangesConcat | client/src/components/ExchangeMap.tsx:20-22 | the filter keeps list order: filtering `a + b` is filtering `a`, then `b` |
| ExchangeMap.VisibleRegions | client/src/components/ExchangeMap.tsx:25-27 | every region keeps its multiplicity when its provider is visible and is dropped otherwise |
| ExchangeMap.VisibleRegionsConcat | client/src/components/ExchangeMap.tsx:25-27 | the region filter keeps list order: filtering `a + b` is filtering `a`, then `b` |
| ExchangeMap.VisibleSingle | client/src/components/ExchangeMap.tsx:20-27 | a one-element list survives exactly when its provider is visible |
| ExchangeMap.ConnectionsOf | client/src/components/ExchangeMap.tsx:66-75 | an exchange's connections are exactly the regions of its provider with a non-zero entry under its key inside the range |
| ExchangeMap.ConnectionsFrom | client/src/components/ExchangeMap.tsx:65-75 | the connections are exactly the admitted pairs over the listed exchanges and regions |
| ExchangeMap.Connections | client/src/components/ExchangeMap.tsx:65-75 | nothing is drawn with connections off; otherwise a connection is drawn exactly when both ends are listed and visible, the providers agree, and the entry exists, is non-zero and lies in [min, max] |
| ExchangeMap.DrawnInRange | client/src/components/ExchangeMap.tsx:75 | every drawn latency lies in the filter's range, both ends included |
| ExchangeMap.InvertedFilterHidesAll | client/src/components/ExchangeMap.tsx:75 | a stored range with min above max hides every connection |
| Export.FoldMeanSum | client/src/components/UI/ExportPanel.tsx:44 | summing `lat / n` term by term gives the sum divided by n |
| Export.ReduceMean | client/src/components/UI/ExportPanel.tsx:41-44 | the reduce gives 0 for no values and the arithmetic mean otherwise |
| Export.ExchangeLatency | client/src/components/UI/ExportPanel.tsx:41-52 | the latency cell is 0 without a matching entry, otherwise the rounded mean, which lies between the smallest and largest matching value |
| Export.VolumeText | client/src/components/UI/ExportPanel.tsx:51 | the volume cell is "0" without a volume, otherwise digits that read back as the volume |
| Export.Rows | client/src/components/UI/ExportPanel.tsx:38-54 | one row per exchange, in list order |
| Export.Row | client/src/components/UI/ExportPanel.tsx:46-53 | six cells; the coordinate, volume and latency cells hold no comma or line break; the volume cell reads back as the volume or 0, a non-negative latency cell as the latency |
| Catalog.DecimalTextSign | client/src/components/UI/ExportPanel.tsx:49-50 | a coordinate's text starts with '-' exactly for a negative value, and its leading digits read back as the integer part of the magnitude |
| Export.CsvTable | client/src/components/UI/ExportPanel.tsx:35-54 | the header comes first, then exactly one six-cell row per exchange of a visible provider, the k-th row built from the k-th such exchange |
| Export.CsvRowsInListOrder | client/src/components/UI/ExportPanel.tsx:38-54 | rows follow list order: the table of `a + b` is the table of `a` followed by the rows of `b` |
| Export.LatencyText | client/src/components/UI/ExportPanel.tsx:52 | the latency cell holds no comma or line break, and a non-negative latency is written in digits that read back as the latency |
| Export.CsvContent | client/src/components/UI/ExportPanel.tsx:56 | when no cell holds a comma or a line break, splitting the file at line breaks and commas gives back the table |
| Export.CommaInCellIsAmbiguous | client/src/components/UI/ExportPanel.tsx:56 | without quoting, two different tables can produce the same text |
| Export.JsonExport | client/src/components/UI/ExportPanel.tsx:26-27 | the JSON lists hold exactly the exchanges and regions of visible providers |
| Export.PdfExchangeLines | client/src/components/UI/ExportPanel.tsx:100-107 | the PDF lists the first min(15, visible) visible exchanges as `name (provider)` |
| Export.PdfStatistics | client/src/components/UI/ExportPanel.tsx:82-93 | the connection count is the number of entries; an empty object prints NaN, Infinity and -Infinity |
| Export.PdfStatisticsOrdered | client/src/components/UI/ExportPanel.tsx:82-90 | for a non-empty object the printed minimum and maximum are the smallest and largest values, and the printed average is the rounded mean, between them |
| Dashboard.AverageLatency | client/src/components/UI/PerformanceDashboard.tsx:27-30 | the average is 0 for an empty object and otherwise the mean of the values, between the smallest and largest |
| Dashboard.StatusOf | client/src/components/UI/PerformanceDashboard.tsx:45 | online exactly below 100, degraded exactly in [100, 200), offline exactly from 200 |
| Dashboard.StatusMonotone | client/src/components/UI/PerformanceDashboard.tsx:45 | a higher average never gives a better status |
| Dashboard.MemoryUsage | client/src/components/UI/PerformanceDashboard.tsx:33-42 | memory is 0..100 for a heap ratio in [0, 1], and 20..50 for the fallback draw |
| Dashboard.SimulatedFps | client/src/components/UI/PerformanceDashboard.tsx:38-41 | the simulated frame rate is 58..62 |
| Dashboard.UpdateMetrics | client/src/components/UI/PerformanceDashboard.tsx:24-46 | the frame rate is the rounded simulated draw, the memory the rounded reading, the average the rounded mean, the connection count the number of entries; the status follows the unrounded average; an empty object shows 0 ms and online |
| Dashboard.StatusColor | client/src/components/UI/PerformanceDashboard.tsx:54-61 | online is green, degraded yellow and offline red: the colour's rank equals the status's rank |
| Dashboard.StatusUsesUnroundedAverage | client/src/components/UI/PerformanceDashboard.tsx:44-45 | an average of 99.5 shows as 100 ms while the status is still online |
| Dashboard.StatusLine | client/src/components/UI/PerformanceDashboard.tsx:112-113 | while loading the status reads 'Loading' in the degraded colour; otherwise it has the status's colour |
| Dashboard.MetricColor | client/src/components/UI/PerformanceDashboard.tsx:63-67 | green exactly up to `good`, yellow exactly in (good, bad], red exactly above both |
| Dashboard.MetricColorMonotone | client/src/components/UI/PerformanceDashboard.tsx:63-67 | on this lower-is-better scale a larger value never gets a better colour |
| Dashboard.FpsColorAsWritten | client/src/components/UI/PerformanceDashboard.tsx:63-67 | `getMetricColor(fps, 55, 30)` as written: green exactly up to 55, red exactly above, never yellow |
| Dashboard.FpsColorAsWrittenIsInverted | client/src/components/UI/PerformanceDashboard.tsx:123 | with thresholds (55, 30) yellow never appears, and every frame rate the panel produces, including the initial 60, shows red (see Findings) |
| Dashboard.FpsColor | client/src/components/UI/PerformanceDashboard.tsx:123 | the corrected frame-rate colour: green exactly from 55, yellow exactly in [30, 55), red exactly below 30 |
| Dashboard.FpsColorMonotone | client/src/components/UI/PerformanceDashboard.tsx:123 | a higher frame rate never gets a worse colour, and the simulated rates are green |
| Dashboard.MetricColors | client/src/components/UI/PerformanceDashboard.tsx:123-156 | as written: the frame rate is green up to 55 and red above, never yellow; memory is green up to 50 %, yellow up to 80 %, red above; the average is green up to 50 ms, yellow up to 100 ms, red above |
| Dashboard.CorrectedMetricColors | client/src/components/UI/PerformanceDashboard.tsx:123-156 | the corrected panel: the frame rate is green from 55, yellow in [30, 55), red below 30; memory and average as written |
| Dashboard.PanelFpsColor | client/src/components/UI/PerformanceDashboard.tsx:38-41 | every simulated frame rate is shown red as written and green once corrected (see Findings) |
| Dashboard.BarColor | client/src/components/UI/PerformanceDashboard.tsx:166-171 | the bar is green exactly when fps > 55, memory < 60 and average < 80, and red exactly when fps <= 45, memory >= 80 or average >= 120 |
| Dashboard.BarColorMonotone | client/src/components/UI/PerformanceDashboard.tsx:166-171 | metrics that are no worse on every count never give a worse bar colour |
| Dashboard.BarWidth | client/src/components/UI/PerformanceDashboard.tsx:174-178 | the bar width always lies in [20, 100]; it is the score inside that band, 100 above it and 20 below it |
| Dashboard.BarWidthSaturates | client/src/components/UI/PerformanceDashboard.tsx:174-178 | the upper clamp binds on panel values: 61 or 62 fps, memory at most 2 % and a 0 ms average score above 100 and give width 100 |
| Dashboard.BarWidthMonotone | client/src/components/UI/PerformanceDashboard.tsx:174-178 | better metrics never give a narrower bar |
| Dashboard.ServerMockShowsOffline | client/src/components/UI/PerformanceDashboard.tsx:27-45 | on data derived from the server's fallback series the dashboard always reports the server offline (see Findings) |
| ExchangeInfo.QualityOf | client/src/components/UI/ExchangeInfo.tsx:100-101 | Excellent exactly below 50, Good exactly in [50, 100), Poor exactly from 100 |
| ExchangeInfo.QualityColor | client/src/components/UI/ExchangeInfo.tsx:84-97 | the colour bands coincide with the label: green for Excellent, yellow for Good, red for Poor |
| ExchangeInfo.AverageFor | client/src/components/UI/ExchangeInfo.tsx:25-27 | the average is 0 without matching entries, otherwise their mean, between their smallest and largest value |
| ExchangeInfo.LatencySection | client/src/components/UI/ExchangeInfo.tsx:79-101 | the latency section is shown exactly when some key starts with the id; it shows the rounded mean of the matching values and that mean's quality |
| ExchangeInfo.ExchangeEntriesExact | client/src/components/UI/ExchangeInfo.tsx:21-23 | for keys built from the listed exchanges, an exchange's prefix matches are exactly the keys built from that exchange |
| ExchangeInfo.RegionSelectionShowsNothing | client/src/components/UI/ExchangeInfo.tsx:21-79 | a cloud region chosen from the search matches no key, so its latency section stays hidden |
| ExchangeInfo.Close | client/src/components/UI/ExchangeInfo.tsx:35 | closing clears the selection and changes no other store field |
| Chart.ChartData | client/src/components/UI/LatencyChart.tsx:20 | the chart shows the selected range's series, or nothing when the range is absent |
| Chart.MaxLatency | client/src/components/UI/LatencyChart.tsx:21 | the scale's top is at least 100 and at least every point, and it is 100 or some point's latency |
| Chart.PointXSpacing | client/src/components/UI/LatencyChart.tsx:87-99 | x positions are evenly spaced from 0 to 100 and lie in [0, 100]; a lone point sits at 0 |
| Chart.PointYInside | client/src/components/UI/LatencyChart.tsx:88-100 | a latency between 0 and the top lands at a y in [0, 100] |
| Chart.PointYMonotone | client/src/components/UI/LatencyChart.tsx:88-100 | a higher latency is drawn higher up |
| Chart.Circles | client/src/components/UI/LatencyChart.tsx:98-110 | one circle per point, at the x of its index and the y of its latency against the maximum, x in [0, 100], and y in [0, 100] for non-negative latencies |
| Chart.Polyline | client/src/components/UI/LatencyChart.tsx:84-90 | the line is drawn exactly from two points on, through the circles' centres |
| Chart.Statistics | client/src/components/UI/LatencyChart.tsx:124-141 | statistics appear exactly from one point on; min and max are latencies of points, every point lies between them, and the average is the rounded mean |
| Chart.AxisLabels | client/src/components/UI/LatencyChart.tsx:114-119 | five labels from the top down to 0, never increasing; label k in 1..3 is the top times (4 - k)/4 rounded to the nearest integer, halves up |
| Chart.Close | client/src/components/UI/LatencyChart.tsx:29 | closing hides the chart and changes no other store field |
| Chart.FullHistoryDrawn | client/src/components/UI/LatencyChart.tsx:8-124 | on a four-range history every range draws a line and statistics, and the default range shows 24 points |
| Geo.FirstBox | client/src/utils/geoUtils.ts:49-56 | the decision list returns the first box holding the point, none before it holding it |
| Geo.Continent | client/src/utils/geoUtils.ts:49-56 | the answer is 'Unknown' exactly when no box holds the point, otherwise the name of the first box that does |
| Geo.EuropeBeforeAfrica | client/src/utils/geoUtils.ts:50-52 | a point in both the Europe and Africa boxes is Europe |
| Geo.AsiaShadowsAustralia | client/src/utils/geoUtils.ts:51-55 | Sydney (-33.87, 151.21) is Asia, and Australia is answered only south of -35 |
| Geo.EstimateLatency | client/src/utils/geoUtils.ts:37-44 | the estimate is always at least 5 |
| Geo.EstimateMonotone | client/src/utils/geoUtils.ts:37-43 | for a fixed draw, a longer distance never gives a lower estimate |

## Left out

- Rendering: the three.js scene, the markers, arcs, particles and heat map, and the SVG grid lines of the chart. Only the data they are given is modelled.
- `latLngToCartesian` and `calculateDistance` (client/src/utils/geoUtils.ts:4-32): trigonometric floating-point numerics with no stateable logic beyond their formulas.
- I/O: `fetch`, Express wiring, environment variables and logging. The key's presence, the upstream answers, the response status, text and parsed body are inputs.
- Timers and React lifecycle (`setInterval`, `useEffect`, `useState`): one tick is one pure function from the inputs to the new state. Overlapping fetches are not modelled.
- Randomness: draws are parameters with their stated ranges and shuffles are arbitrary arrangements without repeats. No distributional claim is made.
- The sine patterns of both histories are inputs in [-1, 1]. `Math.sqrt` is an input root whose square is the squared distance.
- Floating point: all arithmetic is exact over reals. The reduce of the CSV mean and the division of the averages are not rounded at each step.
- Export side effects: Blob, object URLs, download links, jsPDF drawing and the store's `exportData` (client/src/lib/stores/useMapStore.ts:72-92). The PDF's title, timestamp and settings lines are text and are not modelled.
- The UI-only panels (ControlPanel, ThemeToggle, ApiSetupBanner) and the static data files beyond the ids, providers and fields a property needs.
- Clock text: the server's ISO timestamp strings are modelled as epoch milliseconds, and `new Date().toISOString()` of the health check as an input string.
- Adapter.FetchNetworkQuality: without a key the source returns the enhanced mock to a caller that discards it. The model therefore leaves the state unchanged, and `isLoading` keeps its initial `true`.
- Adapter.RouteOf: the message of the `TypeError` raised when a fallback body lacks `data` is the V8 engine's wording. Other engines word it differently.
- Adapter.ProcessCloudflareData: the payload is reduced to the parsed second components of `result.series[0].values`. Other shapes of upstream JSON are modelled as absent values, which selects the no-metric branch.
- Adapter.ProcessCloudflareData: every value is taken to parse as a number. An unparsable `values[i][1]` makes `parseFloat` return NaN, and then `Math.max(5, Math.round(NaN))` stores a NaN latency (client/src/hooks/useRealLatencyData.ts:114-118). The model has no NaN, so it does not promise that case.
- Export.VolumeText: a volume is a natural number. JavaScript's exponent notation for very large numbers is not modelled.
- Export.Row: `latitude.toString()` is modelled for decimal literals of the data file.
- Search.ExchangeResult, Search.RegionResult: a result carries its kind, id, display name and provider, not the whole spread record.
- Text.Lower: only the ASCII letters A-Z are lower-cased. `toLowerCase` also folds other scripts.
- Dashboard.MemoryUsage: the heap reading is the ratio `usedJSHeapSize / jsHeapSizeLimit`, passed in.
- Latencies are integers throughout, since every generator rounds them.
- Server.ServerMockData: one clock reading `now` serves all 24 samples, while the source calls `Date.now()` for each one (server/routes.ts:16). Readings a millisecond apart would shift later timestamps, so the exact hourly spacing holds for a single reading only.
- Adapter.MockLatency: one hour of day serves every slot of a run, while the source calls `getHours()` per slot (client/src/hooks/useRealLatencyData.ts:216). A run that crosses 8:00 or 19:00 could mix peak and off-peak slots; the model does not.
- Search.HandleSearch: a term's length counts characters, while JavaScript's `length` counts UTF-16 code units. A single character outside the Basic Multilingual Plane is one character here and two units there, so the under-2 cutoff differs for such terms.
- Server.MockScaleThroughAdapter, Dashboard.ServerMockShowsOffline: they follow the proxy path with the metric present. The timestamps of the series are not read by the adapter.

## Findings

| source | as written | input that shows it | evidently intended | confidence | as-written member | corrected member |
|---|---|---|---|---|---|---|
| client/src/components/UI/PerformanceDashboard.tsx:123 | `getMetricColor(metrics.fps, 55, 30)` uses a lower-is-better scale with `good` above `bad` | fps = 60, the initial value, and every simulated rate 58..62 show red; yellow can never appear | a higher-is-better scale: green from 55, yellow from 30, red below | high, not executed | Dashboard.FpsColorAsWritten (with Dashboard.FpsColorAsWrittenIsInverted) | Dashboard.FpsColor (with Dashboard.FpsColorMonotone; used by Dashboard.CorrectedMetricColors) |
| server/routes.ts:17 | the fallback series writes `(Math.random() * 100 + 20).toFixed(2)`, values 20 to 120, while the adapter (client/src/hooks/useRealLatencyData.ts:115) multiplies a metric by 100 | any fallback reply, for instance with no key on the server: every derived latency is at least 2000 ms and the dashboard shows the server offline | values on the adapter's scale, 0.20 to 1.20, so the base is 20 to 120 ms like the no-metric base of 20 to 100 ms | medium, not executed | Server.ServerMockData (with Server.MockScaleThroughAdapter and Dashboard.ServerMockShowsOffline) | Server.CorrectedServerMockData (with Server.CorrectedMockScale) |

=== FILE: adapter.dfy ===
/** The remote data adapter (client/src/hooks/useRealLatencyData.ts): it asks the
    server proxy for network-quality metrics, maps them onto exchange-region pairs,
    and falls back to locally generated data on every failure. */
module Adapter {
  import opened Wrappers
  import opened Numbers
  import opened Latencies
  import opened Generation
  import opened Catalog
  import opened History

  // ---------------------------------------------------------------------------
  // Geographic offset (`calculateGeographicLatency`)
  // ---------------------------------------------------------------------------

  /** A `[latitude, longitude]` pair of the lookup, in degrees. */
  datatype Position = Position(lat: real, lon: real)

  /** The hard-coded `locationMap`: four exchanges and three regions. */
  const LocationMap: seq<(string, Position)> := [
    ("binance-us-east", Position(39.0458, -76.6413)),
    ("binance-eu-west", Position(53.4084, -2.9916)),
    ("binance-asia-singapore", Position(1.3521, 103.8198)),
    ("okx-hong-kong", Position(22.3193, 114.1694)),
    ("aws-us-east-1", Position(38.9072, -77.0369)),
    ("gcp-us-central1", Position(41.5868, -93.6250)),
    ("azure-eastus", Position(37.3382, -79.0193))
  ]

  /** `m[id]`: the position listed first for an id, or `undefined` when it is not listed. */
  function Locate(m: seq<(string, Position)>, id: string): (r: Option<Position>)
    ensures r.Some? <==> exists k :: 0 <= k < |m| && m[k].0 == id
    ensures r.Some? ==> exists k :: 0 <= k < |m| && m[k] == (id, r.value)
  {
    if |m| == 0 then None
    else if m[0].0 == id then Some(m[0].1)
    else
      var r := Locate(m[1..], id);
      assert forall k :: 0 <= k < |m[1..]| ==> m[1..][k] == m[k + 1];
      r
  }

  predicate Known(m: seq<(string, Position)>, exchange: string, region: string) {
    Locate(m, exchange).Some? && Locate(m, region).Some?
  }

  /** `Math.pow(dLat, 2) + Math.pow(dLon, 2)`, in square degrees. */
  function SquaredDistance(a: Position, b: Position): (d: real)
    ensures d >= 0.0
  {
    (a.lat - b.lat) * (a.lat - b.lat) + (a.lon - b.lon) * (a.lon - b.lon)
  }

  /** The inputs of one call: the `Math.random()` draw used when a position is
      missing, and the value of `Math.sqrt` of the squared distance. */
  datatype GeoDraw = GeoDraw(jitter: real, root: real)

  /** The draw is a random value and, when both positions are known, `root` is the
      non-negative square root of their squared distance. */
  predicate ValidGeo(m: seq<(string, Position)>, exchange: string, region: string, g: GeoDraw) {
    && IsDraw(g.jitter)
    && (Known(m, exchange, region) ==>
          g.root >= 0.0 && g.root * g.root == SquaredDistance(Locate(m, exchange).value, Locate(m, region).value))
  }

  /** `distance * 2` when both ids are in the lookup, `Math.random() * 20` otherwise.
      The offset is never negative; for known positions it is twice their Euclidean
      distance in degrees, otherwise it is a random value below 20. */
  function GeographicLatency(m: seq<(string, Position)>, exchange: string, region: string, g: GeoDraw): (v: real)
    ensures ValidGeo(m, exchange, region, g) ==> v >= 0.0
    ensures ValidGeo(m, exchange, region, g) && Known(m, exchange, region) ==>
      v * v == 4.0 * SquaredDistance(Locate(m, exchange).value, Locate(m, region).value)
    ensures ValidGeo(m, exchange, region, g) && !Known(m, exchange, region) ==> v < 20.0
  {
    if Known(m, exchange, region) then
      assert (g.root * 2.0) * (g.root * 2.0) == 4.0 * (g.root * g.root);
      g.root * 2.0
    else g.jitter * 20.0
  }

  /** Between two pairs of known positions, the farther pair gets the larger offset. */
  lemma FartherIsSlower(m: seq<(string, Position)>, e1: string, r1: string, g1: GeoDraw, e2: string, r2: string, g2: GeoDraw)
    requires ValidGeo(m, e1, r1, g1) && ValidGeo(m, e2, r2, g2)
    requires Known(m, e1, r1) && Known(m, e2, r2)
    requires SquaredDistance(Locate(m, e1).value, Locate(m, r1).value) < SquaredDistance(Locate(m, e2).value, Locate(m, r2).value)
    ensures GeographicLatency(m, e1, r1, g1) < GeographicLatency(m, e2, r2, g2)
  {
    SquareMonotone(g1.root, g2.root);
  }

  lemma SquareMonotone(a: real, b: real)
    requires 0.0 <= a && 0.0 <= b && a * a < b * b
    ensures a < b
  {
  }

  // ---------------------------------------------------------------------------
  // Mapping a payload onto pairs (`processCloudflareData`)
  // ---------------------------------------------------------------------------

  /** What the adapter reads of a payload: `data.result?.series?.[0]?.values`, each
      element reduced to `parseFloat(element[1])`; `None` when the path is missing. */
  datatype Payload = Payload(values: Option<seq<real>>)

  /** `realMetric`: element `i % length` of the values, or nothing when there are no
      values (an empty array gives `values[NaN]`, which is `undefined`). */
  function Metric(p: Payload, i: nat): (m: Option<real>)
    ensures m.Some? <==> p.values.Some? && |p.values.value| > 0
    ensures m.Some? ==> m.value in p.values.value
    ensures m.Some? ==> m.value == p.values.value[i % |p.values.value|]
  {
    match p.values
    case None => None
    case Some(vs) => if |vs| == 0 then None else Some(vs[i % |vs|])
  }

  /** Connection indices reuse the values round-robin: index `i` and index
      `i + length` read the same value. */
  lemma MetricCycles(p: Payload, i: nat)
    ensures p.values.Some? && |p.values.value| > 0 ==>
      Metric(p, i + |p.values.value|) == Metric(p, i)
  {
    if p.values.Some? && |p.values.value| > 0 {
      ModPeriod(i, |p.values.value|);
    }
  }

  /** Two value lists of one length that agree on their first four values. */
  predicate SameFirstFour(p: Payload, q: Payload) {
    && p.values.Some? == q.values.Some?
    && (p.values.Some? ==>
         && |p.values.value| == |q.values.value|
         && forall k :: 0 <= k < 4 && k < |p.values.value| ==> p.values.value[k] == q.values.value[k])
  }

  /** An index below four reads one of the first four values, so two payloads that
      agree there give the same metric. */
  lemma MetricReadsFirstFour(p: Payload, q: Payload, i: nat)
    requires SameFirstFour(p, q) && i < 4
    ensures Metric(p, i) == Metric(q, i)
  {
  }

  /** Each exchange has at most four connections and slot `i` reads value `i % length`,
      so only the first four values of the series are ever used: payloads that agree on
      them give every slot of the generator the same latency, and so the same object. */
  lemma OnlyFirstFourValuesUsed(p: Payload, q: Payload, exchanges: seq<string>,
                                draws: seq<ExchangeDraw<ProxyPair>>, regions: seq<string>)
    requires SameFirstFour(p, q) && ValidDraws(draws, exchanges, regions)
    ensures forall s :: s in Slots(exchanges, draws, regions) ==> CloudflareLatency(p, s) == CloudflareLatency(q, s)
    ensures GenerateWith(exchanges, draws, regions, CloudflareValue(p)) == GenerateWith(exchanges, draws, regions, CloudflareValue(q))
  {
    var slots := Slots(exchanges, draws, regions);
    SlotsMembership(exchanges, draws, regions);
    forall s | s in slots
      ensures CloudflareLatency(p, s) == CloudflareLatency(q, s)
    {
      var j, i :| 0 <= j < |exchanges| && 0 <= i < Count(draws[j]) && s == Slot(exchanges[j], draws[j].shuffled[i], i, draws[j].pairs[i]);
      MetricReadsFirstFour(p, q, s.index);
    }
    forall k | 0 <= k < |slots|
      ensures SlotValues(slots, CloudflareValue(p))[k] == SlotValues(slots, CloudflareValue(q))[k]
    {
      assert slots[k] in slots;
    }
    assert SlotValues(slots, CloudflareValue(p)) == SlotValues(slots, CloudflareValue(q));
  }

  /** The processed latency object depends on the series only through its length and
      its first four values. */
  lemma ProxyCurrentFirstFour(p: Payload, q: Payload, d: FetchDraws)
    requires SameFirstFour(p, q) && ValidFetchDraws(d)
    ensures ProxyCurrent(p, d) == ProxyCurrent(q, d)
  {
    OnlyFirstFourValuesUsed(p, q, ExchangeIds, d.proxy, ProxyRegionIds);
  }

  /** The draws of one connection slot: the `Math.random()` used when there is no
      metric, and the geographic offset's inputs. */
  datatype ProxyPair = ProxyPair(base: real, geo: GeoDraw)

  /** `Math.max(5, Math.round(baseLatency + geoLatency))` with `baseLatency` the
      metric times 100 when there is one and `20 + Math.random() * 80` otherwise.
      The offset only adds to the base: with valid draws, a latency without a metric
      is at least 20, and one with metric m at least `Math.max(5, Math.round(m * 100))`. */
  function CloudflareLatency(p: Payload, s: Slot<ProxyPair>): (v: int)
    ensures v >= 5
    ensures ValidProxyPair(s.exchange, s.region, s.draw) && Metric(p, s.index).None? ==> v >= 20
    ensures ValidProxyPair(s.exchange, s.region, s.draw) && Metric(p, s.index).Some? ==>
      v >= Max(5, Round(Metric(p, s.index).value * 100.0))
  {
    var geo := GeographicLatency(LocationMap, s.exchange, s.region, s.draw.geo);
    var base := match Metric(p, s.index)
      case Some(m) => m * 100.0
      case None => 20.0 + s.draw.base * 80.0;
    if ValidProxyPair(s.exchange, s.region, s.draw) then
      BaseFloor(base, geo);
      if Metric(p, s.index).None? then
        RoundMonotone(20.0, base); RoundUnique(20.0, 20);
        Max(5, Round(base + geo))
      else Max(5, Round(base + geo))
    else Max(5, Round(base + geo))
  }

  /** A non-negative offset never lowers the rounded base. */
  lemma BaseFloor(base: real, geo: real)
    requires geo >= 0.0
    ensures Round(base) <= Round(base + geo)
  {
    RoundMonotone(base, base + geo);
  }

  /** The generator's value formula for one payload. */
  function CloudflareValue(p: Payload): Slot<ProxyPair> -> int {
    s => CloudflareLatency(p, s)
  }

  predicate ValidSlotDraws<P>(exchanges: seq<string>, draws: seq<ExchangeDraw<P>>, regions: seq<string>, valid: (string, string, P) -> bool) {
    && ValidDraws(draws, exchanges, regions)
    && forall j, i :: 0 <= j < |draws| && 0 <= i < |draws[j].pairs| && i < |draws[j].shuffled| ==>
         valid(exchanges[j], draws[j].shuffled[i], draws[j].pairs[i])
  }

  predicate ValidProxyPair(exchange: string, region: string, p: ProxyPair) {
    IsDraw(p.base) && ValidGeo(LocationMap, exchange, region, p.geo)
  }

  // ---------------------------------------------------------------------------
  // History from current values (`generateHistoricalFromReal`)
  // ---------------------------------------------------------------------------

  /** The values of the daily and weekly sines at one point and its `Math.random()` draw. */
  datatype RealPointDraw = RealPointDraw(daily: real, weekly: real, variation: real)

  predicate ValidRealPoint(p: RealPointDraw) {
    -1.0 <= p.daily <= 1.0 && -1.0 <= p.weekly <= 1.0 && IsDraw(p.variation)
  }

  /** `Math.max(10, Math.round(avg + dailyPattern + weeklyPattern + randomVariation))`
      with `dailyPattern = daily * 15`, `weeklyPattern = weekly * 8` and
      `randomVariation = (r - 0.5) * 25`. */
  function RealPointLatency(avg: real, p: RealPointDraw): (v: int)
    ensures v >= 10
    ensures ValidRealPoint(p) ==> avg - 36.0 < v as real <= RealMax(10.0, avg + 36.0)
  {
    Max(10, Round(avg + p.daily * 15.0 + p.weekly * 8.0 + (p.variation - 0.5) * 25.0))
  }

  predicate ValidRealHistoryDraws(draws: seq<seq<RealPointDraw>>) {
    FitsRanges(draws) && forall j, k :: 0 <= j < |draws| && 0 <= k < |draws[j]| ==> ValidRealPoint(draws[j][k])
  }

  function RealLatencies(avg: real, draws: seq<RealPointDraw>): (v: seq<int>)
    ensures |v| == |draws|
    ensures forall k :: 0 <= k < |draws| ==> v[k] == RealPointLatency(avg, draws[k])
  {
    seq(|draws|, k requires 0 <= k < |draws| => RealPointLatency(avg, draws[k]))
  }

  /** Every latency of the history is at least 10, above `lo` and at most the larger
      of 10 and `hi`. */
  predicate Banded(h: HistoricalData, lo: int, hi: int) {
    forall range, k :: range in h && 0 <= k < |h[range]| ==>
      && 10 <= h[range][k].latency
      && lo < h[range][k].latency
      && h[range][k].latency as real <= RealMax(10.0, hi as real)
  }

  /** `generateHistoricalFromReal(realData, currentData)` at time `now`; the payload
      argument is not read. The history has the four ranges of 60/24/7/30 points, in
      increasing time order and ending at `now`, and it follows the current values:
      every latency is at least 10 and within 36 ms of their average (the floor of 10
      aside), hence above the smallest current value minus 36 and at most the largest
      plus 36. */
  function HistoricalFromReal(now: int, current: LatencyData, draws: seq<seq<RealPointDraw>>): (h: HistoricalData)
    requires |current| > 0 && ValidRealHistoryDraws(draws)
    ensures h.Keys == RangeLabels
    ensures |h["1h"]| == 60 && |h["24h"]| == 24 && |h["7d"]| == 7 && |h["30d"]| == 30
    ensures forall range :: range in h ==> h[range][|h[range]| - 1].timestamp == now
    ensures forall range, a, b :: range in h && 0 <= a < b < |h[range]| ==> h[range][a].timestamp < h[range][b].timestamp
    ensures Banded(h, MinOf(Values(current)) - 36, MaxOf(Values(current)) + 36)
  {
    var avg := MeanLatency(current);
    var latencies := seq(|Ranges|, j requires 0 <= j < |Ranges| => RealLatencies(avg, draws[j]));
    HistoricalShape(now, latencies);
    var h := Historical(now, latencies);
    RealHistoryValues(now, current, draws, avg, latencies, h);
    h
  }

  lemma RealHistoryValues(now: int, current: LatencyData, draws: seq<seq<RealPointDraw>>, avg: real,
                          latencies: seq<seq<int>>, h: HistoricalData)
    requires |current| > 0 && ValidRealHistoryDraws(draws)
    requires avg == MeanLatency(current)
    requires latencies == seq(|Ranges|, j requires 0 <= j < |Ranges| => RealLatencies(avg, draws[j]))
    requires h == Historical(now, latencies)
    ensures Banded(h, MinOf(Values(current)) - 36, MaxOf(Values(current)) + 36)
  {
    MeanBetween(Values(current));
    var lo, hi := MinOf(Values(current)), MaxOf(Values(current));
    forall range: string, k: int | range in h && 0 <= k < |h[range]|
      ensures 10 <= h[range][k].latency
      ensures (lo - 36) as real < h[range][k].latency as real <= RealMax(10.0, (hi + 36) as real)
    {
      var j :| 0 <= j < |Ranges| && Ranges[j].name == range;
      assert h[range] == Series(now, Ranges[j], latencies[j]);
      assert h[range][k].latency == RealPointLatency(avg, draws[j][k]);
      assert ValidRealPoint(draws[j][k]);
    }
  }

  // ---------------------------------------------------------------------------
  // Local fallback (`generateEnhancedMockData`)
  // ---------------------------------------------------------------------------

  /** The draws of one mock connection: `Math.random()` of the network load and the
      geographic offset's inputs. */
  datatype MockPair = MockPair(load: real, geo: GeoDraw)

  predicate ValidMockPair(exchange: string, region: string, p: MockPair) {
    IsDraw(p.load) && ValidGeo(LocationMap, exchange, region, p.geo)
  }

  /** `timeOfDay >= 8 && timeOfDay <= 18 ? 15 : 0`. */
  function PeakHours(hour: int): int {
    if 8 <= hour <= 18 then 15 else 0
  }

  /** `Math.max(5, Math.round(geoLatency + networkLoad + peakHours))` with
      `networkLoad = 10 + Math.random() * 30`, at local hour `hour`. With valid draws a
      mock latency is at least 10 ms, and 25 ms during the peak hours. */
  function MockLatency(hour: int, s: Slot<MockPair>): (v: int)
    ensures v >= 5
    ensures ValidMockPair(s.exchange, s.region, s.draw) ==> v >= 10 + PeakHours(hour)
  {
    var x := GeographicLatency(LocationMap, s.exchange, s.region, s.draw.geo) + (10.0 + s.draw.load * 30.0) + PeakHours(hour) as real;
    if ValidMockPair(s.exchange, s.region, s.draw) then
      RoundMonotone((10 + PeakHours(hour)) as real, x);
      RoundUnique((10 + PeakHours(hour)) as real, 10 + PeakHours(hour));
      Max(5, Round(x))
    else Max(5, Round(x))
  }

  function MockValue(hour: int): Slot<MockPair> -> int {
    s => MockLatency(hour, s)
  }

  /** With the same draws, a connection measured between 08:00 and 18:59 is exactly
      15 ms slower than one measured outside those hours. */
  lemma PeakHourBonus(peak: int, offPeak: int, s: Slot<MockPair>)
    requires 8 <= peak <= 18 && !(8 <= offPeak <= 18)
    requires ValidMockPair(s.exchange, s.region, s.draw)
    ensures MockLatency(peak, s) == MockLatency(offPeak, s) + 15
  {
    var x := GeographicLatency(LocationMap, s.exchange, s.region, s.draw.geo) + (10.0 + s.draw.load * 30.0);
    assert x + PeakHours(peak) as real == (x + PeakHours(offPeak) as real) + 15 as real;
    RoundShift(x + PeakHours(offPeak) as real, 15);
  }

  // ---------------------------------------------------------------------------
  // The two data paths
  // ---------------------------------------------------------------------------

  /** `{ current, historical }`. */
  datatype Processed = Processed(current: LatencyData, historical: HistoricalData)

  /** Everything random or clock-dependent one fetch may consume. */
  datatype FetchDraws = FetchDraws(
    now: int,
    hour: int,
    proxy: seq<ExchangeDraw<ProxyPair>>,
    mock: seq<ExchangeDraw<MockPair>>,
    history: seq<seq<RealPointDraw>>)

  predicate ValidFetchDraws(d: FetchDraws) {
    && ValidSlotDraws(ExchangeIds, d.proxy, ProxyRegionIds, ValidProxyPair)
    && ValidSlotDraws(ExchangeIds, d.mock, RegionIds, ValidMockPair)
    && ValidRealHistoryDraws(d.history)
  }

  function ProxyCurrent(p: Payload, d: FetchDraws): LatencyData
    requires ValidFetchDraws(d)
  {
    GenerateWith(ExchangeIds, d.proxy, ProxyRegionIds, CloudflareValue(p))
  }

  function MockCurrent(d: FetchDraws): LatencyData
    requires ValidFetchDraws(d)
  {
    GenerateWith(ExchangeIds, d.mock, RegionIds, MockValue(d.hour))
  }

  /** The generated objects hold 26 to 52 distinct keys. */
  lemma CurrentShape(p: Payload, d: FetchDraws)
    requires ValidFetchDraws(d)
    ensures DistinctKeys(ProxyCurrent(p, d)) && 26 <= |ProxyCurrent(p, d)| <= 52
    ensures DistinctKeys(MockCurrent(d)) && 26 <= |MockCurrent(d)| <= 52
  {
    ExchangeIdsSeparated();
    GeneratedWithShape(ExchangeIds, d.proxy, ProxyRegionIds, CloudflareValue(p));
    GeneratedWithShape(ExchangeIds, d.mock, RegionIds, MockValue(d.hour));
  }

  /** `processCloudflareData(data)`. The server path maps the 13 exchanges onto the
      12 proxy regions with 2 to 4 connections each, every latency at least 5 ms,
      with a full four-range history. */
  function ProcessCloudflareData(p: Payload, d: FetchDraws): (r: Processed)
    requires ValidFetchDraws(d)
    ensures DistinctKeys(r.current) && 26 <= |r.current| <= 52
    ensures AllAtLeast(r.current, 5)
    ensures KeysOver(r.current, ExchangeIds, ProxyRegionIds)
    ensures r.historical.Keys == RangeLabels
  {
    CurrentShape(p, d);
    ProxyCurrentValues(p, d);
    var current := ProxyCurrent(p, d);
    Processed(current, HistoricalFromReal(d.now, current, d.history))
  }

  /** `generateEnhancedMockData()`. The local path maps the 13 exchanges onto the 17
      regions with 2 to 4 connections each, every latency at least 10 ms, with a full
      four-range history. */
  function EnhancedMockData(d: FetchDraws): (r: Processed)
    requires ValidFetchDraws(d)
    ensures DistinctKeys(r.current) && 26 <= |r.current| <= 52
    ensures AllAtLeast(r.current, 10)
    ensures KeysOver(r.current, ExchangeIds, RegionIds)
    ensures r.historical.Keys == RangeLabels
  {
    CurrentShape(Payload(None), d);
    MockCurrentValues(d);
    var current := MockCurrent(d);
    Processed(current, HistoricalFromReal(d.now, current, d.history))
  }

  lemma ProxyCurrentValues(p: Payload, d: FetchDraws)
    requires ValidFetchDraws(d)
    ensures AllAtLeast(ProxyCurrent(p, d), 5)
    ensures KeysOver(ProxyCurrent(p, d), ExchangeIds, ProxyRegionIds)
  {
    ExchangeIdsSeparated();
    ProxyValuesFloor(ExchangeIds, d.proxy, ProxyRegionIds, p);
    GeneratedWithin(ExchangeIds, d.proxy, ProxyRegionIds, CloudflareValue(p), AtLeastFive);
  }

  lemma ProxyValuesFloor(exchanges: seq<string>, draws: seq<ExchangeDraw<ProxyPair>>, regions: seq<string>, p: Payload)
    requires ValidDraws(draws, exchanges, regions)
    ensures forall j, i :: 0 <= j < |exchanges| && 0 <= i < Count(draws[j]) ==>
      AtLeastFive(CloudflareValue(p)(Slot(exchanges[j], draws[j].shuffled[i], i, draws[j].pairs[i])))
  {
    forall j, i | 0 <= j < |exchanges| && 0 <= i < Count(draws[j])
      ensures AtLeastFive(CloudflareValue(p)(Slot(exchanges[j], draws[j].shuffled[i], i, draws[j].pairs[i])))
    {
      var slot := Slot(exchanges[j], draws[j].shuffled[i], i, draws[j].pairs[i]);
      assert CloudflareValue(p)(slot) == CloudflareLatency(p, slot);
    }
  }

  lemma MockCurrentValues(d: FetchDraws)
    requires ValidFetchDraws(d)
    ensures AllAtLeast(MockCurrent(d), 10)
    ensures KeysOver(MockCurrent(d), ExchangeIds, RegionIds)
  {
    ExchangeIdsSeparated();
    MockValuesFloor(ExchangeIds, d.mock, RegionIds, d.hour);
    GeneratedWithin(ExchangeIds, d.mock, RegionIds, MockValue(d.hour), AtLeastTen);
  }

  predicate AtLeastFive(v: int) {
    v >= 5
  }

  predicate AtLeastTen(v: int) {
    v >= 10
  }

  lemma MockValuesFloor(exchanges: seq<string>, draws: seq<ExchangeDraw<MockPair>>, regions: seq<string>, hour: int)
    requires ValidSlotDraws(exchanges, draws, regions, ValidMockPair)
    ensures forall j, i :: 0 <= j < |exchanges| && 0 <= i < Count(draws[j]) ==>
      AtLeastTen(MockValue(hour)(Slot(exchanges[j], draws[j].shuffled[i], i, draws[j].pairs[i])))
  {
    forall j, i | 0 <= j < |exchanges| && 0 <= i < Count(draws[j])
      ensures AtLeastTen(MockValue(hour)(Slot(exchanges[j], draws[j].shuffled[i], i, draws[j].pairs[i])))
    {
      assert ValidDraw(draws[j], regions);
      assert MockLatency(hour, Slot(exchanges[j], draws[j].shuffled[i], i, draws[j].pairs[i])) >= 10;
    }
  }

  // ---------------------------------------------------------------------------
  // The fetch cycle (`fetchNetworkQuality`)
  // ---------------------------------------------------------------------------

  /** A thrown value: an `Error` with its message, or anything else. */
  datatype Thrown = ErrorValue(message: string) | OtherValue

  /** `err instanceof Error ? err.message : 'Server Connection Error'`. */
  function ErrorText(e: Thrown): string {
    match e
    case ErrorValue(m) => m
    case OtherValue => "Server Connection Error"
  }

  /** The fields of the proxy's JSON body the adapter reads; `data` is absent or a
      payload, `message` absent or a string. */
  datatype ProxyBody = ProxyBody(success: bool, data: Option<Payload>, fallback: bool, message: Option<string>)

  /** `await response.json()`: a body, or the error its parsing throws. */
  datatype Body = Parsed(body: ProxyBody) | Unparsable(error: Thrown)

  /** `await fetch('/api/radar/netflows')`: rejected, or a response with its `ok`
      flag, status code, text (read only when not ok) and body. */
  datatype Response = Rejected(error: Thrown) | Reply(ok: bool, status: int, text: string, body: Body)

  /** The message of the `TypeError` thrown by `undefined.result` when a fallback
      body has no `data` (the wording of the V8 engine). */
  const ReadResultOfUndefined: string := "Cannot read properties of undefined (reading 'result')"

  const UnexpectedFormat: string := "Unexpected server response format"

  /** The hook's state. */
  datatype AdapterState = AdapterState(
    latencyData: LatencyData,
    historicalData: HistoricalData,
    isLoading: bool,
    error: Option<string>)

  /** `useState({})`, `useState({})`, `useState(true)`, `useState(null)`. */
  const Initial: AdapterState := AdapterState([], map[], true, None)

  /** Where the data of one fetch with a key comes from, and the error it records:
      the server's payload, or the local generator after a caught failure. */
  datatype Route = ServerData(payload: Payload, error: Option<string>) | LocalData(error: Option<string>)

  /** The branches of the `try` block and its `catch`. The data comes from the
      server's payload exactly when the body carries data, and the error is cleared
      exactly when the proxy reports success with data. */
  function RouteOf(resp: Response): (r: Route)
    ensures r.ServerData? <==> CarriesData(resp)
    ensures CarriesData(resp) ==> r.payload == resp.body.body.data.value
    ensures r.error.None? <==> Succeeded(resp)
  {
    match resp
    case Rejected(e) => LocalData(Some(ErrorText(e)))
    case Reply(ok, status, text, body) =>
      if !ok then
        LocalData(Some("Server API error: " + IntToString(status) + " - " + text))
      else match body
        case Unparsable(e) => LocalData(Some(ErrorText(e)))
        case Parsed(b) =>
          if b.success && b.data.Some? then
            ServerData(b.data.value, None)
          else if b.fallback then
            if b.data.Some? then
              ServerData(b.data.value, Some("API unavailable: " + b.message.GetOr("undefined")))
            else
              LocalData(Some(ReadResultOfUndefined))
          else
            LocalData(Some(UnexpectedFormat))
  }

  /** The data of a route. */
  function RouteData(route: Route, d: FetchDraws): Processed
    requires ValidFetchDraws(d)
  {
    match route
    case ServerData(p, _) => ProcessCloudflareData(p, d)
    case LocalData(_) => EnhancedMockData(d)
  }

  /** The state while a request is in flight: loading, no error, stale data still served. */
  function InFlight(s: AdapterState): (r: AdapterState)
    ensures r.isLoading && r.error.None?
    ensures r.latencyData == s.latencyData && r.historicalData == s.historicalData
  {
    s.(isLoading := true, error := None)
  }

  /** One run of `fetchNetworkQuality`. Without a key the mock data is returned to a
      caller that discards it, so the state does not change. The system never has "no
      data": with a key, every fetch ends not loading with well-formed data from the
      route its response selects, and the error of that route. */
  function FetchNetworkQuality(s: AdapterState, hasKey: bool, resp: Response, d: FetchDraws): (r: AdapterState)
    requires ValidFetchDraws(d)
    ensures !hasKey ==> r == s
    ensures hasKey ==>
      && !r.isLoading
      && r.error == RouteOf(resp).error
      && Processed(r.latencyData, r.historicalData) == RouteData(RouteOf(resp), d)
      && WellFormed(Processed(r.latencyData, r.historicalData))
  {
    if !hasKey then s
    else
      var route := RouteOf(resp);
      var data := RouteData(route, d);
      RouteDataWellFormed(route, d);
      assert Processed(data.current, data.historical) == data;
      AdapterState(data.current, data.historical, false, route.error)
  }

  /** The body carries server data: the success shape, or the fallback shape with data. */
  predicate CarriesData(resp: Response) {
    && resp.Reply? && resp.ok && resp.body.Parsed?
    && resp.body.body.data.Some?
    && (resp.body.body.success || resp.body.body.fallback)
  }

  /** The proxy reports upstream success with data. */
  predicate Succeeded(resp: Response) {
    resp.Reply? && resp.ok && resp.body.Parsed? && resp.body.body.success && resp.body.body.data.Some?
  }

  /** The error recorded on each failure path. */
  lemma RouteErrors(resp: Response)
    ensures var e := RouteOf(resp).error;
      && (resp.Rejected? ==> e == Some(ErrorText(resp.error)))
      && (resp.Reply? && !resp.ok ==>
            e == Some("Server API error: " + IntToString(resp.status) + " - " + resp.text))
      && (resp.Reply? && resp.ok && resp.body.Unparsable? ==> e == Some(ErrorText(resp.body.error)))
      && (CarriesData(resp) && !Succeeded(resp) ==>
            e == Some("API unavailable: " + resp.body.body.message.GetOr("undefined")))
      && (resp.Reply? && resp.ok && resp.body.Parsed? && resp.body.body.fallback && resp.body.body.data.None? ==>
            e == Some(ReadResultOfUndefined))
      && (resp.Reply? && resp.ok && resp.body.Parsed? && !resp.body.body.fallback && !Succeeded(resp) ==>
            e == Some(UnexpectedFormat))
  {
  }

  /** The generated data is well formed: 26 to 52 distinct latencies, each at least 5 ms,
      and the four range labels. */
  predicate WellFormed(x: Processed) {
    && DistinctKeys(x.current) && 26 <= |x.current| <= 52
    && AllAtLeast(x.current, 5)
    && x.historical.Keys == RangeLabels
  }

  lemma RouteDataWellFormed(route: Route, d: FetchDraws)
    requires ValidFetchDraws(d)
    ensures WellFormed(RouteData(route, d))
  {
    match route
    case ServerData(p, _) => ServerWellFormed(p, d);
    case LocalData(_) => LocalWellFormed(d);
  }

  lemma ServerWellFormed(p: Payload, d: FetchDraws)
    requires ValidFetchDraws(d)
    ensures WellFormed(ProcessCloudflareData(p, d))
  {
  }

  lemma LocalWellFormed(d: FetchDraws)
    requires ValidFetchDraws(d)
    ensures WellFormed(EnhancedMockData(d))
  {
    AllAtLeastWeaken(EnhancedMockData(d).current, 10, 5);
  }

  /** A thrown `Error` whose message is empty leaves an empty error string: the
      error is present but says nothing. */
  lemma EmptyErrorMessage()
    ensures RouteOf(Rejected(ErrorValue(""))).error == Some("")
  {
  }
}

=== FILE: catalog.dfy ===
/** The location records and the id lists the generators hard-code. */
module Catalog {
  import opened Wrappers
  import opened Numbers
  import opened Text
  import opened Generation

  /** The exchange ids every latency generator iterates over. */
  const ExchangeIds: seq<string> := [
    "binance-us-east", "binance-eu-west", "binance-asia-singapore",
    "okx-hong-kong", "okx-us-central",
    "bybit-singapore", "bybit-london",
    "deribit-netherlands", "coinbase-us-west", "kraken-germany",
    "bitfinex-tokyo", "huobi-seoul", "kucoin-australia"
  ]

  /** The 17 region ids of the base simulator and of the enhanced mock. */
  const RegionIds: seq<string> := [
    "aws-us-east-1", "aws-us-west-2", "aws-eu-west-1", "aws-ap-southeast-1", "aws-ap-northeast-1",
    "gcp-us-central1", "gcp-us-west1", "gcp-europe-west1", "gcp-asia-east2", "gcp-asia-northeast3",
    "azure-eastus", "azure-westus2", "azure-northeurope", "azure-southeastasia", "azure-uksouth",
    "azure-australiaeast", "azure-germanywestcentral"
  ]

  /** The shorter 12-region list used when mapping proxy data onto pairs. */
  const ProxyRegionIds: seq<string> := [
    "aws-us-east-1", "aws-us-west-2", "aws-eu-west-1", "aws-ap-southeast-1",
    "gcp-us-central1", "gcp-us-west1", "gcp-europe-west1", "gcp-asia-east2",
    "azure-eastus", "azure-westus2", "azure-northeurope", "azure-southeastasia"
  ]

  /** The three cloud providers, in the store's initial order. */
  const Providers: seq<string> := ["AWS", "GCP", "Azure"]

  /** Characters 0, 1, 4, 6 and 8 agree. */
  predicate SameSignature(a: string, b: string)
    requires |a| >= 9 && |b| >= 9
  {
    a[0] == b[0] && a[1] == b[1] && a[4] == b[4] && a[6] == b[6] && a[8] == b[8]
  }

  lemma ExchangeSignaturesDiffer()
    ensures forall i :: 0 <= i < |ExchangeIds| ==> |ExchangeIds[i]| >= 9
    ensures forall i, j :: 0 <= i < |ExchangeIds| && 0 <= j < |ExchangeIds| && i != j ==>
      !SameSignature(ExchangeIds[i], ExchangeIds[j])
  {
  }

  /** Keys built from two different exchanges of the list never coincide. */
  lemma ExchangeIdsSeparated()
    ensures Separated(ExchangeIds)
  {
    ExchangeSignaturesDiffer();
    forall i, j | 0 <= i < |ExchangeIds| && 0 <= j < |ExchangeIds| && i != j
      ensures !IsPrefix(ExchangeIds[i] + "-", ExchangeIds[j] + "-")
    {
      if IsPrefix(ExchangeIds[i] + "-", ExchangeIds[j] + "-") {
        PrefixKeepsSignature(ExchangeIds[i], ExchangeIds[j]);
        assert false;
      }
    }
  }

  /** A key starts with the id of the one exchange it was built from. */
  lemma PrefixPicksExchange(x: string, y: string, r: string)
    requires x in ExchangeIds && y in ExchangeIds
    requires IsPrefix(x, y + "-" + r)
    ensures x == y
  {
    ExchangeSignaturesDiffer();
    var i :| 0 <= i < |ExchangeIds| && ExchangeIds[i] == x;
    var j :| 0 <= j < |ExchangeIds| && ExchangeIds[j] == y;
    var key := y + "-" + r;
    assert forall k :: 0 <= k < 9 ==> key[k] == y[k];
    assert forall k :: 0 <= k < 9 ==> key[..|x|][k] == key[k];
    assert SameSignature(x, y);
  }

  lemma PrefixKeepsSignature(x: string, y: string)
    requires |x| >= 9 && |y| >= 9
    requires IsPrefix(x + "-", y + "-")
    ensures SameSignature(x, y)
  {
    var a, b := x + "-", y + "-";
    assert forall k :: 0 <= k < 9 ==> a[k] == x[k] && b[k] == y[k];
    assert forall k :: 0 <= k < 9 ==> b[..|a|][k] == b[k];
  }

  function Pow10(n: nat): (p: nat)
    ensures p >= 1
  {
    if n == 0 then 1 else 10 * Pow10(n - 1)
  }

  /** A decimal literal of the data files: `units / 10^scale` (39.0458 is Decimal(390458, 4)). */
  datatype Decimal = Decimal(units: int, scale: nat)

  function DecimalValue(d: Decimal): real {
    d.units as real / Pow10(d.scale) as real
  }

  predicate IsNumberChar(c: char) {
    IsDigit(c) || c == '-' || c == '.'
  }

  /** Only digits, signs and decimal points: the text of a number. */
  predicate IsNumberText(s: string) {
    forall k :: 0 <= k < |s| ==> IsNumberChar(s[k])
  }

  lemma NumberTextConcat(a: string, b: string)
    requires IsNumberText(a) && IsNumberText(b)
    ensures IsNumberText(a + b)
  {
    assert forall k :: 0 <= k < |a + b| ==> (a + b)[k] == if k < |a| then a[k] else b[k - |a|];
  }

  /** Drops trailing '0' characters. */
  function TrimZeros(s: string): (r: string)
    ensures |r| <= |s| && r == s[..|r|]
    ensures |r| > 0 ==> r[|r| - 1] != '0'
    ensures forall k :: |r| <= k < |s| ==> s[k] == '0'
  {
    if |s| == 0 || s[|s| - 1] != '0' then s else TrimZeros(s[..|s| - 1])
  }

  /** The `width` decimal digits of `f`, most significant first, leading zeros kept. */
  function Digits(f: nat, width: nat): (r: string)
    ensures |r| == width
    ensures forall k :: 0 <= k < |r| ==> IsDigit(r[k])
  {
    if width == 0 then "" else Digits(f / 10, width - 1) + [DigitChar(f % 10)]
  }

  /** The text of `magnitude / 10^scale`: integer part, then the fractional digits
      without trailing zeros, if any are left. */
  function UnsignedText(magnitude: nat, scale: nat): (r: string)
    ensures IsNumberText(r)
  {
    var whole := WholeText(magnitude, scale);
    var fraction := FractionText(magnitude, scale);
    if |fraction| == 0 then whole
    else
      NumberTextConcat(whole, ".");
      NumberTextConcat(whole + ".", fraction);
      whole + "." + fraction
  }

  /** The integer part of `magnitude / 10^scale`. */
  function WholeText(magnitude: nat, scale: nat): (r: string)
    ensures IsNumberText(r)
  {
    var p := Pow10(scale);
    QuotientIsNat(magnitude, p);
    var s := NatToString(magnitude / p);
    DigitTextIsNumberText(s);
    s
  }

  lemma QuotientIsNat(m: nat, p: nat)
    requires p >= 1
    ensures m / p >= 0
  {
  }

  /** The fractional digits of `magnitude / 10^scale` without trailing zeros. */
  function FractionText(magnitude: nat, scale: nat): (r: string)
    ensures IsNumberText(r)
  {
    var s := TrimZeros(Digits(magnitude % Pow10(scale), scale));
    DigitTextIsNumberText(s);
    s
  }

  lemma DigitTextIsNumberText(s: string)
    requires forall k :: 0 <= k < |s| ==> IsDigit(s[k])
    ensures IsNumberText(s)
  {
  }

  /** `Number.prototype.toString` of a decimal literal. */
  function DecimalText(d: Decimal): (r: string)
    ensures IsNumberText(r)
  {
    if d.units < 0 then
      var body := UnsignedText(-d.units, d.scale);
      NumberTextConcat("-", body);
      "-" + body
    else UnsignedText(d.units, d.scale)
  }

  /** The text opens with '-' exactly for a negative value, followed by the digits of
      the integer part, which read back as `|units| / 10^scale`. */
  lemma DecimalTextSign(d: Decimal)
    ensures var r, body := DecimalText(d), if d.units < 0 then DecimalText(d)[1..] else DecimalText(d);
      && |r| > 0 && (r[0] == '-' <==> d.units < 0)
      && IntegerPartOf(body) == NatToString(Abs(d.units) / Pow10(d.scale))
      && ParseDigits(IntegerPartOf(body)) == Abs(d.units) / Pow10(d.scale)
  {
    var m := Abs(d.units);
    QuotientIsNat(m, Pow10(d.scale));
    var whole := NatToString(m / Pow10(d.scale));
    var body := UnsignedText(m, d.scale);
    assert body[..|whole|] == whole;
    IntegerPartOfPrefix(body, whole);
    ParseNatToString(m / Pow10(d.scale));
    if d.units < 0 {
      assert DecimalText(d) == "-" + body;
      assert DecimalText(d)[1..] == body;
    }
  }

  function Abs(n: int): nat {
    if n < 0 then -n else n
  }

  /** The leading run of digits. */
  function IntegerPartOf(s: string): (r: string)
    ensures |r| <= |s| && r == s[..|r|]
    ensures forall k :: 0 <= k < |r| ==> IsDigit(r[k])
    decreases |s|
  {
    if |s| == 0 || !IsDigit(s[0]) then "" else [s[0]] + IntegerPartOf(s[1..])
  }

  lemma {:induction false} IntegerPartOfPrefix(s: string, w: string)
    requires |w| <= |s| && s[..|w|] == w
    requires forall k :: 0 <= k < |w| ==> IsDigit(w[k])
    requires |w| == |s| || !IsDigit(s[|w|])
    ensures IntegerPartOf(s) == w
    decreases |w|
  {
    if |w| > 0 {
      IntegerPartOfPrefix(s[1..], w[1..]);
    }
  }

  /** An exchange record of the data file. */
  datatype Exchange = Exchange(
    id: string,
    name: string,
    latitude: Decimal,
    longitude: Decimal,
    cloudProvider: string,
    region: string,
    volume24h: Option<nat>)

  /** A cloud-region record of the data file. */
  datatype CloudRegion = CloudRegion(
    id: string,
    regionName: string,
    provider: string,
    latitude: Decimal,
    longitude: Decimal,
    serverCount: nat)

  datatype ItemKind = ExchangeItem | RegionItem

  /** What a search result and the selection carry: an exchange, or a region relabelled
      with `name = regionName` and `cloudProvider = provider`. */
  datatype Item = Item(kind: ItemKind, id: string, name: string, cloudProvider: string)
}

=== FILE: chart.dfy ===
/** The latency trend chart (client/src/components/UI/LatencyChart.tsx): the series of
    the selected range, the vertical scale, the point coordinates in percent of the
    plot area, and the min/avg/max statistics. */
module Chart {
  import opened Wrappers
  import opened Numbers
  import opened History
  import opened Store

  datatype TimeRange = OneHour | OneDay | OneWeek | OneMonth

  function RangeKey(r: TimeRange): string {
    match r
    case OneHour => "1h"
    case OneDay => "24h"
    case OneWeek => "7d"
    case OneMonth => "30d"
  }

  /** The range the chart opens with. */
  const DefaultRange: TimeRange := OneDay

  /** `historicalData[selectedRange] || []`. */
  function ChartData(h: HistoricalData, r: TimeRange): (points: seq<HistoricalPoint>)
    ensures RangeKey(r) !in h ==> points == []
    ensures RangeKey(r) in h ==> points == h[RangeKey(r)]
  {
    if RangeKey(r) in h then h[RangeKey(r)] else []
  }

  function Latencies(points: seq<HistoricalPoint>): (xs: seq<int>)
    ensures |xs| == |points|
    ensures forall k :: 0 <= k < |points| ==> xs[k] == points[k].latency
  {
    seq(|points|, k requires 0 <= k < |points| => points[k].latency)
  }

  /** `Math.max(...latencies, 100)`: the top of the scale. */
  function MaxLatency(points: seq<HistoricalPoint>): (m: int)
    ensures m >= 100
    ensures forall k :: 0 <= k < |points| ==> points[k].latency <= m
    ensures m == 100 || exists k :: 0 <= k < |points| && points[k].latency == m
  {
    if |points| == 0 then 100 else Max(MaxOf(Latencies(points)), 100)
  }

  /** The horizontal position of point `index` of `n`, in percent: the polyline divides
      by `n - 1`, the circles by `Math.max(n - 1, 1)`. */
  function PointX(index: nat, n: nat): real {
    index as real / Max(n - 1, 1) as real * 100.0
  }

  /** The positions are evenly spaced from 0 to 100; a lone point sits at 0. */
  lemma PointXSpacing(n: nat)
    ensures n >= 1 ==> PointX(0, n) == 0.0
    ensures n >= 2 ==> PointX(n - 1, n) == 100.0
    ensures n >= 2 ==> forall i :: 0 <= i < n - 1 ==> PointX(i + 1, n) - PointX(i, n) == 100.0 / (n - 1) as real
    ensures forall i :: 0 <= i < n ==> 0.0 <= PointX(i, n) <= 100.0
  {
    forall i | 0 <= i < n ensures 0.0 <= PointX(i, n) <= 100.0 {
      if n >= 2 {
        assert i as real <= (n - 1) as real;
        assert i as real / (n - 1) as real <= 1.0;
      }
    }
  }

  /** The vertical position in percent from the top: `100 - latency / max * 100`. */
  function PointY(latency: int, max: int): real
    requires max > 0
  {
    100.0 - latency as real / max as real * 100.0
  }

  /** A non-negative latency at most the scale's top lands inside the plot. */
  lemma PointYInside(latency: int, max: int)
    requires max > 0 && 0 <= latency <= max
    ensures 0.0 <= PointY(latency, max) <= 100.0
  {
    assert latency as real / max as real <= 1.0;
  }

  /** A higher latency is drawn higher up. */
  lemma PointYMonotone(a: int, b: int, max: int)
    requires max > 0 && a <= b
    ensures PointY(b, max) <= PointY(a, max)
  {
    assert a as real / max as real <= b as real / max as real;
  }

  /** The circles, one per point. */
  function Circles(points: seq<HistoricalPoint>): (cs: seq<(real, real)>)
    ensures |cs| == |points|
    ensures forall k :: 0 <= k < |cs| ==> 0.0 <= cs[k].0 <= 100.0
    ensures forall k :: 0 <= k < |cs| ==> points[k].latency >= 0 ==> 0.0 <= cs[k].1 <= 100.0
    ensures forall k :: 0 <= k < |cs| ==> cs[k] == (PointX(k, |points|), PointY(points[k].latency, MaxLatency(points)))
  {
    var m := MaxLatency(points);
    PointXSpacing(|points|);
    AllPointsInside(points, m);
    seq(|points|, k requires 0 <= k < |points| => (PointX(k, |points|), PointY(points[k].latency, m)))
  }

  lemma AllPointsInside(points: seq<HistoricalPoint>, m: int)
    requires m > 0 && forall k :: 0 <= k < |points| ==> points[k].latency <= m
    ensures forall k :: 0 <= k < |points| && points[k].latency >= 0 ==> 0.0 <= PointY(points[k].latency, m) <= 100.0
  {
    forall k | 0 <= k < |points| && points[k].latency >= 0
      ensures 0.0 <= PointY(points[k].latency, m) <= 100.0
    {
      PointYInside(points[k].latency, m);
    }
  }

  /** The polyline is drawn only from two points on, through the circles' centres. */
  function Polyline(points: seq<HistoricalPoint>): (line: Option<seq<(real, real)>>)
    ensures line.Some? <==> |points| > 1
    ensures line.Some? ==> line.value == Circles(points)
  {
    if |points| > 1 then Some(Circles(points)) else None
  }

  /** The statistics row: shown from one point on. */
  datatype Stats = Stats(min: int, avg: int, max: int)

  function Statistics(points: seq<HistoricalPoint>): (s: Option<Stats>)
    ensures s.Some? <==> |points| > 0
    ensures s.Some? ==> s.value.min <= s.value.avg <= s.value.max
    ensures s.Some? ==> forall k :: 0 <= k < |points| ==> s.value.min <= points[k].latency <= s.value.max
    ensures s.Some? ==> exists k :: 0 <= k < |points| && points[k].latency == s.value.min
    ensures s.Some? ==> exists k :: 0 <= k < |points| && points[k].latency == s.value.max
    ensures s.Some? ==> s.value.avg == Round(Mean(Latencies(points)))
  {
    if |points| == 0 then None
    else
      var xs := Latencies(points);
      RoundedMeanBetween(xs);
      Some(Stats(MinOf(xs), Round(Mean(xs)), MaxOf(xs)))
  }

  /** The y-axis labels from the top: the scale's top, three rounded fractions, 0. */
  function AxisLabels(max: int): (labels: seq<int>)
    requires max >= 0
    ensures |labels| == 5 && labels[0] == max && labels[4] == 0
    ensures forall k :: 0 <= k < 4 ==> labels[k] >= labels[k + 1]
    ensures forall k :: 1 <= k <= 3 ==>
      labels[k] as real - 0.5 <= max as real * (4 - k) as real / 4.0 < labels[k] as real + 0.5
  {
    var q := [Round(max as real * 0.75), Round(max as real * 0.5), Round(max as real * 0.25)];
    RoundMonotone(max as real * 0.5, max as real * 0.75);
    RoundMonotone(max as real * 0.25, max as real * 0.5);
    RoundMonotone(0.0, max as real * 0.25);
    RoundMonotone(max as real * 0.75, max as real);
    RoundUnique(0.0, 0);
    RoundUnique(max as real, max);
    [max] + q + [0]
  }

  /** The close button hides the chart and changes nothing else. */
  function Close(s: MapState): (r: MapState)
    ensures !r.showLatencyChart
    ensures forall f :: f != Chart ==> Agree(s, r, f)
  {
    var r := Apply(s, SetShowLatencyChart(false));
    forall f | f != Chart ensures Agree(s, r, f) {
      ApplyFrame(s, SetShowLatencyChart(false), f);
    }
    r
  }

  /** On a history with the four ranges, every range shows a line and statistics; the
      default range shows 24 points. */
  lemma FullHistoryDrawn(h: HistoricalData, r: TimeRange)
    requires h.Keys == RangeLabels
    requires |h["1h"]| == 60 && |h["24h"]| == 24 && |h["7d"]| == 7 && |h["30d"]| == 30
    ensures Polyline(ChartData(h, r)).Some? && Statistics(ChartData(h, r)).Some?
    ensures |ChartData(h, DefaultRange)| == 24
  {
  }
}

=== FILE: dashboard.dfy ===
/** The performance panel (client/src/components/UI/PerformanceDashboard.tsx): the
    metrics recomputed from the latency object, their colours, and the overall bar. */
module Dashboard {
  import opened Numbers
  import opened Latencies
  import opened Generation
  import Adapter
  import Server

  datatype Status = Online | Degraded | Offline

  datatype Color = Green | Yellow | Red

  /** The reading of `performance.memory` when the browser has it, as the ratio
      `usedJSHeapSize / jsHeapSizeLimit`; otherwise the `Math.random()` draw of the
      fallback. */
  datatype MemoryReading = HeapRatio(ratio: real) | NoMemoryApi(draw: real)

  datatype Metrics = Metrics(fps: int, memoryUsage: int, connectionCount: nat, avgLatency: int, serverStatus: Status)

  /** The panel's metrics before the first update. */
  const InitialMetrics: Metrics := Metrics(60, 0, 0, 0, Online)

  /** The mean of all values, 0 for an empty object. */
  function AverageLatency(d: LatencyData): (avg: real)
    ensures |d| == 0 ==> avg == 0.0
    ensures |d| > 0 ==> avg == Mean(Values(d))
    ensures |d| > 0 ==> MinOf(Values(d)) as real <= avg <= MaxOf(Values(d)) as real
  {
    if |d| > 0 then
      MeanBetween(Values(d));
      MeanLatency(d)
    else 0.0
  }

  /** The status from the unrounded average. */
  function StatusOf(avg: real): (s: Status)
    ensures s == Online <==> avg < 100.0
    ensures s == Degraded <==> 100.0 <= avg < 200.0
    ensures s == Offline <==> avg >= 200.0
  {
    if avg < 100.0 then Online else if avg < 200.0 then Degraded else Offline
  }

  function StatusRank(s: Status): nat {
    match s
    case Online => 0
    case Degraded => 1
    case Offline => 2
  }

  /** A higher average never gives a better status. */
  lemma StatusMonotone(a: real, b: real)
    requires a <= b
    ensures StatusRank(StatusOf(a)) <= StatusRank(StatusOf(b))
  {
  }

  /** Memory as a rounded percentage. */
  function MemoryUsage(m: MemoryReading): (pct: int)
    ensures m.HeapRatio? && 0.0 <= m.ratio <= 1.0 ==> 0 <= pct <= 100
    ensures m.NoMemoryApi? && IsDraw(m.draw) ==> 20 <= pct <= 50
  {
    match m
    case HeapRatio(ratio) =>
      Round(ratio * 100.0)
    case NoMemoryApi(draw) =>
      if IsDraw(draw) then RoundBetween(draw * 30.0 + 20.0, 20, 50); Round(draw * 30.0 + 20.0)
      else Round(draw * 30.0 + 20.0)
  }

  /** The simulated frame rate `Math.round(58 + Math.random() * 4)`. */
  function SimulatedFps(draw: real): (fps: int)
    ensures IsDraw(draw) ==> 58 <= fps <= 62
  {
    if IsDraw(draw) then RoundBetween(58.0 + draw * 4.0, 58, 62); Round(58.0 + draw * 4.0)
    else Round(58.0 + draw * 4.0)
  }

  /** `updateMetrics`: the rounded mean of all values, the simulated frame rate, the
      memory reading, the number of connections and the status of the unrounded mean. */
  function UpdateMetrics(d: LatencyData, memory: MemoryReading, fpsDraw: real): (m: Metrics)
    ensures m.fps == SimulatedFps(fpsDraw)
    ensures m.memoryUsage == MemoryUsage(memory)
    ensures m.avgLatency == Round(AverageLatency(d))
    ensures m.connectionCount == |d|
    ensures m.serverStatus == StatusOf(AverageLatency(d))
    ensures |d| == 0 ==> m.avgLatency == 0 && m.serverStatus == Online
    ensures |d| > 0 ==> MinOf(Values(d)) <= m.avgLatency <= MaxOf(Values(d))
  {
    var avg := AverageLatency(d);
    if |d| > 0 then RoundedMeanBetween(Values(d)); Metrics(SimulatedFps(fpsDraw), MemoryUsage(memory), |d|, Round(avg), StatusOf(avg))
    else Metrics(SimulatedFps(fpsDraw), MemoryUsage(memory), |d|, Round(avg), StatusOf(avg))
  }

  /** The rounded average shown and the status can disagree at a band edge: an
      average of 99.5 shows as 100 ms while the status is still online. */
  lemma StatusUsesUnroundedAverage()
    ensures Round(99.5) == 100 && StatusOf(99.5) == Online
  {
    RoundUnique(99.5, 100);
  }

  // ---------------------------------------------------------------------------
  // Colours
  // ---------------------------------------------------------------------------

  /** `getStatusColor`: the colour is as severe as the status. */
  function StatusColor(s: Status): (c: Color)
    ensures ColorRank(c) == StatusRank(s)
  {
    match s
    case Online => Green
    case Degraded => Yellow
    case Offline => Red
  }

  /** The status line: while loading it reads 'Loading' in the degraded colour. */
  function StatusLine(isLoading: bool, m: Metrics): (line: (string, Color))
    ensures isLoading ==> line == ("Loading", Yellow)
    ensures !isLoading ==> line.1 == StatusColor(m.serverStatus)
  {
    if isLoading then ("Loading", StatusColor(Degraded))
    else
      var name := match m.serverStatus case Online => "online" case Degraded => "degraded" case Offline => "offline";
      (name, StatusColor(m.serverStatus))
  }

  /** `getMetricColor(value, good, bad)`, a lower-is-better scale. */
  function MetricColor(value: int, good: int, bad: int): (c: Color)
    ensures c == Green <==> value <= good
    ensures c == Yellow <==> good < value <= bad
    ensures c == Red <==> value > good && value > bad
  {
    if value <= good then Green else if value <= bad then Yellow else Red
  }

  function ColorRank(c: Color): nat {
    match c
    case Green => 0
    case Yellow => 1
    case Red => 2
  }

  /** On a lower-is-better scale a larger value never gets a better colour. */
  lemma MetricColorMonotone(a: int, b: int, good: int, bad: int)
    requires a <= b
    ensures ColorRank(MetricColor(a, good, bad)) <= ColorRank(MetricColor(b, good, bad))
  {
  }

  /** The frame-rate colour as written: `getMetricColor(metrics.fps, 55, 30)`, which
      treats a higher frame rate as worse: green up to 55, red above, never yellow. */
  function FpsColorAsWritten(fps: int): (c: Color)
    ensures c == Green <==> fps <= 55
    ensures c == Red <==> fps > 55
    ensures c != Yellow
  {
    MetricColor(fps, 55, 30)
  }

  /** As written, yellow never appears, and every frame rate the panel produces (58 to
      62, and the initial 60) shows red. */
  lemma FpsColorAsWrittenIsInverted(fps: int)
    ensures FpsColorAsWritten(fps) != Yellow
    ensures 58 <= fps <= 62 ==> FpsColorAsWritten(fps) == Red
    ensures FpsColorAsWritten(InitialMetrics.fps) == Red
  {
  }

  /** The frame-rate colour on a higher-is-better scale: green from 55, yellow from 30,
      red below. */
  function FpsColor(fps: int): (c: Color)
    ensures c == Green <==> fps >= 55
    ensures c == Yellow <==> 30 <= fps < 55
    ensures c == Red <==> fps < 30
  {
    if fps >= 55 then Green else if fps >= 30 then Yellow else Red
  }

  /** A higher frame rate never gets a worse colour, and the simulated rates are green. */
  lemma FpsColorMonotone(a: int, b: int)
    requires a <= b
    ensures ColorRank(FpsColor(b)) <= ColorRank(FpsColor(a))
    ensures 58 <= a <= 62 ==> FpsColor(a) == Green
  {
  }

  /** The colours shown for frame rate, memory and average latency, as written: the
      frame rate is green up to 55 and red above. */
  function MetricColors(m: Metrics): (c: (Color, Color, Color))
    ensures c.0 == Green <==> m.fps <= 55
    ensures c.0 == Red <==> m.fps > 55
    ensures c.1 == Green <==> m.memoryUsage <= 50
    ensures c.1 == Yellow <==> 50 < m.memoryUsage <= 80
    ensures c.1 == Red <==> m.memoryUsage > 80
    ensures c.2 == Green <==> m.avgLatency <= 50
    ensures c.2 == Yellow <==> 50 < m.avgLatency <= 100
    ensures c.2 == Red <==> m.avgLatency > 100
  {
    (FpsColorAsWritten(m.fps), MetricColor(m.memoryUsage, 50, 80), MetricColor(m.avgLatency, 50, 100))
  }

  /** The same colours with the corrected frame-rate scale; memory and latency unchanged. */
  function CorrectedMetricColors(m: Metrics): (c: (Color, Color, Color))
    ensures c.0 == Green <==> m.fps >= 55
    ensures c.0 == Yellow <==> 30 <= m.fps < 55
    ensures c.0 == Red <==> m.fps < 30
    ensures c.1 == MetricColors(m).1 && c.2 == MetricColors(m).2
  {
    (FpsColor(m.fps), MetricColor(m.memoryUsage, 50, 80), MetricColor(m.avgLatency, 50, 100))
  }

  /** Every frame rate the panel computes shows red as written and green once corrected. */
  lemma PanelFpsColor(d: LatencyData, memory: MemoryReading, fpsDraw: real)
    requires IsDraw(fpsDraw)
    ensures MetricColors(UpdateMetrics(d, memory, fpsDraw)).0 == Red
    ensures CorrectedMetricColors(UpdateMetrics(d, memory, fpsDraw)).0 == Green
  {
    var m := UpdateMetrics(d, memory, fpsDraw);
    assert 58 <= m.fps <= 62;
  }

  // ---------------------------------------------------------------------------
  // The overall bar
  // ---------------------------------------------------------------------------

  /** The bar's colour from the three metrics: green when all three are in their good
      band, red as soon as one is in its bad band. */
  function BarColor(m: Metrics): (c: Color)
    ensures c == Green <==> m.fps > 55 && m.memoryUsage < 60 && m.avgLatency < 80
    ensures c == Red <==> m.fps <= 45 || m.memoryUsage >= 80 || m.avgLatency >= 120
  {
    if m.fps > 55 && m.memoryUsage < 60 && m.avgLatency < 80 then Green
    else if m.fps > 45 && m.memoryUsage < 80 && m.avgLatency < 120 then Yellow
    else Red
  }

  /** `b` is at least as good as `a` on every metric. */
  predicate NoWorse(a: Metrics, b: Metrics) {
    b.fps >= a.fps && b.memoryUsage <= a.memoryUsage && b.avgLatency <= a.avgLatency
  }

  lemma BarColorMonotone(a: Metrics, b: Metrics)
    requires NoWorse(a, b)
    ensures ColorRank(BarColor(b)) <= ColorRank(BarColor(a))
  {
  }

  /** The weighted score before clamping. */
  function BarScore(m: Metrics): real {
    (m.fps as real / 60.0) * 40.0
      + ((100 - m.memoryUsage) as real / 100.0) * 30.0
      + (RealMax(0.0, (150 - m.avgLatency) as real) / 150.0) * 30.0
  }

  /** `Math.min(100, Math.max(20, score))`. */
  function BarWidth(m: Metrics): (w: real)
    ensures 20.0 <= w <= 100.0
    ensures 20.0 <= BarScore(m) <= 100.0 ==> w == BarScore(m)
    ensures BarScore(m) > 100.0 ==> w == 100.0
    ensures BarScore(m) < 20.0 ==> w == 20.0
  {
    RealMin(100.0, RealMax(20.0, BarScore(m)))
  }

  /** The upper clamp binds on values the panel produces: a frame rate of 61 or 62, memory
      of at most 2 % and the 0 ms average of an empty object score above 100. */
  lemma BarWidthSaturates(m: Metrics)
    requires 61 <= m.fps && m.memoryUsage <= 2 && m.avgLatency <= 0
    ensures BarScore(m) > 100.0 && BarWidth(m) == 100.0
  {
  }

  /** Better metrics never give a narrower bar. */
  lemma BarWidthMonotone(a: Metrics, b: Metrics)
    requires NoWorse(a, b)
    ensures BarWidth(a) <= BarWidth(b)
  {
    assert BarScore(a) <= BarScore(b);
  }

  // ---------------------------------------------------------------------------
  // The server's fallback data on this panel
  // ---------------------------------------------------------------------------

  /** Latencies derived from the server's fallback body are all 2000 ms or more, so the
      panel reports the server offline. */
  lemma ServerMockShowsOffline(now: int, draws: seq<real>, fd: Adapter.FetchDraws, memory: MemoryReading, fpsDraw: real)
    requires Server.ValidMockDraws(draws) && Adapter.ValidFetchDraws(fd)
    ensures var d := Adapter.ProcessCloudflareData(Server.ServerMockPayload(now, draws), fd).current;
      UpdateMetrics(d, memory, fpsDraw).serverStatus == Offline
  {
    var d := Adapter.ProcessCloudflareData(Server.ServerMockPayload(now, draws), fd).current;
    Server.MockScaleThroughAdapter(now, draws, fd);
    AverageAtLeast(d, 2000);
  }

  /** The average of a non-empty object is at least any floor all its values reach. */
  lemma AverageAtLeast(d: LatencyData, floor: int)
    requires |d| > 0 && AllAtLeast(d, floor)
    ensures AverageLatency(d) >= floor as real
  {
    var xs := Values(d);
    var i :| 0 <= i < |xs| && xs[i] == MinOf(xs);
    assert d[i].latency >= floor;
  }
}

=== FILE: exchange_info.dfy ===
/** The selected item's panel (client/src/components/UI/ExchangeInfo.tsx): the latency
    entries whose key starts with the item's id, their average and its quality label. */
module ExchangeInfo {
  import opened Wrappers
  import opened Numbers
  import opened Text
  import opened Latencies
  import opened Catalog
  import opened Store
  import Dashboard

  datatype Quality = Excellent | Good | Poor

  /** The label of an average: below 50 excellent, below 100 good, otherwise poor. */
  function QualityOf(avg: real): (q: Quality)
    ensures q == Excellent <==> avg < 50.0
    ensures q == Good <==> 50.0 <= avg < 100.0
    ensures q == Poor <==> avg >= 100.0
  {
    if avg < 50.0 then Excellent else if avg < 100.0 then Good else Poor
  }

  /** The colour of the average and of the dot, on the same bands as the label. */
  function QualityColor(avg: real): (c: Dashboard.Color)
    ensures c == Dashboard.Green <==> QualityOf(avg) == Excellent
    ensures c == Dashboard.Yellow <==> QualityOf(avg) == Good
    ensures c == Dashboard.Red <==> QualityOf(avg) == Poor
  {
    if avg < 50.0 then Dashboard.Green else if avg < 100.0 then Dashboard.Yellow else Dashboard.Red
  }

  /** The average over the matching entries, 0 when there are none. */
  function AverageFor(d: LatencyData, id: string): (avg: real)
    ensures |Matching(d, id)| == 0 ==> avg == 0.0
    ensures |Matching(d, id)| > 0 ==>
      var xs := Values(Matching(d, id));
      avg == Mean(xs) && MinOf(xs) as real <= avg <= MaxOf(xs) as real
  {
    var xs := Values(Matching(d, id));
    if |xs| > 0 then MeanBetween(xs); Mean(xs) else 0.0
  }

  /** What the latency section shows: the rounded average and the label. */
  datatype Section = Section(average: int, quality: Quality)

  /** The section is shown only when some entry matched. */
  function LatencySection(d: LatencyData, id: string): (s: Option<Section>)
    ensures s.Some? <==> exists e :: e in d && IsPrefix(id, e.key)
    ensures s.Some? ==> s.value.quality == QualityOf(AverageFor(d, id))
    ensures s.Some? ==> s.value.average == Round(Mean(Values(Matching(d, id))))
  {
    var m := Matching(d, id);
    if |m| > 0 then
      FirstIsMember(m);
      Some(Section(Round(AverageFor(d, id)), QualityOf(AverageFor(d, id))))
    else
      None
  }

  /** For keys built from the listed exchanges, an exchange's entries are exactly those
      built from that exchange: no other id starts the same way. */
  lemma ExchangeEntriesExact(d: LatencyData, regions: seq<string>, x: string, e: Entry)
    requires KeysOver(d, ExchangeIds, regions) && x in ExchangeIds
    ensures e in Matching(d, x) <==> e in d && exists r :: r in regions && e.key == Key(x, r)
  {
    if e in Matching(d, x) {
      var k :| 0 <= k < |d| && d[k] == e;
      var y, r :| y in ExchangeIds && r in regions && e.key == Key(y, r);
      PrefixPicksExchange(x, y, r);
    }
    if e in d && exists r :: r in regions && e.key == Key(x, r) {
      var r :| r in regions && e.key == Key(x, r);
      assert e.key[..|x|] == x;
    }
  }

  /** A cloud region picked from the search has no entries: no key starts with a
      region id, so the latency section stays hidden. */
  lemma RegionSelectionShowsNothing(d: LatencyData, regions: seq<string>, id: string)
    requires KeysOver(d, ExchangeIds, regions) && id in RegionIds
    ensures LatencySection(d, id) == None
  {
    ExchangeFirstLetters();
    RegionFirstLetters();
    NoMatchOnFirstChar(d, ExchangeIds, regions, id);
  }

  /** Exchange ids never start with 'a' or 'g'; region ids always do. */
  lemma ExchangeFirstLetters()
    ensures forall i :: 0 <= i < |ExchangeIds| ==> |ExchangeIds[i]| > 0 && ExchangeIds[i][0] != 'a' && ExchangeIds[i][0] != 'g'
  {
  }

  lemma RegionFirstLetters()
    ensures forall i :: 0 <= i < |RegionIds| ==> |RegionIds[i]| > 0 && (RegionIds[i][0] == 'a' || RegionIds[i][0] == 'g')
  {
  }

  lemma NoMatchOnFirstChar(d: LatencyData, exchanges: seq<string>, regions: seq<string>, id: string)
    requires KeysOver(d, exchanges, regions) && |id| > 0
    requires forall e :: e in exchanges ==> |e| > 0 && e[0] != id[0]
    ensures |Matching(d, id)| == 0
  {
    var m := Matching(d, id);
    if |m| > 0 {
      FirstIsMember(m);
      assert false;
    }
  }

  /** The close button clears the selection and nothing else. */
  function Close(s: MapState): (r: MapState)
    ensures r.selectedExchange.None?
    ensures forall f :: f != Selection ==> Agree(s, r, f)
  {
    var r := Apply(s, SetSelectedExchange(None));
    forall f | f != Selection ensures Agree(s, r, f) {
      ApplyFrame(s, SetSelectedExchange(None), f);
    }
    r
  }
}

=== FILE: exchange_map.dfy ===
/** The globe's data selection (client/src/components/ExchangeMap.tsx): which exchanges
    and regions are shown for the visible providers, and which exchange-region pairs get
    a latency connection. */
module ExchangeMap {
  import opened Wrappers
  import opened Catalog
  import opened Latencies
  import opened Store

  /** `exchanges.filter(exchange => visibleProviders.includes(exchange.cloudProvider))`. */
  function VisibleExchanges(xs: seq<Exchange>, providers: seq<string>): (r: seq<Exchange>)
    ensures |r| <= |xs|
    ensures forall e :: e in r <==> e in xs && e.cloudProvider in providers
    ensures forall e :: multiset(r)[e] == if e.cloudProvider in providers then multiset(xs)[e] else 0
  {
    if |xs| == 0 then []
    else
      var rest := VisibleExchanges(xs[1..], providers);
      assert xs == [xs[0]] + xs[1..];
      if xs[0].cloudProvider in providers then [xs[0]] + rest else rest
  }

  /** `cloudRegions.filter(region => visibleProviders.includes(region.provider))`. */
  function VisibleRegions(xs: seq<CloudRegion>, providers: seq<string>): (r: seq<CloudRegion>)
    ensures |r| <= |xs|
    ensures forall g :: g in r <==> g in xs && g.provider in providers
    ensures forall g :: multiset(r)[g] == if g.provider in providers then multiset(xs)[g] else 0
  {
    if |xs| == 0 then []
    else
      var rest := VisibleRegions(xs[1..], providers);
      assert xs == [xs[0]] + xs[1..];
      if xs[0].provider in providers then [xs[0]] + rest else rest
  }

  /** The exchange filter keeps list order: it distributes over concatenation. */
  lemma {:induction false} VisibleExchangesConcat(a: seq<Exchange>, b: seq<Exchange>, providers: seq<string>)
    ensures VisibleExchanges(a + b, providers) == VisibleExchanges(a, providers) + VisibleExchanges(b, providers)
    decreases |a|
  {
    if |a| == 0 {
      assert a + b == b;
    } else {
      var ab := a + b;
      assert ab[0] == a[0] && ab[1..] == a[1..] + b;
      VisibleExchangesConcat(a[1..], b, providers);
    }
  }

  /** The region filter keeps list order: it distributes over concatenation. */
  lemma {:induction false} VisibleRegionsConcat(a: seq<CloudRegion>, b: seq<CloudRegion>, providers: seq<string>)
    ensures VisibleRegions(a + b, providers) == VisibleRegions(a, providers) + VisibleRegions(b, providers)
    decreases |a|
  {
    if |a| == 0 {
      assert a + b == b;
    } else {
      var ab := a + b;
      assert ab[0] == a[0] && ab[1..] == a[1..] + b;
      VisibleRegionsConcat(a[1..], b, providers);
    }
  }

  /** A single record is kept exactly when its provider is visible. */
  lemma VisibleSingle(e: Exchange, g: CloudRegion, providers: seq<string>)
    ensures VisibleExchanges([e], providers) == if e.cloudProvider in providers then [e] else []
    ensures VisibleRegions([g], providers) == if g.provider in providers then [g] else []
  {
    assert [e][1..] == [] && [g][1..] == [];
  }

  /** One drawn connection and the latency it shows. */
  datatype Connection = Connection(exchange: Exchange, region: CloudRegion, latency: int)

  /** A pair is drawn with this latency: same provider, an entry under
      `${exchange.id}-${region.id}` that is non-zero, and inside the range at both ends. */
  predicate Admits(e: Exchange, g: CloudRegion, d: LatencyData, f: LatencyFilter, latency: int) {
    && g.provider == e.cloudProvider
    && Lookup(d, Key(e.id, g.id)) == Some(latency)
    && latency != 0
    && f.min <= latency <= f.max
  }

  /** The connections of one exchange, over the regions in order. */
  function ConnectionsOf(e: Exchange, gs: seq<CloudRegion>, d: LatencyData, f: LatencyFilter): (r: seq<Connection>)
    ensures forall c :: c in r <==> c.exchange == e && c.region in gs && Admits(e, c.region, d, f, c.latency)
  {
    if |gs| == 0 then []
    else
      var rest := ConnectionsOf(e, gs[1..], d, f);
      assert gs == [gs[0]] + gs[1..];
      var g := gs[0];
      var latency := Lookup(d, Key(e.id, g.id));
      if g.provider == e.cloudProvider && latency.Some? && latency.value != 0 && f.min <= latency.value <= f.max then
        [Connection(e, g, latency.value)] + rest
      else rest
  }

  /** The connections of every exchange in order. */
  function ConnectionsFrom(xs: seq<Exchange>, gs: seq<CloudRegion>, d: LatencyData, f: LatencyFilter): (r: seq<Connection>)
    ensures forall c :: c in r <==> c.exchange in xs && c.region in gs && Admits(c.exchange, c.region, d, f, c.latency)
  {
    if |xs| == 0 then []
    else
      assert xs == [xs[0]] + xs[1..];
      ConnectionsOf(xs[0], gs, d, f) + ConnectionsFrom(xs[1..], gs, d, f)
  }

  /** The connections drawn for the store's state: none unless `showConnections`. A
      connection is drawn exactly when connections are on, both ends are listed and of
      a visible provider, the providers agree, and the entry is non-zero and in range. */
  function Connections(xs: seq<Exchange>, gs: seq<CloudRegion>, d: LatencyData, s: MapState): (r: seq<Connection>)
    ensures !s.showConnections ==> r == []
    ensures forall c :: c in r <==>
      && s.showConnections
      && c.exchange in xs && c.exchange.cloudProvider in s.visibleProviders
      && c.region in gs && c.region.provider in s.visibleProviders
      && c.region.provider == c.exchange.cloudProvider
      && Lookup(d, Key(c.exchange.id, c.region.id)) == Some(c.latency)
      && c.latency != 0
      && s.latencyFilter.min <= c.latency <= s.latencyFilter.max
  {
    if !s.showConnections then []
    else
      ConnectionsFrom(VisibleExchanges(xs, s.visibleProviders), VisibleRegions(gs, s.visibleProviders), d, s.latencyFilter)
  }

  /** Every drawn latency is inside the filter's range, both ends included. */
  lemma DrawnInRange(xs: seq<Exchange>, gs: seq<CloudRegion>, d: LatencyData, s: MapState)
    ensures forall c :: c in Connections(xs, gs, d, s) ==>
      s.latencyFilter.min <= c.latency <= s.latencyFilter.max
  {
  }

  /** An inverted range, which the store accepts, hides every connection. */
  lemma InvertedFilterHidesAll(xs: seq<Exchange>, gs: seq<CloudRegion>, d: LatencyData, s: MapState)
    requires s.latencyFilter.min > s.latencyFilter.max
    ensures Connections(xs, gs, d, s) == []
  {
    var r := Connections(xs, gs, d, s);
    if |r| > 0 {
      FirstIsMember(r);
      assert false;
    }
  }
}

=== FILE: export.dfy ===
/** The export panel's data (client/src/components/UI/ExportPanel.tsx): the CSV report,
    the provider filter of the JSON export and the PDF report's statistics and list. */
module Export {
  import opened Wrappers
  import opened Numbers
  import opened Text
  import opened Catalog
  import opened Latencies
  import opened ExchangeMap

  // ---------------------------------------------------------------------------
  // CSV
  // ---------------------------------------------------------------------------

  const Header: seq<string> := ["Exchange", "Cloud Provider", "Latitude", "Longitude", "Volume 24h", "Current Latency"]

  /** `values.reduce((sum, lat, _, arr) => sum + lat / arr.length, acc)` over the values
      still to visit, `n` being the length of the whole array. */
  function FoldMean(xs: seq<int>, n: nat, acc: real): real
    requires n > 0
  {
    if |xs| == 0 then acc else FoldMean(xs[1..], n, acc + xs[0] as real / n as real)
  }

  /** Summing `lat / n` term by term gives `sum / n`. */
  lemma {:induction false} FoldMeanSum(xs: seq<int>, n: nat, acc: real)
    requires n > 0
    ensures FoldMean(xs, n, acc) == acc + Sum(xs) as real / n as real
  {
    if |xs| > 0 {
      FoldMeanSum(xs[1..], n, acc + xs[0] as real / n as real);
      assert (xs[0] + Sum(xs[1..])) as real / n as real == xs[0] as real / n as real + Sum(xs[1..]) as real / n as real;
    }
  }

  /** The reduce over a whole array, 0 for an empty one. */
  function ReduceMean(xs: seq<int>): (m: real)
    ensures |xs| == 0 ==> m == 0.0
    ensures |xs| > 0 ==> m == Mean(xs)
  {
    if |xs| == 0 then 0.0
    else
      FoldMeanSum(xs, |xs|, 0.0);
      FoldMean(xs, |xs|, 0.0)
  }

  /** The latency column: `Math.round(latency || 0)` of the mean over the entries whose
      key starts with the exchange id. It is 0 without a matching entry; otherwise the
      rounded mean, which lies between the smallest and the largest matching value. */
  function ExchangeLatency(d: LatencyData, id: string): (v: int)
    ensures |Values(Matching(d, id))| == 0 ==> v == 0
    ensures |Values(Matching(d, id))| > 0 ==> v == Round(Mean(Values(Matching(d, id))))
    ensures |Values(Matching(d, id))| > 0 ==>
      MinOf(Values(Matching(d, id))) <= v <= MaxOf(Values(Matching(d, id)))
  {
    var xs := Values(Matching(d, id));
    if |xs| > 0 then
      RoundedMeanBetween(xs);
      Round(ReduceMean(xs))
    else
      RoundUnique(0.0, 0);
      Round(ReduceMean(xs))
  }

  /** `exchange.volume24h?.toString() || '0'`: digits that read back as the volume,
      or as 0 when there is none. */
  function VolumeText(v: Option<nat>): (s: string)
    ensures forall i :: 0 <= i < |s| ==> IsDigit(s[i])
    ensures ParseDigits(s) == if v.Some? then v.value else 0
  {
    match v
    case None => assert ParseDigits("0") == 0; "0"
    case Some(n) => ParseNatToString(n); NatToString(n)
  }

  /** `Math.round(...)` written into a cell: a non-negative value reads back as itself. */
  function LatencyText(v: int): (s: string)
    ensures Plain(s)
    ensures v >= 0 ==> (forall i :: 0 <= i < |s| ==> IsDigit(s[i])) && ParseDigits(s) == v
  {
    var s := IntToString(v);
    NumberTextIsPlain(s);
    if v >= 0 then ParseNatToString(v); s else s
  }

  /** One data row. Only the name and the provider can hold a comma or a line break;
      the volume and the latency cells read back as their numbers. */
  function Row(e: Exchange, d: LatencyData): (row: seq<string>)
    ensures |row| == |Header|
    ensures Plain(row[2]) && Plain(row[3]) && Plain(row[4]) && Plain(row[5])
    ensures forall i :: 0 <= i < |row[4]| ==> IsDigit(row[4][i])
    ensures ParseDigits(row[4]) == if e.volume24h.Some? then e.volume24h.value else 0
    ensures ExchangeLatency(d, e.id) >= 0 ==>
      (forall i :: 0 <= i < |row[5]| ==> IsDigit(row[5][i])) && ParseDigits(row[5]) == ExchangeLatency(d, e.id)
  {
    var lat, lon, volume := DecimalText(e.latitude), DecimalText(e.longitude), VolumeText(e.volume24h);
    NumberTextIsPlain(lat);
    NumberTextIsPlain(lon);
    NumberTextIsPlain(volume);
    [e.name, e.cloudProvider, lat, lon, volume, LatencyText(ExchangeLatency(d, e.id))]
  }

  /** Digits, signs and points are neither commas nor line breaks. */
  lemma NumberTextIsPlain(s: string)
    requires forall k :: 0 <= k < |s| ==> IsNumberChar(s[k])
    ensures Plain(s)
  {
  }

  function Rows(xs: seq<Exchange>, d: LatencyData): (rows: seq<seq<string>>)
    ensures |rows| == |xs|
    ensures forall k :: 0 <= k < |xs| ==> rows[k] == Row(xs[k], d)
  {
    seq(|xs|, k requires 0 <= k < |xs| => Row(xs[k], d))
  }

  /** The table: the header first, then one six-cell row per exchange whose provider
      is visible, each exchange as often as it is listed. */
  function CsvTable(xs: seq<Exchange>, d: LatencyData, providers: seq<string>): (t: seq<seq<string>>)
    ensures |t| == |VisibleExchanges(xs, providers)| + 1 && t[0] == Header
    ensures forall k :: 0 <= k < |t| ==> |t[k]| == 6
    ensures forall k :: 0 <= k < |VisibleExchanges(xs, providers)| ==>
      t[k + 1] == Row(VisibleExchanges(xs, providers)[k], d) && VisibleExchanges(xs, providers)[k].cloudProvider in providers
  {
    var v := VisibleExchanges(xs, providers);
    TableShape(v, d);
    VisibleProviders(v, xs, providers);
    [Header] + Rows(v, d)
  }

  lemma TableShape(v: seq<Exchange>, d: LatencyData)
    ensures var t := [Header] + Rows(v, d);
      && (forall k :: 0 <= k < |t| ==> |t[k]| == 6)
      && (forall k :: 0 <= k < |v| ==> t[k + 1] == Row(v[k], d))
  {
    var rows := Rows(v, d);
    assert forall k :: 0 <= k < |rows| ==> |rows[k]| == 6;
    BehindHeader(Header, rows);
  }

  /** The rows of a table keep their places, one behind, after the header. */
  lemma BehindHeader(header: seq<string>, rows: seq<seq<string>>)
    ensures forall k :: 0 <= k < |rows| ==> ([header] + rows)[k + 1] == rows[k]
    ensures forall k :: 0 < k <= |rows| ==> ([header] + rows)[k] == rows[k - 1]
  {
  }

  lemma VisibleProviders(v: seq<Exchange>, xs: seq<Exchange>, providers: seq<string>)
    requires v == VisibleExchanges(xs, providers)
    ensures forall k :: 0 <= k < |v| ==> v[k].cloudProvider in providers
  {
    forall k | 0 <= k < |v| ensures v[k].cloudProvider in providers {
      assert v[k] in v;
    }
  }

  /** The rows follow the list order: the table of two consecutive parts of the list is
      the first part's table followed by the second part's rows. */
  lemma CsvRowsInListOrder(a: seq<Exchange>, b: seq<Exchange>, d: LatencyData, providers: seq<string>)
    ensures CsvTable(a + b, d, providers) == CsvTable(a, d, providers) + CsvTable(b, d, providers)[1..]
  {
    VisibleExchangesConcat(a, b, providers);
    var va, vb := VisibleExchanges(a, providers), VisibleExchanges(b, providers);
    RowsConcat(va, vb, d);
    HeaderOnce(Header, Rows(va, d), Rows(vb, d));
  }

  lemma RowsConcat(a: seq<Exchange>, b: seq<Exchange>, d: LatencyData)
    ensures Rows(a + b, d) == Rows(a, d) + Rows(b, d)
  {
    var whole, left, right := Rows(a + b, d), Rows(a, d), Rows(b, d);
    forall k | 0 <= k < |whole| ensures whole[k] == (left + right)[k] {
      if k < |a| {
        assert (a + b)[k] == a[k];
      } else {
        assert (a + b)[k] == b[k - |a|];
      }
    }
  }

  /** Joining two tables keeps the first header and drops the second. */
  lemma HeaderOnce(header: seq<string>, r1: seq<seq<string>>, r2: seq<seq<string>>)
    ensures [header] + (r1 + r2) == ([header] + r1) + ([header] + r2)[1..]
  {
    assert ([header] + r2)[1..] == r2;
  }

  /** `csvData.map(row => row.join(',')).join('\n')`. Without commas or line breaks in
      the cells, the file splits back into the table: lines at '\n', cells at ','. No
      cell is quoted or escaped, so this is all a reader can rely on. */
  function CsvContent(table: seq<seq<string>>): (s: string)
    ensures PlainTable(table) ==>
      && |Split(s, '\n')| == |table|
      && forall k :: 0 <= k < |table| ==> Split(Split(s, '\n')[k], ',') == table[k]
  {
    var lines := seq(|table|, k requires 0 <= k < |table| => Join(table[k], ","));
    LinesReadBack(table, lines);
    Join(lines, "\n")
  }

  predicate Plain(cell: string) {
    ',' !in cell && '\n' !in cell
  }

  /** Every line has a cell and no cell holds a comma or a line break. */
  predicate PlainTable(table: seq<seq<string>>) {
    && |table| >= 1
    && (forall k :: 0 <= k < |table| ==> |table[k]| >= 1)
    && (forall k, c :: 0 <= k < |table| && 0 <= c < |table[k]| ==> Plain(table[k][c]))
  }

  lemma LinesReadBack(table: seq<seq<string>>, lines: seq<string>)
    requires lines == seq(|table|, k requires 0 <= k < |table| => Join(table[k], ","))
    ensures PlainTable(table) ==>
      && |Split(Join(lines, "\n"), '\n')| == |table|
      && forall k :: 0 <= k < |table| ==> Split(Split(Join(lines, "\n"), '\n')[k], ',') == table[k]
  {
    if PlainTable(table) {
      forall k | 0 <= k < |table| ensures '\n' !in lines[k] {
        JoinAvoids(table[k], ',', '\n');
      }
      SplitJoin(lines, '\n');
      forall k | 0 <= k < |table| ensures Split(lines[k], ',') == table[k] {
        SplitJoin(table[k], ',');
      }
    }
  }

  /** Joining with one separator adds no other character. */
  lemma {:induction false} JoinAvoids(parts: seq<string>, sep: char, c: char)
    requires c != sep
    requires forall j :: 0 <= j < |parts| ==> c !in parts[j]
    ensures c !in Join(parts, [sep])
    decreases |parts|
  {
    if |parts| > 1 {
      JoinAvoids(parts[1..], sep, c);
    }
  }

  /** A comma inside a cell shifts the columns: two different rows give the same line. */
  lemma CommaInCellIsAmbiguous()
    ensures Join(["a,b", "c"], ",") == Join(["a", "b,c"], ",")
  {
    JoinLosesSeparatorInPart();
  }

  // ---------------------------------------------------------------------------
  // JSON and PDF
  // ---------------------------------------------------------------------------

  /** The JSON export's two lists: only exchanges and regions of visible providers. */
  datatype JsonLists = JsonLists(exchanges: seq<Exchange>, cloudRegions: seq<CloudRegion>)

  function JsonExport(xs: seq<Exchange>, gs: seq<CloudRegion>, providers: seq<string>): (r: JsonLists)
    ensures forall e :: e in r.exchanges <==> e in xs && e.cloudProvider in providers
    ensures forall g :: g in r.cloudRegions <==> g in gs && g.provider in providers
  {
    JsonLists(VisibleExchanges(xs, providers), VisibleRegions(gs, providers))
  }

  const PdfListLimit: nat := 15

  /** The PDF's exchange list: the first fifteen visible exchanges, as
      `${exchange.name} (${exchange.cloudProvider})`. */
  function PdfExchangeLines(xs: seq<Exchange>, providers: seq<string>): (lines: seq<string>)
    ensures |lines| <= PdfListLimit
    ensures |lines| == Min(PdfListLimit, |VisibleExchanges(xs, providers)|)
    ensures forall k :: 0 <= k < |lines| ==>
      var e := VisibleExchanges(xs, providers)[k];
      lines[k] == e.name + " (" + e.cloudProvider + ")" && e.cloudProvider in providers
  {
    var v := VisibleExchanges(xs, providers);
    var shown := v[..Min(PdfListLimit, |v|)];
    seq(|shown|, k requires 0 <= k < |shown| => shown[k].name + " (" + shown[k].cloudProvider + ")")
  }

  /** The PDF's statistics lines as JavaScript renders them: an empty object gives
      `NaN` for the average and the infinities for the extremes. */
  datatype PdfStats = PdfStats(average: string, minimum: string, maximum: string, connections: nat)

  function PdfStatistics(d: LatencyData): (r: PdfStats)
    ensures r.connections == |d|
    ensures |d| == 0 ==> r == PdfStats("NaN", "Infinity", "-Infinity", 0)
  {
    var xs := Values(d);
    if |xs| == 0 then PdfStats("NaN", "Infinity", "-Infinity", 0)
    else PdfStats(IntToString(Round(Mean(xs))), IntToString(MinOf(xs)), IntToString(MaxOf(xs)), |xs|)
  }

  /** A non-empty object gives numbers: the rounded mean, the smallest and the largest
      value; the rounded average lies between the extremes. */
  lemma PdfStatisticsOrdered(d: LatencyData)
    requires |d| > 0
    ensures var xs := Values(d);
      && PdfStatistics(d).average == IntToString(Round(Mean(xs)))
      && PdfStatistics(d).minimum == IntToString(MinOf(xs))
      && PdfStatistics(d).maximum == IntToString(MaxOf(xs))
      && MinOf(xs) <= Round(Mean(xs)) <= MaxOf(xs)
  {
    RoundedMeanBetween(Values(d));
  }
}

=== FILE: generation.dfy ===
/** The pairing scheme shared by the three latency generators of the hooks: every
    exchange draws a connection count in {2, 3, 4}, shuffles the region list, and
    connects to that many regions from the front of the shuffled list. */
module Generation {
  import opened Text
  import opened Latencies

  /** A value of `Math.random()`. */
  predicate IsDraw(r: real) {
    0.0 <= r < 1.0
  }

  /** `2 + Math.floor(Math.random() * 3)`. */
  function ConnectionCount(draw: real): (n: nat)
    requires IsDraw(draw)
    ensures 2 <= n <= 4
  {
    2 + (draw * 3.0).Floor
  }

  /** Every count in {2, 3, 4} is drawn by some random value. */
  lemma ConnectionCountOnto(n: int)
    requires 2 <= n <= 4
    ensures IsDraw((n - 2) as real / 3.0) && ConnectionCount((n - 2) as real / 3.0) == n
  {
  }

  predicate Distinct<T(==)>(s: seq<T>) {
    forall i, j :: 0 <= i < j < |s| ==> s[i] != s[j]
  }

  /** `[...base].sort(() => Math.random() - 0.5)`: some arrangement of `base`, without repeats. */
  predicate IsShuffleOf(s: seq<string>, base: seq<string>) {
    |s| == |base| && Distinct(s) && forall x :: x in s ==> x in base
  }

  /** The random choices made for one exchange: the count draw, the shuffled region
      list, and one generator-specific draw per connection slot. */
  datatype ExchangeDraw<P> = ExchangeDraw(countDraw: real, shuffled: seq<string>, pairs: seq<P>)

  predicate ValidDraw<P>(d: ExchangeDraw<P>, regions: seq<string>) {
    && IsDraw(d.countDraw)
    && IsShuffleOf(d.shuffled, regions)
    && |regions| >= 4
    && |d.pairs| >= 4
  }

  predicate ValidDraws<P>(draws: seq<ExchangeDraw<P>>, exchanges: seq<string>, regions: seq<string>) {
    |draws| == |exchanges| && forall j :: 0 <= j < |draws| ==> ValidDraw(draws[j], regions)
  }

  /** The number of connections the draw makes for its exchange. */
  function Count<P>(d: ExchangeDraw<P>): (n: nat)
    requires IsDraw(d.countDraw)
    ensures 2 <= n <= 4
  {
    ConnectionCount(d.countDraw)
  }

  /** One iteration `i` of the inner loop: exchange, `shuffledRegions[i]`, `i`, and the draws made for it. */
  datatype Slot<P> = Slot(exchange: string, region: string, index: nat, draw: P)

  function SlotKey<P>(s: Slot<P>): string {
    Key(s.exchange, s.region)
  }

  /** The inner loop `for (let i = 0; i < connectionCount; i++)` of one exchange. */
  function ExchangeSlots<P>(exchange: string, d: ExchangeDraw<P>, regions: seq<string>): (r: seq<Slot<P>>)
    requires ValidDraw(d, regions)
    ensures |r| == Count(d)
    ensures forall i :: 0 <= i < |r| ==> r[i] == Slot(exchange, d.shuffled[i], i, d.pairs[i])
  {
    seq(Count(d), i requires 0 <= i < Count(d) => Slot(exchange, d.shuffled[i], i, d.pairs[i]))
  }

  /** The outer `exchanges.forEach`: all slots, exchange by exchange, in list order. */
  function Slots<P>(exchanges: seq<string>, draws: seq<ExchangeDraw<P>>, regions: seq<string>): seq<Slot<P>>
    requires ValidDraws(draws, exchanges, regions)
    decreases |exchanges|
  {
    if |exchanges| == 0 then []
    else ExchangeSlots(exchanges[0], draws[0], regions) + Slots(exchanges[1..], draws[1..], regions)
  }

  function TotalCount<P>(draws: seq<ExchangeDraw<P>>, regions: seq<string>): nat
    requires forall j :: 0 <= j < |draws| ==> ValidDraw(draws[j], regions)
    decreases |draws|
  {
    if |draws| == 0 then 0
    else
      assert ValidDraw(draws[0], regions);
      Count(draws[0]) + TotalCount(draws[1..], regions)
  }

  /** There is one slot per connection, so 2..4 slots per exchange. */
  lemma {:induction false} SlotsSize<P>(exchanges: seq<string>, draws: seq<ExchangeDraw<P>>, regions: seq<string>)
    requires ValidDraws(draws, exchanges, regions)
    ensures |Slots(exchanges, draws, regions)| == TotalCount(draws, regions)
    ensures 2 * |exchanges| <= TotalCount(draws, regions) <= 4 * |exchanges|
    decreases |exchanges|
  {
    if |exchanges| > 0 {
      SlotsSize(exchanges[1..], draws[1..], regions);
    }
  }

  /** The slots are exactly the pairs (exchange j, shuffled region i) for i below exchange j's count. */
  lemma {:induction false} SlotsMembership<P>(exchanges: seq<string>, draws: seq<ExchangeDraw<P>>, regions: seq<string>)
    requires ValidDraws(draws, exchanges, regions)
    ensures forall s :: s in Slots(exchanges, draws, regions) ==>
      exists j, i :: 0 <= j < |exchanges| && 0 <= i < Count(draws[j]) && s == Slot(exchanges[j], draws[j].shuffled[i], i, draws[j].pairs[i])
    ensures forall j, i :: 0 <= j < |exchanges| && 0 <= i < Count(draws[j]) ==>
      Slot(exchanges[j], draws[j].shuffled[i], i, draws[j].pairs[i]) in Slots(exchanges, draws, regions)
    decreases |exchanges|
  {
    if |exchanges| > 0 {
      var head := ExchangeSlots(exchanges[0], draws[0], regions);
      var tail := Slots(exchanges[1..], draws[1..], regions);
      SlotsMembership(exchanges[1..], draws[1..], regions);
      assert Slots(exchanges, draws, regions) == head + tail;
      forall s | s in head + tail
        ensures exists j, i :: 0 <= j < |exchanges| && 0 <= i < Count(draws[j]) && s == Slot(exchanges[j], draws[j].shuffled[i], i, draws[j].pairs[i])
      {
        if s in head {
          var i :| 0 <= i < |head| && head[i] == s;
          assert s == Slot(exchanges[0], draws[0].shuffled[i], i, draws[0].pairs[i]);
        } else {
          assert s in tail;
          var j, i :| 0 <= j < |exchanges[1..]| && 0 <= i < Count(draws[1..][j]) && s == Slot(exchanges[1..][j], draws[1..][j].shuffled[i], i, draws[1..][j].pairs[i]);
          assert s == Slot(exchanges[j + 1], draws[j + 1].shuffled[i], i, draws[j + 1].pairs[i]);
        }
      }
      forall j, i | 0 <= j < |exchanges| && 0 <= i < Count(draws[j])
        ensures Slot(exchanges[j], draws[j].shuffled[i], i, draws[j].pairs[i]) in head + tail
      {
        if j == 0 {
          assert head[i] == Slot(exchanges[j], draws[j].shuffled[i], i, draws[j].pairs[i]);
        } else {
          assert exchanges[1..][j - 1] == exchanges[j] && draws[1..][j - 1] == draws[j];
        }
      }
    }
  }

  /** No exchange id followed by '-' starts another id followed by '-'; ids are distinct too. */
  predicate Separated(exchanges: seq<string>) {
    forall i, j :: 0 <= i < |exchanges| && 0 <= j < |exchanges| && i != j ==>
      !IsPrefix(exchanges[i] + "-", exchanges[j] + "-")
  }

  /** A key names its exchange and region uniquely among separated exchange ids. */
  lemma KeyInjective(e1: string, r1: string, e2: string, r2: string)
    requires Key(e1, r1) == Key(e2, r2)
    requires !IsPrefix(e1 + "-", e2 + "-") || e1 == e2
    requires !IsPrefix(e2 + "-", e1 + "-") || e1 == e2
    ensures e1 == e2 && r1 == r2
  {
    var a, b := e1 + "-", e2 + "-";
    assert Key(e1, r1) == a + r1 && Key(e2, r2) == b + r2;
    if |a| <= |b| {
      assert (a + r1)[..|a|] == a;
      assert (b + r2)[..|a|] == b[..|a|];
    }
    assert a == b;
    assert e1 == a[..|a| - 1] && e2 == b[..|b| - 1];
    assert r1 == (a + r1)[|a|..] && r2 == (b + r2)[|b|..];
  }

  predicate SlotKeysUnique<P>(s: seq<Slot<P>>) {
    forall k1, k2 :: 0 <= k1 < k2 < |s| ==> SlotKey(s[k1]) != SlotKey(s[k2])
  }

  lemma {:induction false} SlotExchanges<P>(exchanges: seq<string>, draws: seq<ExchangeDraw<P>>, regions: seq<string>)
    requires ValidDraws(draws, exchanges, regions)
    ensures forall s :: s in Slots(exchanges, draws, regions) ==> s.exchange in exchanges
    decreases |exchanges|
  {
    if |exchanges| > 0 {
      SlotExchanges(exchanges[1..], draws[1..], regions);
      assert forall e :: e in exchanges[1..] ==> e in exchanges;
    }
  }

  /** One exchange's slots differ in their regions, hence in their keys. */
  lemma ExchangeSlotsUnique<P>(exchange: string, d: ExchangeDraw<P>, regions: seq<string>)
    requires ValidDraw(d, regions)
    ensures SlotKeysUnique(ExchangeSlots(exchange, d, regions))
  {
    var s := ExchangeSlots(exchange, d, regions);
    forall k1, k2 | 0 <= k1 < k2 < |s| ensures SlotKey(s[k1]) != SlotKey(s[k2]) {
      if SlotKey(s[k1]) == SlotKey(s[k2]) {
        KeyInjective(exchange, d.shuffled[k1], exchange, d.shuffled[k2]);
        assert false;
      }
    }
  }

  lemma UniqueConcat<P>(a: seq<Slot<P>>, b: seq<Slot<P>>)
    requires SlotKeysUnique(a) && SlotKeysUnique(b)
    requires forall x, y :: x in a && y in b ==> SlotKey(x) != SlotKey(y)
    ensures SlotKeysUnique(a + b)
  {
    var s := a + b;
    forall k1, k2 | 0 <= k1 < k2 < |s| ensures SlotKey(s[k1]) != SlotKey(s[k2]) {
      if k2 < |a| {
        assert s[k1] == a[k1] && s[k2] == a[k2];
      } else if k1 >= |a| {
        assert s[k1] == b[k1 - |a|] && s[k2] == b[k2 - |a|];
      } else {
        assert s[k1] in a && s[k2] in b;
      }
    }
  }

  /** Different slots have different keys, so no assignment overwrites an earlier one. */
  lemma {:induction false} SlotKeysDistinct<P>(exchanges: seq<string>, draws: seq<ExchangeDraw<P>>, regions: seq<string>)
    requires ValidDraws(draws, exchanges, regions)
    requires Separated(exchanges)
    ensures SlotKeysUnique(Slots(exchanges, draws, regions))
    decreases |exchanges|
  {
    if |exchanges| > 0 {
      var head := ExchangeSlots(exchanges[0], draws[0], regions);
      var tail := Slots(exchanges[1..], draws[1..], regions);
      assert Slots(exchanges, draws, regions) == head + tail;
      assert ValidDraw(draws[0], regions);
      assert Separated(exchanges[1..]) by {
        forall i, j | 0 <= i < |exchanges[1..]| && 0 <= j < |exchanges[1..]| && i != j
          ensures !IsPrefix(exchanges[1..][i] + "-", exchanges[1..][j] + "-")
        {
          assert exchanges[1..][i] == exchanges[i + 1] && exchanges[1..][j] == exchanges[j + 1];
        }
      }
      SlotKeysDistinct(exchanges[1..], draws[1..], regions);
      ExchangeSlotsUnique(exchanges[0], draws[0], regions);
      SlotExchanges(exchanges[1..], draws[1..], regions);
      forall x, y | x in head && y in tail ensures SlotKey(x) != SlotKey(y) {
        assert x.exchange == exchanges[0];
        var j :| 0 <= j < |exchanges[1..]| && exchanges[1..][j] == y.exchange;
        assert y.exchange == exchanges[j + 1];
        if SlotKey(x) == SlotKey(y) {
          assert !IsPrefix(exchanges[0] + "-", exchanges[j + 1] + "-");
          assert !IsPrefix(exchanges[j + 1] + "-", exchanges[0] + "-");
          KeyInjective(x.exchange, x.region, y.exchange, y.region);
          assert false;
        }
      }
      UniqueConcat(head, tail);
    }
  }

  /** The entries the generator assigns, one per slot, given each slot's computed latency. */
  function SlotEntries<P>(slots: seq<Slot<P>>, values: seq<int>): (r: seq<Entry>)
    requires |values| == |slots|
    ensures |r| == |slots|
    ensures forall k :: 0 <= k < |r| ==> r[k] == Entry(SlotKey(slots[k]), values[k])
  {
    seq(|slots|, k requires 0 <= k < |slots| => Entry(SlotKey(slots[k]), values[k]))
  }

  /** Starting from `{}` and assigning one property per slot leaves exactly the slot
      entries, in slot order: distinct keys mean nothing is overwritten. */
  lemma BuildFromEmpty<P>(slots: seq<Slot<P>>, values: seq<int>)
    requires |values| == |slots|
    requires SlotKeysUnique(slots)
    ensures DistinctKeys(SlotEntries(slots, values))
    ensures Assign([], SlotEntries(slots, values)) == SlotEntries(slots, values)
  {
    var es := SlotEntries(slots, values);
    assert [] + es == es;
    AssignFresh([], es);
  }

  /** The object a generator returns: `{}` followed by one assignment per slot,
      `values[k]` being the latency computed for slot k. */
  function Generated<P>(exchanges: seq<string>, draws: seq<ExchangeDraw<P>>, regions: seq<string>, values: seq<int>): LatencyData
    requires ValidDraws(draws, exchanges, regions)
    requires |values| == |Slots(exchanges, draws, regions)|
  {
    Assign([], SlotEntries(Slots(exchanges, draws, regions), values))
  }

  /** The generated object holds exactly one property per slot, in slot order, with
      no key repeated: between 2 and 4 properties per exchange. */
  lemma GeneratedShape<P>(exchanges: seq<string>, draws: seq<ExchangeDraw<P>>, regions: seq<string>, values: seq<int>)
    requires ValidDraws(draws, exchanges, regions) && Separated(exchanges)
    requires |values| == |Slots(exchanges, draws, regions)|
    ensures var d := Generated(exchanges, draws, regions, values);
      && d == SlotEntries(Slots(exchanges, draws, regions), values)
      && DistinctKeys(d)
      && |d| == TotalCount(draws, regions)
      && 2 * |exchanges| <= |d| <= 4 * |exchanges|
  {
    SlotKeysDistinct(exchanges, draws, regions);
    BuildFromEmpty(Slots(exchanges, draws, regions), values);
    SlotsSize(exchanges, draws, regions);
  }

  /** Exchange j is connected to region r exactly when r is among the first
      `connectionCount` regions of its shuffled list. */
  lemma ExchangeKeys<P>(exchanges: seq<string>, draws: seq<ExchangeDraw<P>>, regions: seq<string>, values: seq<int>, j: int, r: string)
    requires ValidDraws(draws, exchanges, regions) && Separated(exchanges)
    requires |values| == |Slots(exchanges, draws, regions)|
    requires 0 <= j < |exchanges|
    ensures HasKey(Generated(exchanges, draws, regions, values), Key(exchanges[j], r))
        <==> r in draws[j].shuffled[..Count(draws[j])]
  {
    GeneratedShape(exchanges, draws, regions, values);
    assert ValidDraw(draws[j], regions);
    if r in draws[j].shuffled[..Count(draws[j])] {
      ChosenRegionHasKey(exchanges, draws, regions, values, j, r);
    }
    if HasKey(Generated(exchanges, draws, regions, values), Key(exchanges[j], r)) {
      KeyHasChosenRegion(exchanges, draws, regions, values, j, r);
    }
  }

  lemma ChosenRegionHasKey<P>(exchanges: seq<string>, draws: seq<ExchangeDraw<P>>, regions: seq<string>, values: seq<int>, j: int, r: string)
    requires ValidDraws(draws, exchanges, regions) && Separated(exchanges)
    requires |values| == |Slots(exchanges, draws, regions)|
    requires 0 <= j < |exchanges| && ValidDraw(draws[j], regions)
    requires r in draws[j].shuffled[..Count(draws[j])]
    ensures HasKey(Generated(exchanges, draws, regions, values), Key(exchanges[j], r))
  {
    var s := Slots(exchanges, draws, regions);
    var d := Generated(exchanges, draws, regions, values);
    GeneratedShape(exchanges, draws, regions, values);
    SlotsMembership(exchanges, draws, regions);
    var i :| 0 <= i < Count(draws[j]) && draws[j].shuffled[..Count(draws[j])][i] == r;
    var slot := Slot(exchanges[j], draws[j].shuffled[i], i, draws[j].pairs[i]);
    assert slot in s;
    var k :| 0 <= k < |s| && s[k] == slot;
    assert d[k].key == Key(exchanges[j], r);
  }

  lemma KeyHasChosenRegion<P>(exchanges: seq<string>, draws: seq<ExchangeDraw<P>>, regions: seq<string>, values: seq<int>, j: int, r: string)
    requires ValidDraws(draws, exchanges, regions) && Separated(exchanges)
    requires |values| == |Slots(exchanges, draws, regions)|
    requires 0 <= j < |exchanges| && ValidDraw(draws[j], regions)
    requires HasKey(Generated(exchanges, draws, regions, values), Key(exchanges[j], r))
    ensures r in draws[j].shuffled[..Count(draws[j])]
  {
    var s := Slots(exchanges, draws, regions);
    var d := Generated(exchanges, draws, regions, values);
    GeneratedShape(exchanges, draws, regions, values);
    var k :| 0 <= k < |d| && d[k].key == Key(exchanges[j], r);
    assert s[k] in s;
    SlotOfKey(exchanges, draws, regions, s[k], j, r);
  }

  /** A slot whose key names exchange j and region r is one of j's chosen regions. */
  lemma SlotOfKey<P>(exchanges: seq<string>, draws: seq<ExchangeDraw<P>>, regions: seq<string>, slot: Slot<P>, j: int, r: string)
    requires ValidDraws(draws, exchanges, regions) && Separated(exchanges)
    requires 0 <= j < |exchanges| && ValidDraw(draws[j], regions)
    requires slot in Slots(exchanges, draws, regions) && SlotKey(slot) == Key(exchanges[j], r)
    ensures r in draws[j].shuffled[..Count(draws[j])]
  {
    SlotsMembership(exchanges, draws, regions);
    var j', i :| 0 <= j' < |exchanges| && 0 <= i < Count(draws[j']) && slot == Slot(exchanges[j'], draws[j'].shuffled[i], i, draws[j'].pairs[i]);
    SameExchangeIndex(exchanges, j', j, draws[j'].shuffled[i], r);
    assert draws[j].shuffled[..Count(draws[j])][i] == r;
  }

  /** Among separated ids, equal keys come from the same list position and region. */
  lemma SameExchangeIndex(exchanges: seq<string>, j1: int, j2: int, r1: string, r2: string)
    requires Separated(exchanges)
    requires 0 <= j1 < |exchanges| && 0 <= j2 < |exchanges|
    requires Key(exchanges[j1], r1) == Key(exchanges[j2], r2)
    ensures j1 == j2 && r1 == r2
  {
    if j1 != j2 {
      assert !IsPrefix(exchanges[j1] + "-", exchanges[j2] + "-");
      assert !IsPrefix(exchanges[j2] + "-", exchanges[j1] + "-");
      KeyInjective(exchanges[j1], r1, exchanges[j2], r2);
      assert false;
    }
    KeyInjective(exchanges[j1], r1, exchanges[j2], r2);
  }

  /** The value of every slot, computed by the generator's formula `f` from that slot alone. */
  function SlotValues<P>(slots: seq<Slot<P>>, f: Slot<P> -> int): (v: seq<int>)
    ensures |v| == |slots|
    ensures forall k :: 0 <= k < |slots| ==> v[k] == f(slots[k])
  {
    seq(|slots|, k requires 0 <= k < |slots| => f(slots[k]))
  }

  /** A generator whose value for a connection is `f` of that connection's slot. */
  function GenerateWith<P>(exchanges: seq<string>, draws: seq<ExchangeDraw<P>>, regions: seq<string>, f: Slot<P> -> int): LatencyData
    requires ValidDraws(draws, exchanges, regions)
  {
    Generated(exchanges, draws, regions, SlotValues(Slots(exchanges, draws, regions), f))
  }

  /** The keys are distinct and there are 2 to 4 per exchange. */
  lemma GeneratedWithShape<P>(exchanges: seq<string>, draws: seq<ExchangeDraw<P>>, regions: seq<string>, f: Slot<P> -> int)
    requires ValidDraws(draws, exchanges, regions) && Separated(exchanges)
    ensures var d := GenerateWith(exchanges, draws, regions, f);
      DistinctKeys(d) && 2 * |exchanges| <= |d| <= 4 * |exchanges|
  {
    GeneratedShape(exchanges, draws, regions, SlotValues(Slots(exchanges, draws, regions), f));
  }

  /** Every property of the generated object is the connection of exchange j to its
      i-th shuffled region, for i below j's count, valued by `f` of that slot; the keys
      are distinct and there are 2 to 4 per exchange. */
  lemma {:induction false} GeneratedWithEntries<P>(exchanges: seq<string>, draws: seq<ExchangeDraw<P>>, regions: seq<string>, f: Slot<P> -> int)
    requires ValidDraws(draws, exchanges, regions) && Separated(exchanges)
    ensures var d := GenerateWith(exchanges, draws, regions, f);
      && DistinctKeys(d)
      && 2 * |exchanges| <= |d| <= 4 * |exchanges|
      && forall k :: 0 <= k < |d| ==>
        exists j, i :: 0 <= j < |exchanges| && 0 <= i < Count(draws[j]) &&
          var slot := Slot(exchanges[j], draws[j].shuffled[i], i, draws[j].pairs[i]);
          d[k] == Entry(SlotKey(slot), f(slot))
  {
    var slots := Slots(exchanges, draws, regions);
    var d := GenerateWith(exchanges, draws, regions, f);
    GeneratedShape(exchanges, draws, regions, SlotValues(slots, f));
    SlotsMembership(exchanges, draws, regions);
    forall k | 0 <= k < |d| ensures
      exists j, i :: 0 <= j < |exchanges| && 0 <= i < Count(draws[j]) &&
        var slot := Slot(exchanges[j], draws[j].shuffled[i], i, draws[j].pairs[i]);
        d[k] == Entry(SlotKey(slot), f(slot))
    {
      assert slots[k] in slots;
      var j, i :| 0 <= j < |exchanges| && 0 <= i < Count(draws[j]) && slots[k] == Slot(exchanges[j], draws[j].shuffled[i], i, draws[j].pairs[i]);
      assert d[k] == Entry(SlotKey(slots[k]), f(slots[k]));
    }
  }

  /** Every key is `${exchange}-${region}` for a listed exchange and a listed region,
      and a property `ok` that `f` gives every slot holds for every value. */
  lemma GeneratedWithin<P>(exchanges: seq<string>, draws: seq<ExchangeDraw<P>>, regions: seq<string>, f: Slot<P> -> int, ok: int -> bool)
    requires ValidDraws(draws, exchanges, regions) && Separated(exchanges)
    requires forall j, i :: 0 <= j < |exchanges| && 0 <= i < Count(draws[j]) ==>
      ok(f(Slot(exchanges[j], draws[j].shuffled[i], i, draws[j].pairs[i])))
    ensures var d := GenerateWith(exchanges, draws, regions, f);
      && (forall k :: 0 <= k < |d| ==> ok(d[k].latency))
      && KeysOver(d, exchanges, regions)
  {
    var d := GenerateWith(exchanges, draws, regions, f);
    GeneratedWithEntries(exchanges, draws, regions, f);
    forall k | 0 <= k < |d| ensures ok(d[k].latency) && exists e, r :: e in exchanges && r in regions && d[k].key == Key(e, r) {
      var j, i :| 0 <= j < |exchanges| && 0 <= i < Count(draws[j]) &&
        var slot := Slot(exchanges[j], draws[j].shuffled[i], i, draws[j].pairs[i]);
        d[k] == Entry(SlotKey(slot), f(slot));
      assert ValidDraw(draws[j], regions);
      assert draws[j].shuffled[i] in draws[j].shuffled;
    }
  }

  /** Exchange j is connected to exactly `Count` distinct regions: the front of its shuffled list. */
  lemma ConnectionsWith<P>(exchanges: seq<string>, draws: seq<ExchangeDraw<P>>, regions: seq<string>, f: Slot<P> -> int, j: int, r: string)
    requires ValidDraws(draws, exchanges, regions) && Separated(exchanges) && 0 <= j < |exchanges|
    ensures HasKey(GenerateWith(exchanges, draws, regions, f), Key(exchanges[j], r)) <==> r in draws[j].shuffled[..Count(draws[j])]
    ensures Distinct(draws[j].shuffled[..Count(draws[j])])
  {
    ExchangeKeys(exchanges, draws, regions, SlotValues(Slots(exchanges, draws, regions), f), j, r);
    assert ValidDraw(draws[j], regions);
  }
}

=== FILE: geo.dfy ===
/** The coordinate helpers (client/src/utils/geoUtils.ts): the continent of a point by
    an ordered list of boxes, and the distance-based latency estimate. */
module Geo {
  import opened Numbers

  /** A latitude/longitude box, every bound inclusive. */
  datatype Box = Box(name: string, latMin: real, latMax: real, lngMin: real, lngMax: real)

  predicate InBox(b: Box, lat: real, lng: real) {
    b.latMin <= lat <= b.latMax && b.lngMin <= lng <= b.lngMax
  }

  /** The boxes in the order `getContinent` tests them. */
  const Boxes: seq<Box> := [
    Box("Europe", -10.0, 70.0, -25.0, 45.0),
    Box("Asia", -35.0, 70.0, 25.0, 180.0),
    Box("Africa", -40.0, 35.0, -20.0, 55.0),
    Box("North America", 15.0, 70.0, -170.0, -50.0),
    Box("South America", -60.0, 15.0, -90.0, -30.0),
    Box("Australia", -50.0, -10.0, 110.0, 180.0)
  ]

  const Unknown: string := "Unknown"

  /** The index of the first box from `i` on that holds the point, or |boxes|. */
  function FirstBox(boxes: seq<Box>, lat: real, lng: real, i: nat): (k: nat)
    requires i <= |boxes|
    ensures i <= k <= |boxes|
    ensures k < |boxes| ==> InBox(boxes[k], lat, lng)
    ensures forall j :: i <= j < k ==> !InBox(boxes[j], lat, lng)
    decreases |boxes| - i
  {
    if i == |boxes| then i
    else if InBox(boxes[i], lat, lng) then i
    else FirstBox(boxes, lat, lng, i + 1)
  }

  /** `getContinent(lat, lng)`: the name of the first box holding the point, and
      'Unknown' exactly when no box holds it. */
  function Continent(lat: real, lng: real): (c: string)
    ensures c == Unknown <==> forall j :: 0 <= j < |Boxes| ==> !InBox(Boxes[j], lat, lng)
    ensures c != Unknown ==>
      exists k :: 0 <= k < |Boxes| && InBox(Boxes[k], lat, lng) && Boxes[k].name == c
        && forall j :: 0 <= j < k ==> !InBox(Boxes[j], lat, lng)
  {
    var k := FirstBox(Boxes, lat, lng, 0);
    if k < |Boxes| then
      NamesAreNotUnknown(k);
      Boxes[k].name
    else Unknown
  }

  lemma NamesAreNotUnknown(k: nat)
    requires k < |Boxes|
    ensures Boxes[k].name != Unknown
  {
  }

  /** Europe's box comes first in the list, so a point also in Africa's box is in Europe. */
  lemma EuropeBeforeAfrica(lat: real, lng: real)
    requires InBox(Boxes[0], lat, lng) && InBox(Boxes[2], lat, lng)
    ensures Continent(lat, lng) == "Europe"
  {
  }

  /** Asia's box reaches down to -35 and over Australia's longitudes, so Sydney is in
      Asia and Australia is answered only south of -35. */
  lemma AsiaShadowsAustralia(lat: real, lng: real)
    ensures Continent(-33.87, 151.21) == "Asia"
    ensures Continent(lat, lng) == "Australia" ==> lat < -35.0
  {
    assert !InBox(Boxes[0], -33.87, 151.21) && InBox(Boxes[1], -33.87, 151.21);
    if Continent(lat, lng) == "Australia" {
      var k := FirstBox(Boxes, lat, lng, 0);
      assert k == 5;
      assert !InBox(Boxes[1], lat, lng);
    }
  }

  /** `estimateLatency(distance)` with its `Math.random()` draw:
      `Math.max(5, Math.round(10 + distance / 1000 * 5 + (r - 0.5) * 20))`. */
  function EstimateLatency(distance: real, draw: real): (v: int)
    ensures v >= 5
  {
    Max(5, Round(10.0 + distance / 1000.0 * 5.0 + (draw - 0.5) * 20.0))
  }

  /** For one draw, a longer distance never gives a lower estimate. */
  lemma EstimateMonotone(d1: real, d2: real, draw: real)
    requires d1 <= d2
    ensures EstimateLatency(d1, draw) <= EstimateLatency(d2, draw)
  {
    RoundMonotone(10.0 + d1 / 1000.0 * 5.0 + (draw - 0.5) * 20.0, 10.0 + d2 / 1000.0 * 5.0 + (draw - 0.5) * 20.0);
  }
}

=== FILE: history.dfy ===
/** The time-bucketed series both hooks build: four ranges, each a fixed number of
    points spaced by a fixed interval and ending at the current time. */
module History {

  datatype RangeConfig = RangeConfig(name: string, points: nat, interval: nat)

  /** `{ '1h': 60 x 1 min, '24h': 24 x 1 h, '7d': 7 x 1 day, '30d': 30 x 1 day }`, intervals in ms. */
  const Ranges: seq<RangeConfig> := [
    RangeConfig("1h", 60, 60 * 1000),
    RangeConfig("24h", 24, 60 * 60 * 1000),
    RangeConfig("7d", 7, 24 * 60 * 60 * 1000),
    RangeConfig("30d", 30, 24 * 60 * 60 * 1000)
  ]

  const RangeLabels: set<string> := {"1h", "24h", "7d", "30d"}

  datatype HistoricalPoint = HistoricalPoint(timestamp: int, latency: int)

  /** `{ [timeRange: string]: HistoricalPoint[] }`. */
  type HistoricalData = map<string, seq<HistoricalPoint>>

  /** The loop `for (let i = points - 1; i >= 0; i--)`: its k-th pushed point has
      `i = points - 1 - k` and timestamp `now - i * interval`. */
  function Series(now: int, cfg: RangeConfig, latencies: seq<int>): (r: seq<HistoricalPoint>)
    requires |latencies| == cfg.points
    ensures |r| == cfg.points
    ensures forall k :: 0 <= k < |r| ==> r[k].latency == latencies[k]
  {
    seq(cfg.points, k requires 0 <= k < cfg.points =>
      HistoricalPoint(now - (cfg.points - 1 - k) * cfg.interval, latencies[k]))
  }

  /** Consecutive points are one interval apart, oldest first, and the last point is `now`. */
  lemma SeriesTimeline(now: int, cfg: RangeConfig, latencies: seq<int>)
    requires |latencies| == cfg.points
    ensures var r := Series(now, cfg, latencies);
      && (forall k :: 0 <= k < |r| - 1 ==> r[k + 1].timestamp == r[k].timestamp + cfg.interval)
      && (|r| > 0 ==> r[|r| - 1].timestamp == now)
  {
    var r := Series(now, cfg, latencies);
    forall k | 0 <= k < |r| - 1 ensures r[k + 1].timestamp == r[k].timestamp + cfg.interval {
      var i := cfg.points - 1 - k;
      assert (i - 1) * cfg.interval == i * cfg.interval - cfg.interval;
    }
  }

  /** With a positive interval the timestamps strictly increase. */
  lemma {:induction false} SeriesIncreasing(now: int, cfg: RangeConfig, latencies: seq<int>)
    requires |latencies| == cfg.points && cfg.interval > 0
    ensures var r := Series(now, cfg, latencies);
      forall a, b :: 0 <= a < b < |r| ==> r[a].timestamp < r[b].timestamp
  {
    var r := Series(now, cfg, latencies);
    SeriesTimeline(now, cfg, latencies);
    forall a, b | 0 <= a < b < |r| ensures r[a].timestamp < r[b].timestamp {
      StepsIncrease(r, cfg.interval, a, b);
    }
  }

  lemma {:induction false} StepsIncrease(r: seq<HistoricalPoint>, step: nat, a: nat, b: nat)
    requires step > 0 && a < b < |r|
    requires forall k :: 0 <= k < |r| - 1 ==> r[k + 1].timestamp == r[k].timestamp + step
    ensures r[a].timestamp < r[b].timestamp
    decreases b - a
  {
    if a + 1 < b {
      StepsIncrease(r, step, a + 1, b);
    }
  }

  predicate FitsRanges<D>(latencies: seq<seq<D>>) {
    |latencies| == |Ranges| && forall j :: 0 <= j < |Ranges| ==> |latencies[j]| == Ranges[j].points
  }

  /** `Object.entries(ranges).forEach(...)`: one series per range label, built from that range's latencies. */
  function Historical(now: int, latencies: seq<seq<int>>): (h: HistoricalData)
    requires FitsRanges(latencies)
    ensures h.Keys == RangeLabels
    ensures forall j :: 0 <= j < |Ranges| ==> Ranges[j].name in h && h[Ranges[j].name] == Series(now, Ranges[j], latencies[j])
  {
    map[
      Ranges[0].name := Series(now, Ranges[0], latencies[0]),
      Ranges[1].name := Series(now, Ranges[1], latencies[1]),
      Ranges[2].name := Series(now, Ranges[2], latencies[2]),
      Ranges[3].name := Series(now, Ranges[3], latencies[3])
    ]
  }

  /** The shape of a generated history: 60/24/7/30 points, oldest first, one interval
      apart, the last at `now`. */
  lemma HistoricalShape(now: int, latencies: seq<seq<int>>)
    requires FitsRanges(latencies)
    ensures var h := Historical(now, latencies);
      && |h["1h"]| == 60 && |h["24h"]| == 24 && |h["7d"]| == 7 && |h["30d"]| == 30
      && (forall range :: range in h ==> |h[range]| > 0 && h[range][|h[range]| - 1].timestamp == now)
      && (forall range, a, b :: range in h && 0 <= a < b < |h[range]| ==> h[range][a].timestamp < h[range][b].timestamp)
  {
    var h := Historical(now, latencies);
    forall j | 0 <= j < |Ranges| ensures
      var s := h[Ranges[j].name];
      && |s| > 0 && s[|s| - 1].timestamp == now
      && (forall a, b :: 0 <= a < b < |s| ==> s[a].timestamp < s[b].timestamp)
    {
      SeriesTimeline(now, Ranges[j], latencies[j]);
      SeriesIncreasing(now, Ranges[j], latencies[j]);
    }
    forall range | range in h ensures exists j :: 0 <= j < |Ranges| && Ranges[j].name == range {
      assert range in RangeLabels;
      if range == "1h" { assert Ranges[0].name == range; }
      else if range == "24h" { assert Ranges[1].name == range; }
      else if range == "7d" { assert Ranges[2].name == range; }
      else { assert Ranges[3].name == range; }
    }
  }
}

=== FILE: latencies.dfy ===
/** The latency object `{ [key: string]: number }` shared by the hooks and the panels.
    A JavaScript object keeps its properties in insertion order, so it is modelled
    as the list of its entries. */
module Latencies {
  import opened Wrappers
  import opened Text
  import Numbers

  /** One `key: latency` property. */
  datatype Entry = Entry(key: string, latency: int)

  type LatencyData = seq<Entry>

  /** The connection key `${exchange}-${region}`. */
  function Key(exchange: string, region: string): string {
    exchange + "-" + region
  }

  predicate DistinctKeys(d: LatencyData) {
    forall i, j :: 0 <= i < j < |d| ==> d[i].key != d[j].key
  }

  predicate HasKey(d: LatencyData, k: string) {
    exists i :: 0 <= i < |d| && d[i].key == k
  }

  /** The position of property `k`, or |d| when the object has none. */
  function Find(d: LatencyData, k: string): (i: nat)
    ensures i <= |d|
    ensures i < |d| ==> d[i].key == k
    ensures forall j :: 0 <= j < i ==> d[j].key != k
  {
    if |d| == 0 then 0 else if d[0].key == k then 0 else 1 + Find(d[1..], k)
  }

  /** `d[k]`: the property's value, or `undefined`. */
  function Lookup(d: LatencyData, k: string): (r: Option<int>)
    ensures r.Some? <==> HasKey(d, k)
    ensures r.Some? ==> exists i :: 0 <= i < |d| && d[i] == Entry(k, r.value)
  {
    var i := Find(d, k);
    if i < |d| then Some(d[i].latency) else None
  }

  /** The assignment `d[k] = v`: an existing property keeps its place, a new one goes last. */
  function Put(d: LatencyData, k: string, v: int): (r: LatencyData)
    requires DistinctKeys(d)
    ensures DistinctKeys(r)
    ensures Lookup(r, k) == Some(v)
    ensures forall k' :: k' != k ==> Lookup(r, k') == Lookup(d, k')
    ensures !HasKey(d, k) ==> r == d + [Entry(k, v)]
    ensures HasKey(d, k) ==> |r| == |d|
  {
    var i := Find(d, k);
    if i < |d| then
      var r := d[i := Entry(k, v)];
      FindFirst(r, i, k);
      assert forall k' :: k' != k ==> Find(r, k') == Find(d, k') by {
        forall k' | k' != k ensures Find(r, k') == Find(d, k') {
          FindUnchanged(d, i, Entry(k, v), k');
        }
      }
      r
    else
      var r := d + [Entry(k, v)];
      assert forall k' :: Lookup(r, k') == (if HasKey(d, k') then Lookup(d, k') else if k' == k then Some(v) else None) by {
        forall k' ensures Lookup(r, k') == (if HasKey(d, k') then Lookup(d, k') else if k' == k then Some(v) else None) {
          LookupAppend(d, Entry(k, v), k');
        }
      }
      r
  }

  lemma {:induction false} FindFirst(d: LatencyData, i: nat, k: string)
    requires i < |d| && d[i].key == k
    requires forall j :: 0 <= j < i ==> d[j].key != k
    ensures Find(d, k) == i
    decreases i
  {
    if i > 0 {
      FindFirst(d[1..], i - 1, k);
    }
  }

  lemma {:induction false} FindUnchanged(d: LatencyData, i: nat, e: Entry, k: string)
    requires i < |d| && d[i].key == e.key && k != e.key
    ensures Find(d[i := e], k) == Find(d, k)
    decreases |d|
  {
    if |d| > 0 && d[0].key != k && i > 0 {
      assert d[i := e][1..] == d[1..][i - 1 := e];
      FindUnchanged(d[1..], i - 1, e, k);
    }
  }

  lemma {:induction false} LookupAppend(d: LatencyData, e: Entry, k: string)
    ensures Lookup(d + [e], k) == (if HasKey(d, k) then Lookup(d, k) else if e.key == k then Some(e.latency) else None)
    decreases |d|
  {
    if |d| > 0 && d[0].key != k {
      assert (d + [e])[1..] == d[1..] + [e];
      LookupAppend(d[1..], e, k);
      assert HasKey(d, k) <==> HasKey(d[1..], k) by {
        if HasKey(d, k) {
          var i :| 0 <= i < |d| && d[i].key == k;
          assert d[1..][i - 1].key == k;
        }
        if HasKey(d[1..], k) {
          var i :| 0 <= i < |d[1..]| && d[1..][i].key == k;
          assert d[i + 1].key == k;
        }
      }
    }
  }

  /** A run of assignments `d[e.key] = e.latency`, one per entry, in order. */
  function Assign(d: LatencyData, entries: seq<Entry>): LatencyData
    requires DistinctKeys(d)
    decreases |entries|
  {
    if |entries| == 0 then d
    else Assign(Put(d, entries[0].key, entries[0].latency), entries[1..])
  }

  /** When every assigned key is new, the assignments only append: nothing is overwritten. */
  lemma {:induction false} AssignFresh(d: LatencyData, entries: seq<Entry>)
    requires DistinctKeys(d + entries)
    ensures DistinctKeys(d)
    ensures Assign(d, entries) == d + entries
    decreases |entries|
  {
    DistinctFront(d, entries);
    if |entries| > 0 {
      var e := entries[0];
      FreshAfter(d, entries);
      assert d + [e] + entries[1..] == d + entries;
      AssignFresh(d + [e], entries[1..]);
    }
  }

  lemma DistinctFront(d: LatencyData, entries: seq<Entry>)
    requires DistinctKeys(d + entries)
    ensures DistinctKeys(d)
  {
    forall i, j | 0 <= i < j < |d| ensures d[i].key != d[j].key {
      assert d[i] == (d + entries)[i] && d[j] == (d + entries)[j];
    }
  }

  lemma FreshAfter(d: LatencyData, entries: seq<Entry>)
    requires |entries| > 0 && DistinctKeys(d + entries)
    ensures !HasKey(d, entries[0].key)
  {
    assert (d + entries)[|d|] == entries[0];
    forall i | 0 <= i < |d| ensures d[i].key != entries[0].key {
      assert d[i] == (d + entries)[i];
    }
  }

  /** `Object.values(d)`. */
  function Values(d: LatencyData): (r: seq<int>)
    ensures |r| == |d|
    ensures forall i :: 0 <= i < |d| ==> r[i] == d[i].latency
  {
    seq(|d|, i requires 0 <= i < |d| => d[i].latency)
  }

  /** The mean of the values of a non-empty object: the sum of `Object.values(d)`
      divided by their count. */
  function MeanLatency(d: LatencyData): real
    requires |d| > 0
  {
    Numbers.Mean(Values(d))
  }

  /** `Object.entries(d).filter(([key]) => key.startsWith(prefix))`, in insertion order. */
  function Matching(d: LatencyData, prefix: string): (r: LatencyData)
    ensures |r| <= |d|
    ensures forall e :: e in r <==> e in d && IsPrefix(prefix, e.key)
    ensures forall e :: multiset(r)[e] == if IsPrefix(prefix, e.key) then multiset(d)[e] else 0
  {
    if |d| == 0 then []
    else
      assert d == [d[0]] + d[1..];
      if IsPrefix(prefix, d[0].key) then [d[0]] + Matching(d[1..], prefix)
      else Matching(d[1..], prefix)
  }

  /** The filter keeps insertion order: it distributes over concatenation. */
  lemma {:induction false} MatchingConcat(a: LatencyData, b: LatencyData, prefix: string)
    ensures Matching(a + b, prefix) == Matching(a, prefix) + Matching(b, prefix)
    decreases |a|
  {
    if |a| == 0 {
      assert a + b == b;
    } else {
      var ab := a + b;
      assert ab[0] == a[0] && ab[1..] == a[1..] + b;
      MatchingConcat(a[1..], b, prefix);
    }
  }

  /** A single entry is kept exactly when its key has the prefix. */
  lemma MatchingSingle(e: Entry, prefix: string)
    ensures Matching([e], prefix) == if IsPrefix(prefix, e.key) then [e] else []
  {
    assert [e][1..] == [];
  }

  /** Every latency of the object is at least `floor`. */
  predicate AllAtLeast(d: LatencyData, floor: int) {
    forall k :: 0 <= k < |d| ==> d[k].latency >= floor
  }

  lemma AllAtLeastWeaken(d: LatencyData, floor: int, lower: int)
    requires AllAtLeast(d, floor) && lower <= floor
    ensures AllAtLeast(d, lower)
  {
  }

  /** Every key is `${exchange}-${region}` for one of the exchanges and one of the regions. */
  predicate KeysOver(d: LatencyData, exchanges: seq<string>, regions: seq<string>) {
    forall k :: 0 <= k < |d| ==> exists e, r :: e in exchanges && r in regions && d[k].key == Key(e, r)
  }

  /** A non-empty list holds its first element. */
  lemma FirstIsMember<T>(r: seq<T>)
    requires |r| > 0
    ensures r[0] in r
  {
  }
}

=== FILE: numbers.dfy ===
/** Integer and real arithmetic the source performs through JavaScript's `Math` object
    and `Number.prototype.toString`. */
module Numbers {

  /** `Math.round`: the nearest integer, a half rounded towards +infinity. */
  function Round(x: real): (n: int)
    ensures x - 0.5 < n as real <= x + 0.5
  {
    (x + 0.5).Floor
  }

  /** The rounding window determines the rounded value. */
  lemma RoundUnique(x: real, n: int)
    requires x - 0.5 < n as real <= x + 0.5
    ensures Round(x) == n
  {
  }

  /** Adding a whole number commutes with rounding. */
  lemma RoundShift(x: real, k: int)
    ensures Round(x + k as real) == Round(x) + k
  {
    RoundUnique(x + k as real, Round(x) + k);
  }

  lemma RoundMonotone(x: real, y: real)
    requires x <= y
    ensures Round(x) <= Round(y)
  {
  }

  /** A value inside [lo, hi) with integer bounds rounds into [lo, hi]. */
  lemma RoundBetween(x: real, lo: int, hi: int)
    requires lo as real <= x < hi as real
    ensures lo <= Round(x) <= hi
  {
  }

  /** `Math.max` of two integers. */
  function Max(a: int, b: int): (m: int)
    ensures m >= a && m >= b
    ensures m == a || m == b
  {
    if a >= b then a else b
  }

  /** `Math.min` of two integers. */
  function Min(a: int, b: int): (m: int)
    ensures m <= a && m <= b
    ensures m == a || m == b
  {
    if a <= b then a else b
  }

  function RealMax(a: real, b: real): (m: real)
    ensures m >= a && m >= b
    ensures m == a || m == b
  {
    if a >= b then a else b
  }

  function RealMin(a: real, b: real): (m: real)
    ensures m <= a && m <= b
    ensures m == a || m == b
  {
    if a <= b then a else b
  }

  /** `xs.reduce((a, b) => a + b, 0)`. */
  function Sum(xs: seq<int>): int
  {
    if |xs| == 0 then 0 else xs[0] + Sum(xs[1..])
  }

  lemma {:induction false} SumAppend(a: seq<int>, b: seq<int>)
    ensures Sum(a + b) == Sum(a) + Sum(b)
  {
    if |a| == 0 {
      assert a + b == b;
    } else {
      assert (a + b)[1..] == a[1..] + b;
      SumAppend(a[1..], b);
    }
  }

  /** A sum of values that all lie in [lo, hi] lies between |xs|*lo and |xs|*hi. */
  lemma {:induction false} SumBounds(xs: seq<int>, lo: int, hi: int)
    requires forall i :: 0 <= i < |xs| ==> lo <= xs[i] <= hi
    ensures |xs| * lo <= Sum(xs) <= |xs| * hi
  {
    if |xs| > 0 {
      SumBounds(xs[1..], lo, hi);
    }
  }

  /** The arithmetic mean `sum / length` of a non-empty list. */
  function Mean(xs: seq<int>): real
    requires |xs| > 0
  {
    Sum(xs) as real / |xs| as real
  }

  /** `Math.max(...xs)` of a non-empty list. */
  function MaxOf(xs: seq<int>): (m: int)
    requires |xs| > 0
    ensures forall i :: 0 <= i < |xs| ==> xs[i] <= m
    ensures exists i :: 0 <= i < |xs| && xs[i] == m
  {
    if |xs| == 1 then xs[0]
    else
      var rest := MaxOf(xs[1..]);
      assert forall i :: 1 <= i < |xs| ==> xs[i] == xs[1..][i - 1];
      Max(xs[0], rest)
  }

  /** `Math.min(...xs)` of a non-empty list. */
  function MinOf(xs: seq<int>): (m: int)
    requires |xs| > 0
    ensures forall i :: 0 <= i < |xs| ==> m <= xs[i]
    ensures exists i :: 0 <= i < |xs| && xs[i] == m
  {
    if |xs| == 1 then xs[0]
    else
      var rest := MinOf(xs[1..]);
      assert forall i :: 1 <= i < |xs| ==> xs[i] == xs[1..][i - 1];
      Min(xs[0], rest)
  }

  /** The mean of a non-empty list lies between its minimum and its maximum. */
  lemma MeanBetween(xs: seq<int>)
    requires |xs| > 0
    ensures MinOf(xs) as real <= Mean(xs) <= MaxOf(xs) as real
  {
    var lo, hi := MinOf(xs), MaxOf(xs);
    SumBounds(xs, lo, hi);
    MeanOfBoundedSum(Sum(xs), |xs|, lo, hi);
  }

  /** `Math.round` of the mean also lies between the minimum and the maximum. */
  lemma RoundedMeanBetween(xs: seq<int>)
    requires |xs| > 0
    ensures MinOf(xs) <= Round(Mean(xs)) <= MaxOf(xs)
  {
    MeanBetween(xs);
    RoundMonotone(MinOf(xs) as real, Mean(xs));
    RoundMonotone(Mean(xs), MaxOf(xs) as real);
    RoundUnique(MinOf(xs) as real, MinOf(xs));
    RoundUnique(MaxOf(xs) as real, MaxOf(xs));
  }

  lemma IntProductAsReal(a: int, b: int)
    ensures (a * b) as real == a as real * b as real
  {
  }

  lemma MeanOfBoundedSum(total: int, n: int, lo: int, hi: int)
    requires n > 0 && n * lo <= total <= n * hi
    ensures lo as real <= total as real / n as real <= hi as real
  {
    IntProductAsReal(n, lo);
    IntProductAsReal(n, hi);
    var t, m := total as real, n as real;
    assert m * lo as real <= t;
    assert lo as real <= t / m;
    assert t <= m * hi as real;
    assert t / m <= hi as real;
  }

  /** The decimal digit character for 0..9. */
  function DigitChar(d: int): (c: char)
    requires 0 <= d <= 9
    ensures '0' <= c <= '9' && c as int - '0' as int == d
  {
    (d + '0' as int) as char
  }

  predicate IsDigit(c: char) {
    '0' <= c <= '9'
  }

  /** `n.toString()` for a non-negative integer: decimal digits without leading zeros. */
  function NatToString(n: nat): (s: string)
    ensures |s| > 0
    ensures forall i :: 0 <= i < |s| ==> IsDigit(s[i])
    ensures n > 0 ==> s[0] != '0'
    decreases n
  {
    if n < 10 then [DigitChar(n)] else NatToString(n / 10) + [DigitChar(n % 10)]
  }

  /** `n.toString()` for an integer. */
  function IntToString(n: int): (s: string)
    ensures |s| > 0
    ensures n >= 0 ==> s == NatToString(n)
    ensures n < 0 ==> s == "-" + NatToString(-n)
  {
    if n < 0 then "-" + NatToString(-n) else NatToString(n)
  }

  /** Reads a string of decimal digits back as a number: the inverse of `NatToString`. */
  function ParseDigits(s: string): nat
    requires forall i :: 0 <= i < |s| ==> IsDigit(s[i])
  {
    if |s| == 0 then 0
    else
      assert IsDigit(s[|s| - 1]);
      ParseDigits(s[..|s| - 1]) * 10 + (s[|s| - 1] as int - '0' as int)
  }

  lemma {:induction false} ParseNatToString(n: nat)
    ensures ParseDigits(NatToString(n)) == n
    decreases n
  {
    var s := NatToString(n);
    if n >= 10 {
      assert s[..|s| - 1] == NatToString(n / 10);
      ParseNatToString(n / 10);
    }
  }

  /** Adding the modulus does not change the remainder. */
  lemma ModPeriod(i: nat, n: nat)
    requires n > 0
    ensures (i + n) % n == i % n
  {
    var q, r := i / n, i % n;
    assert i == q * n + r;
    assert i + n == (q + 1) * n + r;
    ModUnique(i + n, n, q + 1, r);
  }

  /** Euclidean division has one quotient and remainder. */
  lemma ModUnique(a: int, n: int, q: int, r: int)
    requires n > 0 && a == q * n + r && 0 <= r < n
    ensures a % n == r
  {
    var q', r' := a / n, a % n;
    assert a == q' * n + r';
    var d := q' - q;
    assert d * n == r - r' by {
      assert q' * n - q * n == d * n;
    }
    if d >= 1 {
      NonNegProduct(d - 1, n);
      assert false;
    } else if d <= -1 {
      NonNegProduct(-d - 1, n);
      assert false;
    }
  }

  lemma NonNegProduct(a: int, b: int)
    requires a >= 0 && b >= 0
    ensures a * b >= 0
  {
  }
}

=== FILE: search.dfy ===
/** The search panel (client/src/components/UI/SearchPanel.tsx): case-insensitive
    substring search over the exchange and cloud-region lists, at most eight results,
    exchanges first. */
module Search {
  import opened Wrappers
  import opened Numbers
  import opened Text
  import opened Catalog
  import opened Store

  const MaxResults: nat := 8

  /** `a.toLowerCase().includes(term.toLowerCase())`. */
  predicate Mentions(a: string, term: string) {
    Contains(Lower(a), Lower(term))
  }

  /** An exchange matches on its name, its cloud provider or its region. */
  predicate ExchangeMatches(e: Exchange, term: string) {
    Mentions(e.name, term) || Mentions(e.cloudProvider, term) || Mentions(e.region, term)
  }

  /** A region matches on its region name or its provider. */
  predicate RegionMatches(r: CloudRegion, term: string) {
    Mentions(r.regionName, term) || Mentions(r.provider, term)
  }

  /** `{ ...ex, type: 'exchange' }`. */
  function ExchangeResult(e: Exchange): Item {
    Item(ExchangeItem, e.id, e.name, e.cloudProvider)
  }

  /** `{ ...region, name: region.regionName, cloudProvider: region.provider, type: 'region' }`. */
  function RegionResult(r: CloudRegion): Item {
    Item(RegionItem, r.id, r.regionName, r.provider)
  }

  /** The matching exchanges as results, in list order. */
  function ExchangeResults(xs: seq<Exchange>, term: string): (r: seq<Item>)
    ensures |r| <= |xs|
    ensures forall k :: 0 <= k < |r| ==> r[k].kind == ExchangeItem
    ensures forall k :: 0 <= k < |r| ==> exists i :: 0 <= i < |xs| && ExchangeMatches(xs[i], term) && r[k] == ExchangeResult(xs[i])
    ensures forall i :: 0 <= i < |xs| && ExchangeMatches(xs[i], term) ==> ExchangeResult(xs[i]) in r
  {
    if |xs| == 0 then []
    else
      var rest := ExchangeResults(xs[1..], term);
      assert forall i :: 1 <= i < |xs| ==> xs[i] == xs[1..][i - 1];
      if ExchangeMatches(xs[0], term) then [ExchangeResult(xs[0])] + rest else rest
  }

  /** The matching regions as results, in list order. */
  function RegionResults(xs: seq<CloudRegion>, term: string): (r: seq<Item>)
    ensures |r| <= |xs|
    ensures forall k :: 0 <= k < |r| ==> r[k].kind == RegionItem
    ensures forall k :: 0 <= k < |r| ==> exists i :: 0 <= i < |xs| && RegionMatches(xs[i], term) && r[k] == RegionResult(xs[i])
    ensures forall i :: 0 <= i < |xs| && RegionMatches(xs[i], term) ==> RegionResult(xs[i]) in r
  {
    if |xs| == 0 then []
    else
      var rest := RegionResults(xs[1..], term);
      assert forall i :: 1 <= i < |xs| ==> xs[i] == xs[1..][i - 1];
      if RegionMatches(xs[0], term) then [RegionResult(xs[0])] + rest else rest
  }

  /** Each group keeps list order: filtering distributes over concatenation. */
  lemma {:induction false} ExchangeResultsConcat(a: seq<Exchange>, b: seq<Exchange>, term: string)
    ensures ExchangeResults(a + b, term) == ExchangeResults(a, term) + ExchangeResults(b, term)
  {
    if |a| == 0 {
      assert a + b == b;
    } else {
      assert (a + b)[1..] == a[1..] + b;
      ExchangeResultsConcat(a[1..], b, term);
    }
  }

  lemma {:induction false} RegionResultsConcat(a: seq<CloudRegion>, b: seq<CloudRegion>, term: string)
    ensures RegionResults(a + b, term) == RegionResults(a, term) + RegionResults(b, term)
  {
    if |a| == 0 {
      assert a + b == b;
    } else {
      assert (a + b)[1..] == a[1..] + b;
      RegionResultsConcat(a[1..], b, term);
    }
  }

  /** All matches, exchanges first. */
  function AllMatches(exchanges: seq<Exchange>, regions: seq<CloudRegion>, term: string): seq<Item> {
    ExchangeResults(exchanges, term) + RegionResults(regions, term)
  }

  /** `handleSearch`'s result list: empty for a term shorter than two characters,
      otherwise the first eight matches. */
  function HandleSearch(exchanges: seq<Exchange>, regions: seq<CloudRegion>, term: string): (r: seq<Item>)
    ensures |r| <= MaxResults
    ensures |term| < 2 ==> r == []
    ensures r <= AllMatches(exchanges, regions, term)
    ensures |term| >= 2 ==> |r| == Min(MaxResults, |AllMatches(exchanges, regions, term)|)
  {
    if |term| < 2 then []
    else
      var all := AllMatches(exchanges, regions, term);
      all[..Min(MaxResults, |all|)]
  }

  /** Every exchange result comes before every region result. */
  lemma ExchangesFirst(exchanges: seq<Exchange>, regions: seq<CloudRegion>, term: string, i: int, j: int)
    requires var r := HandleSearch(exchanges, regions, term); 0 <= i < j < |r| && r[j].kind == ExchangeItem
    ensures HandleSearch(exchanges, regions, term)[i].kind == ExchangeItem
  {
    var e := ExchangeResults(exchanges, term);
    var all := AllMatches(exchanges, regions, term);
    assert all[j].kind == ExchangeItem;
    if j >= |e| {
      assert false;
    }
  }

  /** Every result is a matching exchange or a matching region. */
  lemma SearchSound(exchanges: seq<Exchange>, regions: seq<CloudRegion>, term: string, k: int)
    requires 0 <= k < |HandleSearch(exchanges, regions, term)|
    ensures var item := HandleSearch(exchanges, regions, term)[k];
      || (exists i :: 0 <= i < |exchanges| && ExchangeMatches(exchanges[i], term) && item == ExchangeResult(exchanges[i]))
      || (exists i :: 0 <= i < |regions| && RegionMatches(regions[i], term) && item == RegionResult(regions[i]))
  {
    var e := ExchangeResults(exchanges, term);
    var all := AllMatches(exchanges, regions, term);
    assert HandleSearch(exchanges, regions, term)[k] == all[k];
    if k >= |e| {
      assert all[k] == RegionResults(regions, term)[k - |e|];
    }
  }

  /** With at most eight matches in all and a term of two or more characters, every
      match is among the results. */
  lemma SearchComplete(exchanges: seq<Exchange>, regions: seq<CloudRegion>, term: string)
    requires |term| >= 2 && |AllMatches(exchanges, regions, term)| <= MaxResults
    ensures forall i :: 0 <= i < |exchanges| && ExchangeMatches(exchanges[i], term) ==>
      ExchangeResult(exchanges[i]) in HandleSearch(exchanges, regions, term)
    ensures forall i :: 0 <= i < |regions| && RegionMatches(regions[i], term) ==>
      RegionResult(regions[i]) in HandleSearch(exchanges, regions, term)
  {
    var all := AllMatches(exchanges, regions, term);
    assert HandleSearch(exchanges, regions, term) == all;
  }

  /** Eight or more matching exchanges leave no room for a region. */
  lemma RegionsCrowdedOut(exchanges: seq<Exchange>, regions: seq<CloudRegion>, term: string)
    requires |ExchangeResults(exchanges, term)| >= MaxResults
    ensures forall k :: 0 <= k < |HandleSearch(exchanges, regions, term)| ==>
      HandleSearch(exchanges, regions, term)[k].kind == ExchangeItem
  {
    var e := ExchangeResults(exchanges, term);
    var all := AllMatches(exchanges, regions, term);
    forall k | 0 <= k < |HandleSearch(exchanges, regions, term)|
      ensures HandleSearch(exchanges, regions, term)[k].kind == ExchangeItem
    {
      assert all[k] == e[k];
    }
  }

  /** The search ignores letter case in the term. */
  lemma CaseInsensitive(e: Exchange, r: CloudRegion, term: string)
    ensures ExchangeMatches(e, term) <==> ExchangeMatches(e, Lower(term))
    ensures RegionMatches(r, term) <==> RegionMatches(r, Lower(term))
  {
    LowerIdempotent(term);
  }

  lemma LowerIdempotent(s: string)
    ensures Lower(Lower(s)) == Lower(s)
  {
    forall i | 0 <= i < |s| ensures Lower(Lower(s))[i] == Lower(s)[i] {
      assert Lower(s)[i] == LowerChar(s[i]);
    }
  }

  // ---------------------------------------------------------------------------
  // The panel's actions
  // ---------------------------------------------------------------------------

  /** The panel's own state: whether the result list is open, and the results. */
  datatype Panel = Panel(isOpen: bool, results: seq<Item>)

  /** The panel together with the store it writes to. */
  datatype View = View(panel: Panel, store: MapState)

  /** Typing `term`: the store keeps the term whatever its length, the results follow it. */
  function Type(v: View, exchanges: seq<Exchange>, regions: seq<CloudRegion>, term: string): (r: View)
    ensures r.store.searchTerm == term
    ensures |term| < 2 ==> r.panel.results == []
    ensures |term| >= 2 ==> r.panel.results == HandleSearch(exchanges, regions, term)
    ensures |r.panel.results| <= MaxResults
    ensures r.panel.isOpen == v.panel.isOpen
    ensures forall f :: f != Term ==> Agree(v.store, r.store, f)
  {
    var store := Apply(v.store, SetSearchTerm(term));
    forall f | f != Term ensures Agree(v.store, store, f) {
      ApplyFrame(v.store, SetSearchTerm(term), f);
    }
    View(v.panel.(results := HandleSearch(exchanges, regions, term)), store)
  }

  /** `selectResult`: the item becomes the selection; term, results and the open flag
      are cleared. */
  function SelectResult(v: View, item: Item): (r: View)
    ensures r.store.selectedExchange == Some(item)
    ensures r.store.searchTerm == "" && r.panel == Panel(false, [])
    ensures forall f :: f != Term && f != Selection ==> Agree(v.store, r.store, f)
  {
    var chosen := Apply(v.store, SetSelectedExchange(Some(item)));
    var store := Apply(chosen, SetSearchTerm(""));
    forall f | f != Term && f != Selection ensures Agree(v.store, store, f) {
      ApplyFrame(v.store, SetSelectedExchange(Some(item)), f);
      ApplyFrame(chosen, SetSearchTerm(""), f);
      AgreeTransitive(v.store, chosen, store, f);
    }
    View(Panel(false, []), store)
  }

  /** `clearSearch`: term and results cleared; the open flag and the selection stay. */
  function ClearSearch(v: View): (r: View)
    ensures r.store.searchTerm == "" && r.panel.results == []
    ensures r.panel.isOpen == v.panel.isOpen
    ensures forall f :: f != Term ==> Agree(v.store, r.store, f)
  {
    var store := Apply(v.store, SetSearchTerm(""));
    forall f | f != Term ensures Agree(v.store, store, f) {
      ApplyFrame(v.store, SetSearchTerm(""), f);
    }
    View(v.panel.(results := []), store)
  }

  /** Clearing erases every trace of what was typed before. */
  lemma ClearAfterType(v: View, exchanges: seq<Exchange>, regions: seq<CloudRegion>, term: string)
    ensures ClearSearch(Type(v, exchanges, regions, term)) == ClearSearch(v)
  {
    LastSetterWins(v.store, SetSearchTerm(term), SetSearchTerm(""));
  }

  /** Selecting the same item again changes nothing. */
  lemma SelectIdempotent(v: View, item: Item)
    ensures SelectResult(SelectResult(v, item), item) == SelectResult(v, item)
  {
    var once := SelectResult(v, item);
    forall f ensures Agree(once.store, SelectResult(once, item).store, f) {
    }
    AgreeEverywhere(once.store, SelectResult(once, item).store);
  }
}

=== FILE: server.dfy ===
/** The server routes (server/routes.ts): a health check and the `/api/radar/netflows`
    proxy, which tries three upstream endpoints in order and answers with locally
    generated data when there is no key or every endpoint fails. */
module Server {
  import opened Wrappers
  import opened Numbers
  import opened Text
  import opened Catalog
  import opened Generation
  import Adapter

  // ---------------------------------------------------------------------------
  // Health
  // ---------------------------------------------------------------------------

  datatype HealthReply = HealthReply(status: string, timestamp: string)

  /** `GET /api/health` at a clock reading whose ISO text is `now`: always "ok". */
  function Health(now: string): (r: HealthReply)
    ensures r.status == "ok" && r.timestamp == now
  {
    HealthReply("ok", now)
  }

  // ---------------------------------------------------------------------------
  // Server-side mock data (`generateServerMockData`)
  // ---------------------------------------------------------------------------

  /** `x.toFixed(2)` for a value of `n` hundredths: whole part, point, two digits. */
  function FixedText(n: nat): (s: string)
    ensures |s| >= 4 && s[|s| - 3] == '.'
  {
    NatToString(n / 100) + "." + Digits(n % 100, 2)
  }

  /** `parseFloat` of unsigned decimal text with a point: `None` when the text has
      another shape (not produced by `toFixed`). */
  function ParseDecimal(s: string): Option<real> {
    var i := IndexOf(s, '.');
    if i == |s| then None
    else
      var whole, fraction := s[..i], s[i + 1..];
      if (forall k :: 0 <= k < |whole| ==> IsDigit(whole[k])) && (forall k :: 0 <= k < |fraction| ==> IsDigit(fraction[k])) then
        Some(ParseDigits(whole) as real + ParseDigits(fraction) as real / Pow10(|fraction|) as real)
      else None
  }

  lemma ParseTwoDigits(f: nat)
    requires f < 100
    ensures ParseDigits(Digits(f, 2)) == f
  {
    var s := Digits(f, 2);
    assert s == Digits(f / 10, 1) + [DigitChar(f % 10)];
    assert s[..1] == Digits(f / 10, 1) == [DigitChar(f / 10)];
    assert ParseDigits(s[..1]) == f / 10 by {
      assert s[..1][..0] == [];
    }
  }

  /** The client reads back exactly the value the server wrote: `parseFloat(x.toFixed(2))`
      is `n / 100` for `n` hundredths. */
  lemma ParseFixedText(n: nat)
    ensures ParseDecimal(FixedText(n)) == Some(n as real / 100.0)
  {
    var w, f := NatToString(n / 100), Digits(n % 100, 2);
    FixedTextParts(n);
    ParseNatToString(n / 100);
    ParseTwoDigits(n % 100);
    assert Pow10(2) == 100;
    HundredthsValue(n);
  }

  /** The text splits at its one point into the whole part and the two digits. */
  lemma FixedTextParts(n: nat)
    ensures var w, f, s := NatToString(n / 100), Digits(n % 100, 2), FixedText(n);
      IndexOf(s, '.') == |w| && s[..|w|] == w && s[|w| + 1..] == f
  {
    var w, f := NatToString(n / 100), Digits(n % 100, 2);
    var s := FixedText(n);
    assert s == w + ['.'] + f;
    assert '.' !in w by {
      forall k | 0 <= k < |w| ensures w[k] != '.' {
        assert IsDigit(w[k]);
      }
    }
    IndexOfPastPart(w, '.', f);
    assert s[..|w|] == w;
    assert s[|w| + 1..] == f;
  }

  lemma HundredthsValue(n: nat)
    ensures (n / 100) as real + (n % 100) as real / 100.0 == n as real / 100.0
  {
    var q, r := n / 100, n % 100;
    assert n == q * 100 + r;
    assert n as real == q as real * 100.0 + r as real;
  }

  /** One element of `values`: `[timestamp, value.toFixed(2)]`; the timestamp is kept
      as epoch milliseconds. */
  datatype Sample = Sample(timestamp: int, value: string)

  /** `(Math.random() * 100 + 20).toFixed(2)` in hundredths. */
  function SampleHundredths(draw: real): (n: nat)
    requires IsDraw(draw)
    ensures 2000 <= n <= 12000
  {
    RoundBetween((draw * 100.0 + 20.0) * 100.0, 2000, 12000);
    Round((draw * 100.0 + 20.0) * 100.0)
  }

  const HourMs: int := 60 * 60 * 1000

  predicate ValidMockDraws(draws: seq<real>) {
    |draws| == 24 && forall k :: 0 <= k < |draws| ==> IsDraw(draws[k])
  }

  /** `generateServerMockData()` at time `now`: 24 hourly samples, oldest first. */
  function ServerMockData(now: int, draws: seq<real>): (r: seq<Sample>)
    requires ValidMockDraws(draws)
    ensures |r| == 24
  {
    seq(24, i requires 0 <= i < 24 => Sample(now - (23 - i) * HourMs, FixedText(SampleHundredths(draws[i]))))
  }

  /** The mock is an hourly series ending at `now`, and every value reads back as a
      number between 20 and 120. */
  lemma ServerMockShape(now: int, draws: seq<real>)
    requires ValidMockDraws(draws)
    ensures var r := ServerMockData(now, draws);
      && r[23].timestamp == now
      && (forall i :: 0 <= i < 23 ==> r[i + 1].timestamp == r[i].timestamp + HourMs)
      && (forall i :: 0 <= i < 24 ==>
            ParseDecimal(r[i].value).Some? && 20.0 <= ParseDecimal(r[i].value).value <= 120.0)
  {
    var r := ServerMockData(now, draws);
    forall i | 0 <= i < 23 ensures r[i + 1].timestamp == r[i].timestamp + HourMs {
      assert (23 - i) * HourMs == (23 - (i + 1)) * HourMs + HourMs;
    }
    forall i | 0 <= i < 24 ensures ParseDecimal(r[i].value).Some? && 20.0 <= ParseDecimal(r[i].value).value <= 120.0 {
      ParseFixedText(SampleHundredths(draws[i]));
    }
  }

  /** What the adapter reads of a mock body: the parsed second component of each sample. */
  function MockPayload(samples: seq<Sample>): Adapter.Payload
    requires forall i :: 0 <= i < |samples| ==> ParseDecimal(samples[i].value).Some?
  {
    Adapter.Payload(Some(seq(|samples|, i requires 0 <= i < |samples| => ParseDecimal(samples[i].value).value)))
  }

  // ---------------------------------------------------------------------------
  // The proxy (`GET /api/radar/netflows`)
  // ---------------------------------------------------------------------------

  /** The upstream endpoints, tried in this order. */
  const Endpoints: seq<string> := [
    "https://api.cloudflare.com/client/v4/radar/netflows/timeseries?dateRange=1d&format=json",
    "https://api.cloudflare.com/client/v4/radar/quality/iqi/timeseries?dateRange=1d&format=json",
    "https://api.cloudflare.com/client/v4/radar/datasets"
  ]

  /** What one upstream attempt yields: a thrown fetch, a non-ok response, or an ok
      response whose JSON parses (`Some`) or throws (`None`). */
  datatype Upstream = Threw | NotOk(status: int) | OkResponse(json: Option<Adapter.Payload>)

  /** The upstream answered usefully: ok, with parseable JSON. */
  predicate Usable(u: Upstream) {
    u.OkResponse? && u.json.Some?
  }

  /** The body the route sends (always with HTTP status 200). */
  datatype NetflowsReply = NetflowsReply(
    success: bool,
    fallback: bool,
    message: Option<string>,
    data: Adapter.Payload,
    endpoint: Option<string>)

  const NoKeyMessage: string := "No API key configured - using enhanced mock data"
  const AllFailedMessage: string := "API endpoints returned errors - using enhanced mock data"

  /** The `for (const endpoint of endpoints)` loop from position `i`: the first usable
      answer, where every failure (thrown fetch, non-ok status, unparseable JSON) is
      caught by the inner `catch` and moves on. */
  function FirstUsable(answers: seq<Upstream>, i: nat): (r: Option<nat>)
    requires i <= |answers|
    ensures r.Some? ==> i <= r.value < |answers| && Usable(answers[r.value])
    ensures r.Some? ==> forall k :: i <= k < r.value ==> !Usable(answers[k])
    ensures r.None? ==> forall k :: i <= k < |answers| ==> !Usable(answers[k])
    decreases |answers| - i
  {
    if i == |answers| then None
    else if Usable(answers[i]) then Some(i)
    else FirstUsable(answers, i + 1)
  }

  /** A reply with the server mock as data. */
  function FallbackReply(message: string, mock: seq<Sample>): NetflowsReply
    requires forall i :: 0 <= i < |mock| ==> ParseDecimal(mock[i].value).Some?
  {
    NetflowsReply(false, true, Some(message), MockPayload(mock), None)
  }

  /** The route's answer and the endpoints it requested, in order. `answers[k]` is
      what endpoint k would answer; only the requested ones are consumed. */
  datatype Handled = Handled(reply: NetflowsReply, requested: seq<string>)

  /** The `/api/netflows` handler. Success comes from the first usable endpoint, after
      every earlier endpoint was requested and failed, and nothing after it is
      requested; otherwise the reply is the fallback, after all three (with a key) or
      none (without) were requested. */
  function Netflows(hasKey: bool, answers: seq<Upstream>, mock: seq<Sample>): (r: Handled)
    requires |answers| == |Endpoints|
    requires forall i :: 0 <= i < |mock| ==> ParseDecimal(mock[i].value).Some?
    ensures r.reply.success != r.reply.fallback
    ensures r.requested <= Endpoints
    ensures r.reply.success <==> hasKey && exists k :: 0 <= k < |answers| && Usable(answers[k])
    ensures r.reply.success ==>
      && |r.requested| >= 1
      && r.reply.endpoint == Some(r.requested[|r.requested| - 1])
      && Usable(answers[|r.requested| - 1])
      && r.reply.data == answers[|r.requested| - 1].json.value
      && forall k :: 0 <= k < |r.requested| - 1 ==> !Usable(answers[k])
    ensures !hasKey ==> r.requested == [] && r.reply.message == Some(NoKeyMessage)
    ensures hasKey && !r.reply.success ==> r.requested == Endpoints && r.reply.message == Some(AllFailedMessage)
    ensures !r.reply.success ==> r.reply.data == MockPayload(mock) && r.reply.endpoint.None?
  {
    if !hasKey then Handled(FallbackReply(NoKeyMessage, mock), [])
    else match FirstUsable(answers, 0)
      case Some(k) =>
        Handled(NetflowsReply(true, false, None, answers[k].json.value, Some(Endpoints[k])), Endpoints[..k + 1])
      case None =>
        Handled(FallbackReply(AllFailedMessage, mock), Endpoints)
  }

  /** The outer `catch`: `Server error: ${message} - using enhanced mock data`, with
      'Unknown error' for a thrown value that is not an `Error`. */
  function ServerErrorReply(thrown: Adapter.Thrown, mock: seq<Sample>): (r: NetflowsReply)
    requires forall i :: 0 <= i < |mock| ==> ParseDecimal(mock[i].value).Some?
    ensures r.fallback && !r.success
    ensures r.data == MockPayload(mock) && r.endpoint.None?
    ensures r.message == Some("Server error: " + (if thrown.ErrorValue? then thrown.message else "Unknown error")
      + " - using enhanced mock data")
  {
    var text := match thrown
      case ErrorValue(m) => m
      case OtherValue => "Unknown error";
    FallbackReply("Server error: " + text + " - using enhanced mock data", mock)
  }

  /** After a server error the adapter still takes the mock series from the body, and
      shows `API unavailable: Server error: <message> - using enhanced mock data`. */
  lemma ServerErrorWarning(thrown: Adapter.Thrown, mock: seq<Sample>)
    requires forall i :: 0 <= i < |mock| ==> ParseDecimal(mock[i].value).Some?
    ensures var resp := Adapter.Reply(true, 200, "", Adapter.Parsed(AsProxyBody(ServerErrorReply(thrown, mock))));
      && Adapter.RouteOf(resp).ServerData?
      && Adapter.RouteOf(resp).payload == MockPayload(mock)
      && Adapter.RouteOf(resp).error == Some("API unavailable: Server error: "
           + (if thrown.ErrorValue? then thrown.message else "Unknown error") + " - using enhanced mock data")
  {
    var r := ServerErrorReply(thrown, mock);
    var text := if thrown.ErrorValue? then thrown.message else "Unknown error";
    assert r.message == Some("Server error: " + text + " - using enhanced mock data");
    assert "API unavailable: " + ("Server error: " + text + " - using enhanced mock data")
      == "API unavailable: Server error: " + text + " - using enhanced mock data";
  }

  /** When the first endpoint answers usably, the route answers with it without
      trying the other two. */
  lemma FirstEndpointWins(answers: seq<Upstream>, mock: seq<Sample>)
    requires |answers| == |Endpoints| && Usable(answers[0])
    requires forall i :: 0 <= i < |mock| ==> ParseDecimal(mock[i].value).Some?
    ensures Netflows(true, answers, mock).reply.success
    ensures Netflows(true, answers, mock).reply.endpoint == Some(Endpoints[0])
    ensures Netflows(true, answers, mock).requested == [Endpoints[0]]
  {
  }

  /** When every endpoint fails, the route answers with the fallback and the mock. */
  lemma AllEndpointsFail(answers: seq<Upstream>, mock: seq<Sample>)
    requires |answers| == |Endpoints| && forall k :: 0 <= k < |answers| ==> !Usable(answers[k])
    requires forall i :: 0 <= i < |mock| ==> ParseDecimal(mock[i].value).Some?
    ensures var r := Netflows(true, answers, mock).reply;
      !r.success && r.fallback && r.data == MockPayload(mock) && r.message == Some(AllFailedMessage)
  {
  }

  // ---------------------------------------------------------------------------
  // The adapter reading the route's reply
  // ---------------------------------------------------------------------------

  /** The JSON the adapter parses from a reply. */
  function AsProxyBody(r: NetflowsReply): Adapter.ProxyBody {
    Adapter.ProxyBody(r.success, Some(r.data), r.fallback, r.message)
  }

  /** Every reply of the route carries data, so the adapter always takes its data from
      the server: the "unexpected format" and missing-data branches are unreachable,
      and the error is cleared exactly when an upstream endpoint succeeded. */
  lemma ReplyAlwaysCarriesData(hasKey: bool, answers: seq<Upstream>, mock: seq<Sample>)
    requires |answers| == |Endpoints|
    requires forall i :: 0 <= i < |mock| ==> ParseDecimal(mock[i].value).Some?
    ensures var h := Netflows(hasKey, answers, mock);
      var resp := Adapter.Reply(true, 200, "", Adapter.Parsed(AsProxyBody(h.reply)));
      && Adapter.RouteOf(resp) == Adapter.ServerData(h.reply.data, Adapter.RouteOf(resp).error)
      && (Adapter.RouteOf(resp).error.None? <==> h.reply.success)
  {
  }

  /** Without a key on the server, the adapter shows
      `API unavailable: No API key configured - using enhanced mock data`. */
  lemma NoKeyWarning(answers: seq<Upstream>, mock: seq<Sample>)
    requires |answers| == |Endpoints|
    requires forall i :: 0 <= i < |mock| ==> ParseDecimal(mock[i].value).Some?
    ensures var resp := Adapter.Reply(true, 200, "", Adapter.Parsed(AsProxyBody(Netflows(false, answers, mock).reply)));
      Adapter.RouteOf(resp).error == Some("API unavailable: " + NoKeyMessage)
  {
  }

  /** The `data` the server sends when it falls back to its mock. */
  function ServerMockPayload(now: int, draws: seq<real>): Adapter.Payload
    requires ValidMockDraws(draws)
  {
    ServerMockShape(now, draws);
    MockPayload(ServerMockData(now, draws))
  }

  /** The property "at least `floor` ms" of one generated value. */
  function AtLeast(floor: int): int -> bool {
    v => v >= floor
  }

  /** The server mock writes values between 20 and 120 while the adapter multiplies a
      metric by 100, so every latency the adapter derives from the server's fallback
      body is at least 2000 ms. */
  lemma MockScaleThroughAdapter(now: int, draws: seq<real>, d: Adapter.FetchDraws)
    requires ValidMockDraws(draws) && Adapter.ValidFetchDraws(d)
    ensures Latencies.AllAtLeast(Adapter.ProcessCloudflareData(ServerMockPayload(now, draws), d).current, 2000)
  {
    ServerMockShape(now, draws);
    var p := ServerMockPayload(now, draws);
    ScaledSlots(ExchangeIds, d.proxy, ProxyRegionIds, p, 2000);
    ExchangeIdsSeparated();
    GeneratedWithin(ExchangeIds, d.proxy, ProxyRegionIds, Adapter.CloudflareValue(p), AtLeast(2000));
    assert Adapter.ProcessCloudflareData(p, d).current == Adapter.ProxyCurrent(p, d);
  }

  /** When every metric is at least `floor` hundredths, every value the proxy path
      generates is at least `floor` ms. */
  lemma ScaledSlots(exchanges: seq<string>, draws: seq<ExchangeDraw<Adapter.ProxyPair>>, regions: seq<string>, p: Adapter.Payload, floor: nat)
    requires Adapter.ValidSlotDraws(exchanges, draws, regions, Adapter.ValidProxyPair)
    requires p.values.Some? && |p.values.value| > 0
    requires forall k :: 0 <= k < |p.values.value| ==> p.values.value[k] >= floor as real / 100.0
    ensures forall j, i :: 0 <= j < |exchanges| && 0 <= i < Count(draws[j]) ==>
      AtLeast(floor)(Adapter.CloudflareValue(p)(Slot(exchanges[j], draws[j].shuffled[i], i, draws[j].pairs[i])))
  {
    forall j, i | 0 <= j < |exchanges| && 0 <= i < Count(draws[j])
      ensures AtLeast(floor)(Adapter.CloudflareValue(p)(Slot(exchanges[j], draws[j].shuffled[i], i, draws[j].pairs[i])))
    {
      var slot := Slot(exchanges[j], draws[j].shuffled[i], i, draws[j].pairs[i]);
      assert ValidDraw(draws[j], regions);
      assert Adapter.ValidProxyPair(slot.exchange, slot.region, slot.draw);
      var v := Adapter.Metric(p, i).value;
      RoundMonotone(floor as real, v * 100.0);
      RoundUnique(floor as real, floor);
      assert Adapter.CloudflareValue(p)(slot) == Adapter.CloudflareLatency(p, slot);
    }
  }

  // ---------------------------------------------------------------------------
  // The mock on the adapter's scale
  // ---------------------------------------------------------------------------

  /** `(Math.random() + 0.2).toFixed(2)` in hundredths: a value between 0.20 and 1.20,
      the fraction-of-100-ms scale the adapter reads a metric on. */
  function CorrectedSampleHundredths(draw: real): (n: nat)
    requires IsDraw(draw)
    ensures 20 <= n <= 120
  {
    RoundBetween((draw + 0.2) * 100.0, 20, 120);
    Round((draw + 0.2) * 100.0)
  }

  /** The fallback series with values on the adapter's scale; timestamps as before. */
  function CorrectedServerMockData(now: int, draws: seq<real>): (r: seq<Sample>)
    requires ValidMockDraws(draws)
    ensures |r| == 24
    ensures forall i :: 0 <= i < 24 ==> r[i].timestamp == ServerMockData(now, draws)[i].timestamp
    ensures forall i :: 0 <= i < 24 ==>
      ParseDecimal(r[i].value).Some? && 0.2 <= ParseDecimal(r[i].value).value <= 1.2
  {
    var r := seq(24, i requires 0 <= i < 24 => Sample(now - (23 - i) * HourMs, FixedText(CorrectedSampleHundredths(draws[i]))));
    forall i | 0 <= i < 24 ensures ParseDecimal(r[i].value).Some? && 0.2 <= ParseDecimal(r[i].value).value <= 1.2 {
      ParseFixedText(CorrectedSampleHundredths(draws[i]));
    }
    r
  }

  function CorrectedMockPayload(now: int, draws: seq<real>): Adapter.Payload
    requires ValidMockDraws(draws)
  {
    MockPayload(CorrectedServerMockData(now, draws))
  }

  /** On the corrected fallback every metric gives a base of 20 to 120 ms, the band of
      the adapter's own no-metric base (20 to 100 ms), and every derived latency is at
      least 20 ms. */
  lemma CorrectedMockScale(now: int, draws: seq<real>, d: Adapter.FetchDraws, i: nat)
    requires ValidMockDraws(draws) && Adapter.ValidFetchDraws(d)
    ensures var m := Adapter.Metric(CorrectedMockPayload(now, draws), i);
      m.Some? && 20 <= Round(m.value * 100.0) <= 120
    ensures Latencies.AllAtLeast(Adapter.ProcessCloudflareData(CorrectedMockPayload(now, draws), d).current, 20)
  {
    var p := CorrectedMockPayload(now, draws);
    var m := Adapter.Metric(p, i).value;
    RoundMonotone(20.0, m * 100.0);
    RoundUnique(20.0, 20);
    RoundMonotone(m * 100.0, 120.0);
    RoundUnique(120.0, 120);
    ScaledSlots(ExchangeIds, d.proxy, ProxyRegionIds, p, 20);
    ExchangeIdsSeparated();
    GeneratedWithin(ExchangeIds, d.proxy, ProxyRegionIds, Adapter.CloudflareValue(p), AtLeast(20));
    assert Adapter.ProcessCloudflareData(p, d).current == Adapter.ProxyCurrent(p, d);
  }
}

=== FILE: simulator.dfy ===
/** The base simulator hook (client/src/hooks/useLatencyData.ts): a random latency per
    chosen exchange-region pair, and a synthetic history, each rebuilt from scratch on
    its timer tick. */
module Simulator {
  import opened Numbers
  import opened Latencies
  import opened Generation
  import opened Catalog
  import opened History

  /** The two `Math.random()` draws of one connection: base and variation. */
  datatype PairDraw = PairDraw(base: real, variation: real)

  predicate ValidPair(p: PairDraw) {
    IsDraw(p.base) && IsDraw(p.variation)
  }

  predicate ValidLatencyDraws(draws: seq<ExchangeDraw<PairDraw>>) {
    && ValidDraws(draws, ExchangeIds, RegionIds)
    && ValidPairs(draws)
  }

  /** `Math.max(5, Math.round(baseLatency + variation))` with `baseLatency = 20 + r*100`
      and `variation = (r' - 0.5) * 20`. */
  function PairLatency(p: PairDraw): (v: int)
    ensures v >= 5
    ensures ValidPair(p) ==> 10 <= v <= 130
  {
    var sum := (20.0 + p.base * 100.0) + (p.variation - 0.5) * 20.0;
    if ValidPair(p) then
      assert 10.0 <= sum < 130.0;
      RoundBetween(sum, 10, 130);
      Max(5, Round(sum))
    else Max(5, Round(sum))
  }

  /** With draws in [0, 1) the sum lies in [10, 130), so the floor of 5 never applies. */
  lemma FloorNeverBinds(p: PairDraw)
    requires ValidPair(p)
    ensures PairLatency(p) == Round((20.0 + p.base * 100.0) + (p.variation - 0.5) * 20.0)
  {
    RoundBetween((20.0 + p.base * 100.0) + (p.variation - 0.5) * 20.0, 10, 130);
  }

  predicate ValidPairs(draws: seq<ExchangeDraw<PairDraw>>) {
    forall j, i :: 0 <= j < |draws| && 0 <= i < |draws[j].pairs| ==> ValidPair(draws[j].pairs[i])
  }

  function SlotLatency(s: Slot<PairDraw>): int {
    PairLatency(s.draw)
  }

  /** `generateLatencyData`: a fresh object built from the draws of this tick alone:
      26 to 52 distinct `${exchange}-${region}` keys over the listed exchanges and
      regions, every latency between 10 and 130 ms. */
  function GenerateLatencyData(draws: seq<ExchangeDraw<PairDraw>>): (d: LatencyData)
    requires ValidLatencyDraws(draws)
    ensures DistinctKeys(d)
    ensures 26 <= |d| <= 52
    ensures forall k :: 0 <= k < |d| ==> 10 <= d[k].latency <= 130
    ensures KeysOver(d, ExchangeIds, RegionIds)
  {
    LatencyDataShape(draws);
    GenerateWith(ExchangeIds, draws, RegionIds, SlotLatency)
  }

  lemma LatencyDataShape(draws: seq<ExchangeDraw<PairDraw>>)
    requires ValidLatencyDraws(draws)
    ensures var d := GenerateWith(ExchangeIds, draws, RegionIds, SlotLatency);
      && DistinctKeys(d) && 26 <= |d| <= 52
      && (forall k :: 0 <= k < |d| ==> 10 <= d[k].latency <= 130)
      && KeysOver(d, ExchangeIds, RegionIds)
  {
    ExchangeIdsSeparated();
    GeneratedWithShape(ExchangeIds, draws, RegionIds, SlotLatency);
    LatencyDataValues(draws);
  }

  lemma LatencyDataValues(draws: seq<ExchangeDraw<PairDraw>>)
    requires ValidLatencyDraws(draws)
    ensures var d := GenerateWith(ExchangeIds, draws, RegionIds, SlotLatency);
      && (forall k :: 0 <= k < |d| ==> 10 <= d[k].latency <= 130)
      && KeysOver(d, ExchangeIds, RegionIds)
  {
    ExchangeIdsSeparated();
    SlotLatenciesWithin(ExchangeIds, draws, RegionIds);
    GeneratedWithin(ExchangeIds, draws, RegionIds, SlotLatency, InSimulatedRange);
    var d := GenerateWith(ExchangeIds, draws, RegionIds, SlotLatency);
    forall k | 0 <= k < |d| ensures 10 <= d[k].latency <= 130 {
      assert InSimulatedRange(d[k].latency);
    }
  }

  predicate InSimulatedRange(v: int) {
    10 <= v <= 130
  }

  lemma SlotLatenciesWithin(exchanges: seq<string>, draws: seq<ExchangeDraw<PairDraw>>, regions: seq<string>)
    requires ValidDraws(draws, exchanges, regions) && ValidPairs(draws)
    ensures forall j, i :: 0 <= j < |exchanges| && 0 <= i < Count(draws[j]) ==>
      InSimulatedRange(SlotLatency(Slot(exchanges[j], draws[j].shuffled[i], i, draws[j].pairs[i])))
  {
    forall j, i | 0 <= j < |exchanges| && 0 <= i < Count(draws[j])
      ensures InSimulatedRange(SlotLatency(Slot(exchanges[j], draws[j].shuffled[i], i, draws[j].pairs[i])))
    {
      assert ValidDraw(draws[j], regions);
      assert ValidPair(draws[j].pairs[i]);
    }
  }

  /** Each exchange is connected to exactly `connectionCount` distinct regions: the
      first ones of its shuffled list. */
  lemma ConnectionsPerExchange(draws: seq<ExchangeDraw<PairDraw>>, j: int, r: string)
    requires ValidLatencyDraws(draws) && 0 <= j < |ExchangeIds|
    ensures HasKey(GenerateLatencyData(draws), Key(ExchangeIds[j], r)) <==> r in draws[j].shuffled[..Count(draws[j])]
    ensures Distinct(draws[j].shuffled[..Count(draws[j])])
  {
    ExchangeIdsSeparated();
    ConnectionsWith(ExchangeIds, draws, RegionIds, SlotLatency, j, r);
  }

  /** The two `Math.random()` draws of one historical point and the value of the sine
      in its daily pattern (`Math.sin` of the time of day, an input here). */
  datatype PointDraw = PointDraw(base: real, sine: real, variation: real)

  predicate ValidPoint(p: PointDraw) {
    IsDraw(p.base) && IsDraw(p.variation) && -1.0 <= p.sine <= 1.0
  }

  /** `Math.max(10, Math.round(baseLatency + dailyPattern + randomVariation))`, with
      `baseLatency = 50 + r*50`, `dailyPattern = sine * 10` and
      `randomVariation = (r' - 0.5) * 20`. */
  function PointLatency(p: PointDraw): (v: int)
    ensures v >= 10
    ensures ValidPoint(p) ==> 30 <= v <= 120
  {
    var sum := (50.0 + p.base * 50.0) + p.sine * 10.0 + (p.variation - 0.5) * 20.0;
    if ValidPoint(p) then
      RoundBetween(sum, 30, 120);
      Max(10, Round(sum))
    else Max(10, Round(sum))
  }

  /** One list of point draws per range, as long as that range's series. */
  predicate ValidHistoryDraws(draws: seq<seq<PointDraw>>) {
    && FitsRanges(draws)
    && (forall j, k :: 0 <= j < |draws| && 0 <= k < |draws[j]| ==> ValidPoint(draws[j][k]))
  }

  function PointLatencies(draws: seq<PointDraw>): (v: seq<int>)
    ensures |v| == |draws|
    ensures forall k :: 0 <= k < |draws| ==> v[k] == PointLatency(draws[k])
  {
    seq(|draws|, k requires 0 <= k < |draws| => PointLatency(draws[k]))
  }

  /** `generateHistoricalData` at time `now` (ms): the four range labels, 60/24/7/30
      points ending at `now` in increasing time order, every latency between 30 and
      120 ms. */
  function GenerateHistoricalData(now: int, draws: seq<seq<PointDraw>>): (h: HistoricalData)
    requires ValidHistoryDraws(draws)
    ensures h.Keys == RangeLabels
    ensures |h["1h"]| == 60 && |h["24h"]| == 24 && |h["7d"]| == 7 && |h["30d"]| == 30
    ensures forall range :: range in h ==> h[range][|h[range]| - 1].timestamp == now
    ensures forall range, a, b :: range in h && 0 <= a < b < |h[range]| ==> h[range][a].timestamp < h[range][b].timestamp
    ensures forall range, k :: range in h && 0 <= k < |h[range]| ==> 30 <= h[range][k].latency <= 120
  {
    var latencies := seq(|Ranges|, j requires 0 <= j < |Ranges| => PointLatencies(draws[j]));
    HistoricalShape(now, latencies);
    PointHistoryValues(now, draws, latencies);
    Historical(now, latencies)
  }

  lemma PointHistoryValues(now: int, draws: seq<seq<PointDraw>>, latencies: seq<seq<int>>)
    requires ValidHistoryDraws(draws)
    requires latencies == seq(|Ranges|, j requires 0 <= j < |Ranges| => PointLatencies(draws[j]))
    ensures var h := Historical(now, latencies);
      forall range, k :: range in h && 0 <= k < |h[range]| ==> 30 <= h[range][k].latency <= 120
  {
    var h: HistoricalData := Historical(now, latencies);
    forall range: string, k: int | range in h && 0 <= k < |h[range]| ensures 30 <= h[range][k].latency <= 120 {
      var j :| 0 <= j < |Ranges| && Ranges[j].name == range;
      assert h[range] == Series(now, Ranges[j], latencies[j]);
      assert ValidPoint(draws[j][k]);
    }
  }

  /** The hook's state. */
  datatype SimState = SimState(latencyData: LatencyData, historicalData: HistoricalData)

  /** One 5-second tick: the latency object is replaced wholesale by a freshly
      generated one, nothing of the old object is merged in, and the history is
      untouched. */
  function LatencyTick(s: SimState, draws: seq<ExchangeDraw<PairDraw>>): (r: SimState)
    requires ValidLatencyDraws(draws)
    ensures r.latencyData == GenerateLatencyData(draws)
    ensures r.historicalData == s.historicalData
    ensures 26 <= |r.latencyData| <= 52
    ensures forall k :: 0 <= k < |r.latencyData| ==> 10 <= r.latencyData[k].latency <= 130
  {
    var d := GenerateLatencyData(draws);
    SimState(d, s.historicalData)
  }

  /** One 60-second tick: the history is replaced wholesale by a freshly generated
      one, and the latency object is untouched. */
  function HistoryTick(s: SimState, now: int, draws: seq<seq<PointDraw>>): (r: SimState)
    requires ValidHistoryDraws(draws)
    ensures r.historicalData == GenerateHistoricalData(now, draws)
    ensures r.latencyData == s.latencyData
    ensures r.historicalData.Keys == RangeLabels
    ensures |r.historicalData["1h"]| == 60 && |r.historicalData["24h"]| == 24
    ensures |r.historicalData["7d"]| == 7 && |r.historicalData["30d"]| == 30
  {
    s.(historicalData := GenerateHistoricalData(now, draws))
  }

  /** Nothing is merged: two states ticked with the same draws end with the same
      latency object, and with the same history. */
  lemma TicksForgetOldData(s1: SimState, s2: SimState, now: int,
                           draws: seq<ExchangeDraw<PairDraw>>, points: seq<seq<PointDraw>>)
    requires ValidLatencyDraws(draws) && ValidHistoryDraws(points)
    ensures LatencyTick(s1, draws).latencyData == LatencyTick(s2, draws).latencyData
    ensures HistoryTick(s1, now, points).historicalData == HistoryTick(s2, now, points).historicalData
  {
  }
}

=== FILE: store.dfy ===
/** The map store (client/src/lib/stores/useMapStore.ts): the UI state shared by the
    panels, and the actions that update it. Each action is a pure function from the
    old state to the new one, as the store's `set` produces it. */
module Store {
  import opened Wrappers
  import opened Catalog

  /** The `{ min, max }` latency range; it is stored as given, without any check that
      `min <= max`. */
  datatype LatencyFilter = LatencyFilter(min: int, max: int)

  datatype MapState = MapState(
    selectedExchange: Option<Item>,
    visibleProviders: seq<string>,
    showConnections: bool,
    showLatencyChart: bool,
    latencyFilter: LatencyFilter,
    searchTerm: string,
    isDarkMode: bool,
    isMobile: bool)

  /** The store as created: nothing selected, all three providers visible, connections
      shown, chart hidden, the range 0..200, no search term, dark mode, not mobile. */
  const Initial: MapState := MapState(None, Providers, true, false, LatencyFilter(0, 200), "", true, false)

  // ---------------------------------------------------------------------------
  // The provider list
  // ---------------------------------------------------------------------------

  /** `list.filter(p => p !== provider)`. */
  function Remove(list: seq<string>, provider: string): (r: seq<string>)
    ensures provider !in r
    ensures forall x :: x != provider ==> (x in r <==> x in list)
    ensures multiset(r) == multiset(list)[provider := 0]
    ensures |r| <= |list|
  {
    if |list| == 0 then []
    else
      var rest := Remove(list[1..], provider);
      assert list == [list[0]] + list[1..];
      if list[0] == provider then rest else [list[0]] + rest
  }

  /** The filter keeps order: it distributes over concatenation, and leaves alone a
      list that does not hold the provider. */
  lemma {:induction false} RemoveConcat(a: seq<string>, b: seq<string>, provider: string)
    ensures Remove(a + b, provider) == Remove(a, provider) + Remove(b, provider)
  {
    if |a| > 0 {
      assert (a + b)[1..] == a[1..] + b;
      RemoveConcat(a[1..], b, provider);
    } else {
      assert a + b == b;
    }
  }

  lemma {:induction false} RemoveAbsent(list: seq<string>, provider: string)
    requires provider !in list
    ensures Remove(list, provider) == list
  {
    if |list| > 0 {
      RemoveAbsent(list[1..], provider);
      assert list == [list[0]] + list[1..];
    }
  }

  predicate NoDuplicates(list: seq<string>) {
    forall i, j :: 0 <= i < j < |list| ==> list[i] != list[j]
  }

  /** `toggleProvider`'s new list: every occurrence removed when present, appended at
      the end when absent. */
  function ToggledProviders(list: seq<string>, provider: string): (r: seq<string>)
    ensures provider in r <==> provider !in list
    ensures forall x :: x != provider ==> (x in r <==> x in list)
    ensures provider !in list ==> r == list + [provider]
    ensures provider in list ==> r == Remove(list, provider)
  {
    if provider in list then Remove(list, provider) else list + [provider]
  }

  /** Toggling twice restores membership: an absent provider leaves the list exactly
      as it was, a present one comes back at the end, the rest in order. */
  lemma ToggleTwice(list: seq<string>, provider: string)
    ensures var r := ToggledProviders(ToggledProviders(list, provider), provider);
      && (forall x :: x in r <==> x in list)
      && (provider !in list ==> r == list)
      && (provider in list ==> r == Remove(list, provider) + [provider])
  {
    if provider !in list {
      RemoveConcat(list, [provider], provider);
      RemoveAbsent(list, provider);
      assert Remove([provider], provider) == [];
    }
  }

  /** A toggle keeps a list free of repeats. */
  lemma ToggleKeepsNoDuplicates(list: seq<string>, provider: string)
    requires NoDuplicates(list)
    ensures NoDuplicates(ToggledProviders(list, provider))
  {
    if provider in list {
      RemoveKeepsNoDuplicates(list, provider);
    }
  }

  lemma {:induction false} RemoveKeepsNoDuplicates(list: seq<string>, provider: string)
    requires NoDuplicates(list)
    ensures NoDuplicates(Remove(list, provider))
  {
    if |list| > 0 {
      RemoveKeepsNoDuplicates(list[1..], provider);
      var rest := Remove(list[1..], provider);
      assert list[0] !in list[1..];
      assert list[0] !in rest;
    }
  }

  // ---------------------------------------------------------------------------
  // Actions
  // ---------------------------------------------------------------------------

  /** The store's actions, `exportData` aside. */
  datatype Action =
    | SetSelectedExchange(exchange: Option<Item>)
    | ToggleProvider(provider: string)
    | SetShowConnections(show: bool)
    | SetShowLatencyChart(chart: bool)
    | SetLatencyFilter(filter: LatencyFilter)
    | SetSearchTerm(term: string)
    | ToggleDarkMode
    | SetIsMobile(mobile: bool)

  /** The state fields, one per action. */
  datatype Field = Selection | VisibleProviders | Connections | Chart | Filter | Term | DarkMode | Mobile

  function FieldOf(a: Action): Field {
    match a
    case SetSelectedExchange(_) => Selection
    case ToggleProvider(_) => VisibleProviders
    case SetShowConnections(_) => Connections
    case SetShowLatencyChart(_) => Chart
    case SetLatencyFilter(_) => Filter
    case SetSearchTerm(_) => Term
    case ToggleDarkMode => DarkMode
    case SetIsMobile(_) => Mobile
  }

  /** The two states hold the same value in field `f`. */
  predicate Agree(s: MapState, t: MapState, f: Field) {
    match f
    case Selection => s.selectedExchange == t.selectedExchange
    case VisibleProviders => s.visibleProviders == t.visibleProviders
    case Connections => s.showConnections == t.showConnections
    case Chart => s.showLatencyChart == t.showLatencyChart
    case Filter => s.latencyFilter == t.latencyFilter
    case Term => s.searchTerm == t.searchTerm
    case DarkMode => s.isDarkMode == t.isDarkMode
    case Mobile => s.isMobile == t.isMobile
  }

  predicate IsSetter(a: Action) {
    !a.ToggleProvider? && !a.ToggleDarkMode?
  }

  /** The state after `set` with the action's partial object. */
  function Apply(s: MapState, a: Action): (r: MapState)
    ensures a.ToggleDarkMode? ==> r.isDarkMode == !s.isDarkMode
    ensures a.ToggleProvider? ==> r.visibleProviders == ToggledProviders(s.visibleProviders, a.provider)
    ensures a.SetSelectedExchange? ==> r.selectedExchange == a.exchange
    ensures a.SetShowConnections? ==> r.showConnections == a.show
    ensures a.SetShowLatencyChart? ==> r.showLatencyChart == a.chart
    ensures a.SetLatencyFilter? ==> r.latencyFilter == a.filter
    ensures a.SetSearchTerm? ==> r.searchTerm == a.term
    ensures a.SetIsMobile? ==> r.isMobile == a.mobile
  {
    match a
    case SetSelectedExchange(e) => s.(selectedExchange := e)
    case ToggleProvider(p) => s.(visibleProviders := ToggledProviders(s.visibleProviders, p))
    case SetShowConnections(b) => s.(showConnections := b)
    case SetShowLatencyChart(b) => s.(showLatencyChart := b)
    case SetLatencyFilter(f) => s.(latencyFilter := f)
    case SetSearchTerm(t) => s.(searchTerm := t)
    case ToggleDarkMode => s.(isDarkMode := !s.isDarkMode)
    case SetIsMobile(b) => s.(isMobile := b)
  }

  /** An action changes its own field and no other. */
  lemma ApplyFrame(s: MapState, a: Action, f: Field)
    requires f != FieldOf(a)
    ensures Agree(s, Apply(s, a), f)
  {
  }

  /** States that agree in every field are equal. */
  lemma AgreeEverywhere(s: MapState, t: MapState)
    requires forall f :: Agree(s, t, f)
    ensures s == t
  {
    assert Agree(s, t, Selection) && Agree(s, t, VisibleProviders) && Agree(s, t, Connections);
    assert Agree(s, t, Chart) && Agree(s, t, Filter) && Agree(s, t, Term);
    assert Agree(s, t, DarkMode) && Agree(s, t, Mobile);
  }

  /** A setter's new value does not depend on the old state: of two setters of the
      same field, the later one wins. */
  lemma LastSetterWins(s: MapState, a: Action, b: Action)
    requires IsSetter(a) && IsSetter(b) && FieldOf(a) == FieldOf(b)
    ensures Apply(Apply(s, a), b) == Apply(s, b)
  {
    match b
    case SetSelectedExchange(_) => assert a.SetSelectedExchange?;
    case SetShowConnections(_) => assert a.SetShowConnections?;
    case SetShowLatencyChart(_) => assert a.SetShowLatencyChart?;
    case SetLatencyFilter(_) => assert a.SetLatencyFilter?;
    case SetSearchTerm(_) => assert a.SetSearchTerm?;
    case SetIsMobile(_) => assert a.SetIsMobile?;
  }

  /** An action's field in the new state depends on nothing but that field in the old one. */
  lemma ApplyIsLocal(s: MapState, t: MapState, a: Action)
    requires Agree(s, t, FieldOf(a))
    ensures Agree(Apply(s, a), Apply(t, a), FieldOf(a))
  {
  }

  lemma AgreeTransitive(s: MapState, t: MapState, u: MapState, f: Field)
    requires Agree(s, t, f) && Agree(t, u, f)
    ensures Agree(s, u, f)
  {
  }

  /** Actions on different fields commute. */
  lemma DifferentFieldsCommute(s: MapState, a: Action, b: Action)
    requires FieldOf(a) != FieldOf(b)
    ensures Apply(Apply(s, a), b) == Apply(Apply(s, b), a)
  {
    forall f ensures Agree(Apply(Apply(s, a), b), Apply(Apply(s, b), a), f) {
      CommuteAt(s, a, b, f);
    }
    AgreeEverywhere(Apply(Apply(s, a), b), Apply(Apply(s, b), a));
  }

  lemma CommuteAt(s: MapState, a: Action, b: Action, f: Field)
    requires FieldOf(a) != FieldOf(b)
    ensures Agree(Apply(Apply(s, a), b), Apply(Apply(s, b), a), f)
  {
    if f == FieldOf(a) {
      CommuteOwnField(s, a, b);
    } else if f == FieldOf(b) {
      CommuteOwnField(s, b, a);
      AgreeSymmetric(Apply(Apply(s, b), a), Apply(Apply(s, a), b), f);
    } else {
      CommuteOtherField(s, a, b, f);
    }
  }

  /** In `a`'s field both orders end with `a`'s effect on the same old value. */
  lemma CommuteOwnField(s: MapState, a: Action, b: Action)
    requires FieldOf(a) != FieldOf(b)
    ensures Agree(Apply(Apply(s, a), b), Apply(Apply(s, b), a), FieldOf(a))
  {
    var sa, sb := Apply(s, a), Apply(s, b);
    ApplyFrame(s, b, FieldOf(a));
    ApplyFrame(sa, b, FieldOf(a));
    ApplyIsLocal(s, sb, a);
    AgreeSymmetric(sa, Apply(sa, b), FieldOf(a));
    AgreeTransitive(Apply(sa, b), sa, Apply(sb, a), FieldOf(a));
  }

  /** Neither action touches a third field. */
  lemma CommuteOtherField(s: MapState, a: Action, b: Action, f: Field)
    requires f != FieldOf(a) && f != FieldOf(b)
    ensures Agree(Apply(Apply(s, a), b), Apply(Apply(s, b), a), f)
  {
    var sa, sb := Apply(s, a), Apply(s, b);
    ApplyFrame(s, a, f);
    ApplyFrame(sa, b, f);
    ApplyFrame(s, b, f);
    ApplyFrame(sb, a, f);
    AgreeSymmetric(sa, Apply(sa, b), f);
    AgreeSymmetric(s, sa, f);
    AgreeTransitive(Apply(sa, b), sa, s, f);
    AgreeTransitive(Apply(sa, b), s, sb, f);
    AgreeTransitive(Apply(sa, b), sb, Apply(sb, a), f);
  }

  lemma AgreeSymmetric(s: MapState, t: MapState, f: Field)
    requires Agree(s, t, f)
    ensures Agree(t, s, f)
  {
  }

  /** `toggleDarkMode` is an involution. */
  lemma DarkModeInvolution(s: MapState)
    ensures Apply(Apply(s, ToggleDarkMode), ToggleDarkMode) == s
  {
    var t := Apply(Apply(s, ToggleDarkMode), ToggleDarkMode);
    forall f ensures Agree(t, s, f) {
      if f != DarkMode {
        ApplyFrame(s, ToggleDarkMode, f);
        ApplyFrame(Apply(s, ToggleDarkMode), ToggleDarkMode, f);
        AgreeTransitive(t, Apply(s, ToggleDarkMode), s, f);
      }
    }
    AgreeEverywhere(t, s);
  }

  /** The provider list stays free of repeats under every action, from the initial state on. */
  predicate Consistent(s: MapState) {
    NoDuplicates(s.visibleProviders)
  }

  lemma ActionsKeepConsistent(s: MapState, a: Action)
    requires Consistent(s)
    ensures Consistent(Apply(s, a))
  {
    if a.ToggleProvider? {
      ToggleKeepsNoDuplicates(s.visibleProviders, a.provider);
    } else {
      ApplyFrame(s, a, VisibleProviders);
    }
  }

  lemma InitialConsistent()
    ensures Consistent(Initial)
    ensures Initial.latencyFilter.min <= Initial.latencyFilter.max
  {
  }

  /** The range is stored unchecked: any pair, `min > max` included, is kept as given
      and nothing else changes. */
  lemma FilterUnchecked(s: MapState, f: LatencyFilter)
    ensures var r := Apply(s, SetLatencyFilter(f));
      && r.latencyFilter == f
      && (f.min > f.max ==> r.latencyFilter.min > r.latencyFilter.max)
      && forall g :: g != Filter ==> Agree(s, r, g)
  {
    forall g | g != Filter ensures Agree(s, Apply(s, SetLatencyFilter(f)), g) {
      ApplyFrame(s, SetLatencyFilter(f), g);
    }
  }
}

=== FILE: text.dfy ===
/** String operations the source uses: `toLowerCase`, `includes`, `startsWith`, `join`. */
module Text {

  /** `toLowerCase` on one character; only the ASCII letters A-Z are modelled. */
  function LowerChar(c: char): char {
    if 'A' <= c <= 'Z' then (c as int + 32) as char else c
  }

  function Lower(s: string): (r: string)
    ensures |r| == |s|
    ensures forall i :: 0 <= i < |s| ==> r[i] == LowerChar(s[i])
  {
    seq(|s|, i requires 0 <= i < |s| => LowerChar(s[i]))
  }

  /** `s.startsWith(p)`. */
  predicate IsPrefix(p: string, s: string) {
    |p| <= |s| && s[..|p|] == p
  }

  /** `s.includes(t)`: t occurs in s at some position. */
  predicate Contains(s: string, t: string)
    decreases |s|
  {
    IsPrefix(t, s) || (|s| > 0 && Contains(s[1..], t))
  }

  /** t occurs in s starting at position i. */
  predicate OccursAt(s: string, t: string, i: int) {
    0 <= i <= |s| - |t| && s[i..i + |t|] == t
  }

  /** `Contains` agrees with the positional definition of a substring. */
  lemma {:induction false} ContainsAt(s: string, t: string)
    ensures Contains(s, t) <==> exists i :: OccursAt(s, t, i)
    decreases |s|
  {
    if IsPrefix(t, s) {
      assert OccursAt(s, t, 0);
    } else if |s| == 0 {
    } else {
      ContainsAt(s[1..], t);
      if exists i :: OccursAt(s, t, i) {
        var i :| OccursAt(s, t, i);
        assert i != 0;
        assert OccursAt(s[1..], t, i - 1);
      }
      if Contains(s[1..], t) {
        var j :| OccursAt(s[1..], t, j);
        assert OccursAt(s, t, j + 1);
      }
    }
  }

  /** `parts.join(sep)`. */
  function Join(parts: seq<string>, sep: string): string
    decreases |parts|
  {
    if |parts| == 0 then ""
    else if |parts| == 1 then parts[0]
    else parts[0] + sep + Join(parts[1..], sep)
  }

  /** The position of the first `c` in `s`, or |s| when there is none. */
  function IndexOf(s: string, c: char): (i: nat)
    ensures i <= |s|
    ensures i < |s| ==> s[i] == c
    ensures forall k :: 0 <= k < i ==> s[k] != c
  {
    if |s| == 0 then 0 else if s[0] == c then 0 else 1 + IndexOf(s[1..], c)
  }

  /** Cuts `s` at every `sep`; the reading side of `Join`. */
  function Split(s: string, sep: char): (r: seq<string>)
    ensures |r| >= 1
    decreases |s|
  {
    var i := IndexOf(s, sep);
    if i == |s| then [s] else [s[..i]] + Split(s[i + 1..], sep)
  }

  lemma {:induction false} IndexOfPastPart(p: string, sep: char, rest: string)
    requires sep !in p
    ensures IndexOf(p + [sep] + rest, sep) == |p|
    decreases |p|
  {
    if |p| > 0 {
      assert (p + [sep] + rest)[1..] == p[1..] + [sep] + rest;
      IndexOfPastPart(p[1..], sep, rest);
    }
  }

  /** Splitting a joined list gives the list back when no part holds the separator. */
  lemma {:induction false} SplitJoin(parts: seq<string>, sep: char)
    requires |parts| >= 1
    requires forall j :: 0 <= j < |parts| ==> sep !in parts[j]
    ensures Split(Join(parts, [sep]), sep) == parts
    decreases |parts|
  {
    var p := parts[0];
    if |parts| == 1 {
      assert IndexOf(p, sep) == |p|;
    } else {
      var rest := Join(parts[1..], [sep]);
      var s := p + [sep] + rest;
      assert Join(parts, [sep]) == s;
      IndexOfPastPart(p, sep, rest);
      assert s[..|p|] == p;
      assert s[|p| + 1..] == rest;
      SplitJoin(parts[1..], sep);
      assert parts == [p] + parts[1..];
    }
  }

  /** Two different lists that join to the same text: joining is not injective once a part holds the separator. */
  lemma JoinLosesSeparatorInPart()
    ensures Join(["a,b", "c"], ",") == Join(["a", "b,c"], ",")
    ensures ["a,b", "c"] != ["a", "b,c"]
  {
    assert ["a,b", "c"][0] != ["a", "b,c"][0];
  }
}

=== FILE: wrappers.dfy ===
/** The optional value used wherever the source has `undefined`/`null`. */
module Wrappers {

  datatype Option<+T> = None | Some(value: T) {

    /** The wrapped value, or `default` when there is none (JavaScript's `x ?? default`). */
    function GetOr(default: T): T {
      match this
      case Some(v) => v
      case None => default
    }
  }
}
